=== FILE: README.md ===
# Sudoku engine: solver, generator and difficulty rating in Dafny

This project models the engine behind a small Sudoku web service: the
solver (`src/sudoku.solver.js`), the puzzle generator
(`src/sudoku.generator.js`) and the difficulty rating
(`src/sudoku.difficulty.js`). The solver first runs a human-style phase.
That phase builds a candidate grid, then repeats rounds of eight techniques
until a round changes nothing. The techniques are naked singles, hidden
singles, locked candidates, naked pairs, hidden pairs, naked triples,
hidden triples and X-Wing. If the phase leaves an empty cell, the solver
finishes with depth-first backtracking. The generator randomly fills an
empty grid. It then clears cells in shuffled order while `countSolutions`
still reports exactly one solution, stopping at a givens target drawn from
the difficulty's range. The rating turns the clue count and the solve's
metrics into a weighted score and a level.

## Modelling choices

- A grid is `seq<seq<int>>` with nine rows of nine values in 0..9
  (`Grid.WellFormed`); 0 is an empty cell. The source mutates arrays in
  place; the model threads immutable values, so `cloneGrid` is implicit.
- A cell's candidate list is a `set<int>`. In the source every list starts
  ascending and free of repeats (`getCandidates`). Every later change is a
  `filter`, or, in hidden pairs, the assignment of `[a, b]` with `a < b`.
  So the order never carries information and a set holds exactly what the
  list does.
- The state the techniques share (grid, candidates, metrics, recorder) is
  `Engine.State`. The invariant `Engine.Good` says the candidates are
  sound: an empty cell lists only digits `isSafe` accepts, and a filled
  cell lists none. `Engine.Advanced(s, t, changed)` is what every technique
  promises:
  - the invariant holds;
  - givens are never overwritten and conflicts never introduced;
  - one step and one "Single" label are counted per placed digit;
  - labels and recorded steps are only appended, the fallback's
    Backtracking label is never among the appended labels, and the recorded
    placements rebuild the grid;
  - candidates only shrink, and strictly (in their total) exactly when
    `changed` is reported; with no change the state is untouched;
  - every solution the candidates allowed at the start is still allowed at
    the end (`Engine.KeepsSolutions`): a solution is a full conflict-free
    grid keeping the givens that holds, at each empty cell, a digit the
    cell lists (`Engine.Admits`).
- A pass finds its patterns in the state it has reached so far, not in the
  state it started from. So soundness is shown one deduction at a time:
  the `Deductions` module and the lemmas `Lands`, `LockSound`,
  `TupleSound`, `PairSound`, `TripleSound` and `WingSound` prove, for the
  state where a pattern is found, which digits every allowed solution
  puts in the cells it touches. The primitive updates (`Engine.Place`,
  `Narrow`, `EliminateIf`, `EliminateAll`, `Tuples.Strike`,
  `HiddenTriples.Filter`) state exactly which lists change and which
  solutions survive, and the passes chain the two.
- Each technique's `changed` result is characterised completely, as an
  if-and-only-if against the state at the start of the pass. Examples:
  `HiddenSingles` reports a change exactly when some unit has a digit with
  exactly one holder; `XWings` does so exactly when some X-Wing has a cell
  to strike.
- Technique labels are the datatype `Telemetry.Technique`. `Technique.Name`
  gives each label's exact string. The score's `includes('Single')` and
  `includes('Pair')` tests are the predicates `IsSingle` and `IsPair`;
  `LabelWords` proves they agree with the text.
- Group keys:
  - Naked tuples key by `candList.slice().sort().join(',')`. For the
    digits 1..9 the default sort is numeric order, so the model keys by
    the candidate set.
  - X-Wing keys by `cols.join(',')` and iterates `Object.keys`. Those keys
    are not array indices, so the order is insertion order. The model keys
    by the pair of positions.
  - Both group in first-occurrence order (`Scans.Collect`).
- Within one unit, hidden pairs and hidden triples read the digit positions
  from a snapshot taken at the start of the unit (`HiddenPairs.Positions`).
  They apply changes to the current candidates. For hidden pairs this means
  a cell may be overwritten by a later pair of the same unit.
  `HiddenPairs.Within` and `HiddenPairs.Kept` describe what can happen then:
  the cell keeps a subset of its unit-start list that has two digits or is
  the whole list.
- `Math.random()` values become parameters: rolls in `[0, 1)`
  (`Shuffling.IsRoll`).
  - A shuffle takes one roll per swap. `Shuffling.ShuffleReaches` shows
    that every permutation comes from some rolls.
  - Each `dfs` call of `fillGrid` draws its rolls from a function of the
    grid the call starts from. Within one fill no two calls start from the
    same grid, so this is as general as fresh rolls per call.
- The difficulty score is computed exactly over `real`. `Infinity` is the
  `Infinite` constructor of `Difficulty.ScoreValue`.
- JavaScript exceptions become the `Failure` case of `Wrappers.Result`.

## Model

| member | source | states |
|---|---|---|
| Grid.FindEmpty | src/sudoku.solver.js:21-28 | none exactly when no cell is 0; otherwise an empty cell before which, in row-major order, every cell is filled (the first empty cell) |
| Units.UnitCells | src/sudoku.solver.js:87-98 | the nine cells of the row, column or box, each listed once in the order of the loops, and no cell outside it |
| Units.CellOfRoundTrip | src/sudoku.solver.js:87-98 | every board cell lies in its row, column and box, and unitCells of that unit lists it at its index |
| Units.IndexInRoundTrip | src/sudoku.solver.js:87-98 | the k-th cell of unit idx belongs to unit idx at index k: listing and locating are inverse |
| Units.PeerIffSharedUnit | src/sudoku.solver.js:30-43 | the row, column and box scan of isSafe covers exactly the cells that share a unit with the cell |
| Safety.IsSafe | src/sudoku.solver.js:30-43 | true exactly when no cell of the row, column or box, the cell itself included, holds n |
| Safety.GetCandidates | src/sudoku.solver.js:81-85 | exactly the digits isSafe accepts, strictly ascending, each in 1..9 |
| Safety.SafeAfterPlacement | src/sudoku.solver.js:30-43 | after n is written into an empty cell, m is safe at a cell exactly when it was safe before and not (m = n and the cells are peers) |
| Safety.SafePlacementConflictFree | src/sudoku.solver.js:30-43 | writing a digit isSafe accepts into an empty cell keeps a conflict-free grid conflict-free |
| Safety.HasDuplicate | src/sudoku.solver.js:47-77 | the seen-set scan of a unit reports a value exactly when a non-zero value was already seen or repeats later |
| Safety.UnitConflict | src/sudoku.solver.js:45-79 | one unit's scan reports a conflict exactly when two of its cells hold the same non-zero value |
| Safety.ScansCoverUnits | src/sudoku.solver.js:45-79 | the interleaved row/column pass and the box pass together find a duplicate exactly when some unit has one |
| Safety.ConflictIffUnitDuplicate | src/sudoku.solver.js:45-79 | two peers hold the same non-zero value exactly when some row, column or box repeats a value |
| Safety.HasConflicts | src/sudoku.solver.js:45-79 | true exactly when some two peers hold the same non-zero value |
| Input.ValidateGrid | src/sudoku.solver.js:5-14 | true exactly for an array of nine arrays of nine integer numbers in 0..9 |
| Input.GridRoundTrip | src/sudoku.solver.js:5-14 | every grid converts to a value validateGrid accepts and back to itself |
| Input.ValueRoundTrip | src/sudoku.solver.js:5-14 | every value validateGrid accepts converts to a grid and back to itself |
| Input.ToInt32 | src/sudoku.solver.js:16-19 | `x \| 0` always lands in the signed 32-bit range and leaves an integer already in that range unchanged |
| Input.NormalizeGrid | src/sudoku.solver.js:16-19 | on a grid validateGrid accepts, normalizing returns an equal grid |
| Telemetry.CreateRecorder | src/sudoku.solver.js:589-599 | a recorder with the given flag and no steps |
| Telemetry.Record | src/sudoku.solver.js:589-599 | an enabled recorder appends the step; a disabled one is returned unchanged |
| Telemetry.DisabledStaysEmpty | src/sudoku.solver.js:589-599 | any sequence of record calls leaves a disabled recorder without steps |
| Telemetry.LabelWords | src/sudoku.difficulty.js:27-28 | a label's text includes "Single" exactly for the single labels and "Pair" exactly for the pair labels, so the counts the score uses are the source's text tests |
| Candidates.BuildCandidates | src/sudoku.solver.js:225-233 | every listed digit is safe at an empty cell, every safe digit of an empty cell is listed, filled cells list nothing |
| Candidates.FullGridNoCandidates | src/sudoku.solver.js:225-233 | a full grid gets no candidates at all |
| Candidates.UpdateCandidatesForPlacement | src/sudoku.solver.js:235-271 | the placed cell is cleared; exactly the empty peers lose the placed digit; every other list is unchanged; when recording, one Placement Propagation step is added for each empty peer that held the digit, none twice and no other step, and none when the recorder is off |
| Candidates.ShrinksTotal | src/sudoku.solver.js:619-652 | shrinking lists never raise the candidate total, and any change lowers it strictly, so the round loop ends |
| Engine.PlacementSound | src/sudoku.solver.js:235-271 | writing a candidate and updating the peers keeps the candidates sound and pointwise smaller |
| Engine.Place | src/sudoku.solver.js:277-283 | writing a candidate is progress: the grid gains n at the cell and nothing else, the candidates are exactly those updateCandidatesForPlacement leaves, one more step and the label appended; when recording, the placement step comes first, then one Placement Propagation step per empty peer that held n; every solution with n at the cell is kept, so when the solutions force n there none is lost |
| Engine.EliminateIf | src/sudoku.solver.js:329-335 | one cell loses n; a change is reported exactly when the cell is empty and listed n; no other list changes; every solution that does not put n in that empty cell is kept |
| Engine.EliminateAll | src/sudoku.solver.js:327-348 | each listed cell loses n, no other list changes, and a change is reported exactly when some listed empty cell had n; every solution that puts n in none of the listed empty cells is kept |
| Engine.Narrow | src/sudoku.solver.js:464-474 | one cell's list is replaced by a set of safe digits and no other list changes, the label pushed and the removal recorded when non-empty; a strict subset is progress; every solution holding a digit of the new list at the cell is kept |
| Deductions.Lands | src/sudoku.solver.js:298-303 | when some cell of a unit can still take n, every allowed solution puts n on one of the unit's holders of n |
| Deductions.HiddenSingleForced | src/sudoku.solver.js:299-305 | a digit with exactly one holder in a unit has that digit there in every allowed solution |
| Deductions.NakedSingleForced | src/sudoku.solver.js:277-278 | an empty cell whose only candidate is n holds n in every allowed solution |
| Deductions.UsesUp | src/sudoku.solver.js:417-422 | when as many distinct cells of a unit as K has digits all take digits of K in a solution, no other cell of the unit takes one |
| Singles.NakedSingles | src/sudoku.solver.js:273-288 | progress that keeps every solution the candidates allowed at the start, reported exactly when some empty cell had one candidate at the start |
| Singles.PlaceSole | src/sudoku.solver.js:277-283 | an empty cell with one candidate receives that candidate |
| Singles.HiddenSingles | src/sudoku.solver.js:290-315 | progress that keeps every solution the candidates allowed at the start, reported exactly when some row, column or box had a digit with exactly one holder at the start |
| Locked.LockedCandidates | src/sudoku.solver.js:317-395 | progress that keeps every solution the candidates allowed at the start, without placing, reported exactly when some box points along a row or column, or some row or column claims into a box, with a cell to strike |
| Locked.Pointing | src/sudoku.solver.js:320-350 | for one box and digit: a change exactly when the holders lie in one row or in one column and a cell of that line outside the box lists the digit |
| Locked.LockAlong | src/sudoku.solver.js:352-393 | the digit leaves only cells outside the unit, and a change is reported exactly when the holders are aligned and such a cell listed it |
| Locked.NotBothAligned | src/sudoku.solver.js:325-326 | two or more holders of a box are never all in one row and all in one column |
| Locked.LockSound | src/sudoku.solver.js:323-393 | when a unit's holders of n, two or more, lie in one line of the other kind, no allowed solution puts n in a cell of that line outside the unit |
| Locked.FewHoldersNotLocked | src/sudoku.solver.js:324 | a unit with at most one holder of the digit never triggers an elimination |
| Tuples.NakedTuples | src/sudoku.solver.js:397-438 | progress that keeps every solution the candidates allowed at the start, without placing, reported exactly when some unit has `size` empty cells whose candidate set is the same `size`-digit set K and another empty cell shares a digit with K |
| Tuples.MembersMatch | src/sudoku.solver.js:405-414 | the group of key K holds exactly the unit's empty cells whose candidate set is K |
| Tuples.TupleSound | src/sudoku.solver.js:415-422 | when a unit has as many empty cells with candidate set K as K has digits, no allowed solution puts a digit of K in the unit's other empty cells |
| Tuples.Strike | src/sudoku.solver.js:419-430 | the unit's empty cells outside the group lose K and no other list changes; a change is reported exactly when one of them shared a digit with K; every solution with no digit of K in those cells is kept |
| Tuples.StrikeChanges | src/sudoku.solver.js:421-423 | removing K changes a list's length exactly when the list shares a digit with K |
| HiddenPairs.HiddenPairsPass | src/sudoku.solver.js:440-482 | progress that keeps every solution the candidates allowed at the start, without placing, reported exactly when some unit has digits a < b held by the same two cells, one of which does not list exactly two digits |
| HiddenPairs.PairAtIff | src/sudoku.solver.js:447-462 | the check on the position snapshot holds exactly when the digits form a hidden pair with something to strip |
| HiddenPairs.PairUnit | src/sudoku.solver.js:445-478 | for one unit: progress, reported exactly when a hidden pair with something to strip exists at the unit's start |
| HiddenPairs.PairSound | src/sudoku.solver.js:453-466 | when digits a and b have the same two holders in a unit, every allowed solution puts a or b in each of them |
| HiddenPairs.PinCell | src/sudoku.solver.js:462-466 | each cell of a hidden pair takes a or b in every solution the state allows, which is what overwriting its list with [a, b] needs |
| HiddenPairs.Overwrite | src/sudoku.solver.js:464-467 | assigning the pair keeps every list within its unit-start list, and lowers the total exactly when the cell did not list two digits |
| HiddenTriples.HiddenTriplesPass | src/sudoku.solver.js:484-526 | progress that keeps every solution the candidates allowed at the start, without placing, reported exactly when some unit has digits a < b < c with one to three holders each, three cells in all, one listing another digit |
| HiddenTriples.TripleAtIff | src/sudoku.solver.js:489-505 | the check on the position snapshot holds exactly when the digits form such a hidden triple |
| HiddenTriples.UnionFacts | src/sudoku.solver.js:504 | the deduplicated union names the same cells as the three position lists, each once |
| HiddenTriples.Filter | src/sudoku.solver.js:506-517 | each of the three cells keeps exactly its digits of the triple and every other list is unchanged; a change is reported exactly when one of them listed another digit; every solution putting a digit of the triple in each of the three cells is kept |
| HiddenTriples.TripleSound | src/sudoku.solver.js:493-508 | when digits a < b < c have one to three holders each and three holders in all, every allowed solution puts one of a, b, c in each of those cells |
| HiddenTriples.TriplePin | src/sudoku.solver.js:504-508 | each cell of the triple's union takes a, b or c in every solution the state allows, which is what filtering its list needs |
| HiddenTriples.TripleUnit | src/sudoku.solver.js:488-523 | for one unit: progress, reported exactly when such a hidden triple exists at the unit's start |
| XWing.XWings | src/sudoku.solver.js:528-587 | progress that keeps every solution the candidates allowed at the start, without placing, reported exactly when, for some digit and direction, exactly two lines share the same two positions of it and another line lists it at one of those positions |
| XWing.WingIff | src/sudoku.solver.js:533-536 | a line's key is (x1, x2) exactly when x1 < x2 are the only two positions holding the digit |
| XWing.LinesWithIff | src/sudoku.solver.js:538-541 | a group lists exactly the lines whose key it is |
| XWing.MembersLines | src/sudoku.solver.js:538 | the reduce into groups collects, for each key, the lines with that key in ascending order |
| XWing.TargetsExactly | src/sudoku.solver.js:543-553 | the cells visited are exactly those at the two cross positions in lines other than the wing's |
| XWing.LineLands | src/sudoku.solver.js:531-536 | in a line whose only holders of n are at the two key positions, every allowed solution puts n at one of them |
| XWing.WingSound | src/sudoku.solver.js:538-553 | when two lines hold n only at the same two positions, no allowed solution puts n at those positions in any other line |
| XWing.WingDigit | src/sudoku.solver.js:531-557 | for one digit: progress, reported exactly when an X-Wing with a cell to strike exists |
| HumanPhase.Realize | src/sudoku.solver.js:601-617 | the singles pass after an elimination keeps the round's progress and loses no solution; it reports a placement exactly when some empty cell had one candidate |
| HumanPhase.StartAdmits | src/sudoku.solver.js:225-233 | every solution of the puzzle is allowed by the candidates buildCandidates computes |
| HumanPhase.PlacingRound | src/sudoku.solver.js:623-624 | no progress exactly when neither naked nor hidden singles apply |
| HumanPhase.FirstEliminations | src/sudoku.solver.js:625-636 | no progress exactly when locked candidates, naked pairs and hidden pairs all do not apply |
| HumanPhase.LastEliminations | src/sudoku.solver.js:637-648 | no progress exactly when naked triples, hidden triples and X-Wing all do not apply |
| HumanPhase.Round | src/sudoku.solver.js:622-649 | a round reports no progress exactly when no technique applies |
| HumanPhase.HumanSolvePhase | src/sudoku.solver.js:619-652 | ends in a state no technique applies to, reached by technique steps only, candidates within those of buildCandidates; every solution of the puzzle is still allowed by its candidates; a grid without candidates is left as it is |
| Search.Dfs | src/sudoku.solver.js:157-171 | a successful search leaves a full grid that keeps the givens and is conflict-free when the input is; a failed one leaves the input grid as it was; backtracks never exceed steps |
| Search.SolveBacktracking | src/sudoku.solver.js:153-175 | a solution is returned exactly when solved, is full and keeps the givens, solves a conflict-free puzzle, and backtracks never exceed steps |
| Search.DfsComplete | src/sudoku.solver.js:157-170 | the search succeeds on every grid that has a solution |
| Search.SolvedIffSolvable | src/sudoku.solver.js:153-175 | on a conflict-free grid, solveBacktracking succeeds exactly when a solution exists |
| Search.CountDfs | src/sudoku.solver.js:180-195 | the count never goes down, is left alone once it reaches max, and never passes max from below |
| Search.CountSolutions | src/sudoku.solver.js:177-198 | the count lies in 0..max |
| Search.CountFull | src/sudoku.solver.js:177-198 | a full grid counts exactly one solution |
| Search.CountIffSolved | src/sudoku.solver.js:177-198 | countSolutions finds at least one exactly when solveBacktracking succeeds |
| Solver.HumanPart | src/sudoku.solver.js:200-206 | the phase ends in a state no technique applies to, reached from the start by technique steps only; it keeps the givens and freedom from conflicts, counts one step and one "Single" label per placement, no backtracks and no Backtracking label, records a replayable trace only when explaining, and leaves a full grid as it is |
| Solver.Conclude | src/sudoku.solver.js:208-222 | a full grid is reported as is with the phase's metrics; otherwise the solution is the fallback's and the metrics are the phase's steps and backtracks plus the fallback's, with Backtracking appended to the labels; the trace is attached exactly when recording |
| Solver.PhaseKeeps | src/sudoku.solver.js:200-206 | every solution of the puzzle still solves the grid the human-style phase leaves |
| Solver.SolveSudoku | src/sudoku.solver.js:200-223 | the ghost phase state is what humanSolvePhase leaves: no technique applies to it, and it follows from the start by technique steps; the trace is that state's recorded steps exactly when explaining, and they rebuild its grid; keeps the givens; the labels are the phase's, with Backtracking appended exactly when the phase left an empty cell, and then the solution is the fallback's, the steps are the phase's placements plus the fallback's steps and the backtracks are the fallback's; otherwise the phase's grid is returned with one step per placement; a returned solution solves a conflict-free puzzle; the fallback fails only when no solution extends the phase's grid, so every solvable puzzle gets a solution; backtracks never exceed steps; a full grid comes back unchanged with empty metrics |
| Shuffling.Pick | src/sudoku.generator.js:5 | `Math.floor(u * (i + 1))` is an index in 0..i |
| Shuffling.PickReaches | src/sudoku.generator.js:5 | every index in 0..i is picked by some roll |
| Shuffling.Shuffle | src/sudoku.generator.js:3-9 | the shuffled array is as long as the input |
| Shuffling.ShufflePermutes | src/sudoku.generator.js:3-9 | the shuffle returns a permutation of its input |
| Shuffling.ShuffleReaches | src/sudoku.generator.js:3-9 | every permutation of the input is the shuffle of some rolls |
| Fill.Order | src/sudoku.generator.js:21 | the shuffled digit array lists each of 1..9 |
| Fill.EmptyGrid | src/sudoku.generator.js:11-13 | nine rows of nine zeros |
| Fill.EmptyGridConflictFree | src/sudoku.generator.js:11-13 | the empty grid has no conflicts |
| Fill.FillDfs | src/sudoku.generator.js:17-33 | a filled result is full, keeps the givens and is conflict-free when the input is |
| Fill.FillGrid | src/sudoku.generator.js:15-36 | a returned grid solves the input when the input is conflict-free |
| Fill.FillComplete | src/sudoku.generator.js:17-33 | whatever the shuffles, the fill succeeds on every grid that has a solution |
| Fill.FillGridIff | src/sudoku.generator.js:15-36 | on a conflict-free grid, fillGrid returns a grid exactly when a solution exists |
| Fill.FullUnitsArePermutations | src/sudoku.generator.js:15-36 | in a full conflict-free grid each row, column and box holds each digit 1..9 exactly once |
| Fill.PatternSolvesEmpty | src/sudoku.generator.js:77 | a fixed full conflict-free grid completes the empty grid |
| Fill.FillEmptySucceeds | src/sudoku.generator.js:77-78 | whatever the shuffles, filling the empty grid succeeds, so the throw is never reached |
| Generator.TargetsAsWritten | src/sudoku.generator.js:39-45 | the lookup as written fails exactly for the names every object inherits |
| Generator.ConstructorThrows | src/sudoku.generator.js:45 | "constructor" does not fall back to medium but throws |
| Generator.Targets | src/sudoku.generator.js:39-45 | the intended lookup's range lies within 24..40 |
| Generator.TargetsTable | src/sudoku.generator.js:39-45 | a table range, medium for unknown names, and equal to the code as written wherever that does not throw |
| Generator.TargetGivens | src/sudoku.generator.js:46-48 | the drawn target lies in the range |
| Generator.TargetReachable | src/sudoku.generator.js:46-48 | every target in the range is drawn by some roll |
| Generator.Cells | src/sudoku.generator.js:52 | 81 distinct coordinates covering the board |
| Generator.ShuffledCells | src/sudoku.generator.js:51-53 | the shuffled coordinates still cover every cell |
| Generator.ClearStep | src/sudoku.generator.js:57-69 | clearing a cell that keeps one solution is a reduction of the full grid with one more cell removed |
| Generator.RemoveCellsForDifficulty | src/sudoku.generator.js:38-72 | the puzzle keeps some cells of the full grid and clears the rest; countSolutions finds exactly one solution; the givens never drop below the target and meet it on the break |
| Generator.GenerateSudoku | src/sudoku.generator.js:74-81 | fails exactly when the fill fails, which never happens; the solution is full and conflict-free, solves the puzzle, and the puzzle has one solution by countSolutions and at least the target givens |
| Difficulty.RowClues | src/sudoku.difficulty.js:3-9 | the clues and empty cells of a row add up to its length |
| Difficulty.CountClues | src/sudoku.difficulty.js:3-9 | on rows of nine cells, the clues and the empty cells add up to the number of cells |
| Difficulty.CountCluesRange | src/sudoku.difficulty.js:3-9 | the clue count is at most 81, and 81 exactly on a full grid |
| Difficulty.ScoreToLevel | src/sudoku.difficulty.js:11-16 | the level's rank is the number of thresholds 120, 300, 700 the score reaches |
| Difficulty.LevelMonotone | src/sudoku.difficulty.js:11-16 | a higher score never gives an easier level |
| Difficulty.Score | src/sudoku.difficulty.js:32 | with at most 81 clues, non-negative metrics and no more "Single" labels than steps, the weighted score is not negative |
| Difficulty.Round | src/sudoku.difficulty.js:34 | Math.round gives the integer nearest the score, halves rounded up |
| Difficulty.EvaluateDifficulty | src/sudoku.difficulty.js:18-35 | the solveSudoku call meets its contract, with its phase state the stuck end of the human-style phase; the score is Infinity exactly when that call returns no solution, and then the level is expert and the metrics empty; otherwise the metrics are that call's, the level is that of the unrounded score over the clue count and those metrics, and the score is its rounding, never negative; a full grid rates easy with score 0 |

## Findings

| source | as written | input that shows it | evidently intended | confidence | as-written member | corrected member |
|---|---|---|---|---|---|---|
| src/sudoku.generator.js:45 | `targets[difficulty] \|\| targets.medium` looks the name up on a plain object, so inherited names such as `constructor` find a function, and the array destructuring throws a TypeError | `removeCellsForDifficulty(full, "constructor")` (likewise `toString`, `__proto__` and the other inherited names) | every name outside the table falls back to the medium range | not executed; app.js:146 only passes the four table names, so the HTTP routes cannot reach it | Generator.TargetsAsWritten | Generator.Targets |

## Left out

- Singles.NakedSingles: the pass states the digits it places (candidates at the start), the solutions it keeps and when it reports a change, not cell by cell which cells it fills. Later singles appear in the state earlier placements of the same pass leave (src/sudoku.solver.js:275-283), so the effect is not a function of the singles present at the start. On a puzzle no grid solves, keeping solutions says nothing, and any such bookkeeping-correct shrinking meets the contract.
- Singles.HiddenSingles: as for NakedSingles; a hidden single may appear only after an earlier placement of the same pass (src/sudoku.solver.js:297-312).
- Locked.LockedCandidates: states which solutions survive and when a change is reported, not which lists lose which digit; claiming runs on the lists pointing left (src/sudoku.solver.js:320-393). On a puzzle no grid solves, the lists may shrink arbitrarily under the contract.
- Tuples.NakedTuples: as for LockedCandidates; later units see the lists earlier units left (src/sudoku.solver.js:400-436).
- HiddenPairs.HiddenPairsPass: as for LockedCandidates; each unit reads the lists earlier units left (src/sudoku.solver.js:443-480).
- HiddenTriples.HiddenTriplesPass: as for LockedCandidates; each unit reads the lists earlier units left (src/sudoku.solver.js:487-524).
- XWing.XWings: as for LockedCandidates; each digit and the column pass read the lists earlier eliminations left (src/sudoku.solver.js:531-586).
- Generator.RemoveCellsForDifficulty: uniqueness is stated as `countSolutions(puzzle, 2) == 1`. That the full grid is then the puzzle's only solution is not proved. It also draws its range from the corrected lookup `Generator.Targets`. For a name every object inherits, such as "constructor", src/sudoku.generator.js:45 throws a TypeError, and only `Generator.TargetsAsWritten` models that throw.
- Generator.GenerateSudoku: the difficulty is a parameter; the default 'medium' of src/sudoku.generator.js:74 for a call without one is left to the caller. It uses the corrected lookup too, so it never fails. As written, it throws the TypeError of src/sudoku.generator.js:45 for a name every object inherits; see the Findings row.
- Difficulty.EvaluateDifficulty: the score is exact real arithmetic, not IEEE doubles. Products such as `1.3 * k` can round differently in floating point, which can move a score sitting at a threshold or at a half.
- Fill.FillGrid: the shuffle rolls are a function of the grid a `dfs` call starts from, not a stream of fresh random numbers. Within one fill this is no loss, as explained above.
- Inputs that are not 9 × 9 grids of 0..9 are excluded by the `WellFormed` precondition. The HTTP layer calls the core only on grids `validateGrid` accepted (app.js:191, 269, 319) and on generated grids.
- The search's comment "try fewer candidates first" (solver.js:162) does not describe the code, which tries the digits in ascending order; the model follows the code.
- The legacy helpers `findNakedSingles`, `findHiddenSingles` and `eliminateWithNakedPairs` (solver.js:100-151) are left out: nothing calls them.
- The informational seed string of `generateSudoku`, built from `Date.now()` and a random number, is not modelled: no result depends on it.
- The HTTP routes, server and hosting wrappers (`src/app.js`, `src/server.js`, `netlify/functions/api.js`) are not part of this model.
- The recorder is a value, not an object with a closure. Object identity and the shared `steps` array are not modelled.
- Running time is not modelled, including the early exit of `countSolutions` as a cost measure (its effect on the count is modelled).

=== FILE: candidates.dfy ===
/** The incremental candidate grid of the human-style phase: buildCandidates
    and updateCandidatesForPlacement, the invariant that ties candidates to
    isSafe, and the total candidate count that the phase drives down. */
module Candidates {
  import opened Grid
  import opened Units
  import opened Safety
  import opened Telemetry

  /** One candidate set per cell. The source keeps ascending lists without
      repeats, which sets represent exactly. */
  type CandGrid = seq<seq<set<int>>>

  predicate Shaped(cand: CandGrid) {
    |cand| == 9 && forall r :: 0 <= r < 9 ==> |cand[r]| == 9
  }

  /** The central invariant: a digit is kept only for an empty cell, and
      only if isSafe accepts it there. */
  ghost predicate Sound(g: Grid, cand: CandGrid)
    requires WellFormed(g) && Shaped(cand)
  {
    forall r, c, n :: InBounds(r, c) && n in cand[r][c] ==> g[r][c] == 0 && 1 <= n <= 9 && IsSafe(g, r, c, n)
  }

  /** Every cell of b keeps a subset of what the same cell of a holds. */
  ghost predicate Shrinks(a: CandGrid, b: CandGrid)
    requires Shaped(a) && Shaped(b)
  {
    forall r, c :: InBounds(r, c) ==> b[r][c] <= a[r][c]
  }

  function RowTotal(row: seq<set<int>>): nat
  {
    if row == [] then 0 else |row[0]| + RowTotal(row[1..])
  }

  /** The number of candidates over all cells. */
  function Total(cand: CandGrid): nat
  {
    if cand == [] then 0 else RowTotal(cand[0]) + Total(cand[1..])
  }

  /** A set of positive size has an element. */
  lemma HasElement(a: set<int>)
    requires |a| > 0
    ensures exists x :: x in a
  {
    if forall x :: x !in a {
      assert false;
    }
  }

  lemma SubsetCard(a: set<int>, b: set<int>)
    requires b <= a
    ensures |b| <= |a|
    ensures |b| == |a| ==> a == b
  {
    assert a == b + (a - b);
    assert b * (a - b) == {};
    if |b| == |a| {
      assert |a - b| == 0;
    }
  }

  lemma {:induction false} RowTotalUpdate(row: seq<set<int>>, c: int, s: set<int>)
    requires 0 <= c < |row|
    ensures RowTotal(row[c := s]) + |row[c]| == RowTotal(row) + |s|
  {
    if c > 0 {
      assert row[c := s][1..] == row[1..][c - 1 := s];
      RowTotalUpdate(row[1..], c - 1, s);
    }
  }

  /** Replacing one cell's set changes the total by the difference in size. */
  lemma {:induction false} TotalUpdate(cand: CandGrid, r: int, c: int, s: set<int>)
    requires 0 <= r < |cand| && 0 <= c < |cand[r]|
    ensures Total(cand[r := cand[r][c := s]]) + |cand[r][c]| == Total(cand) + |s|
  {
    if r == 0 {
      assert cand[r := cand[r][c := s]][1..] == cand[1..];
      RowTotalUpdate(cand[0], c, s);
    } else {
      assert cand[r := cand[r][c := s]][1..] == cand[1..][r - 1 := cand[r][c := s]];
      TotalUpdate(cand[1..], r - 1, c, s);
    }
  }

  lemma {:induction false} RowTotalZero(row: seq<set<int>>)
    requires forall c :: 0 <= c < |row| ==> row[c] == {}
    ensures RowTotal(row) == 0
  {
    if row != [] {
      RowTotalZero(row[1..]);
    }
  }

  /** A grid of empty sets has no candidates. */
  lemma {:induction false} TotalZero(cand: CandGrid)
    requires forall r, c :: 0 <= r < |cand| && 0 <= c < |cand[r]| ==> cand[r][c] == {}
    ensures Total(cand) == 0
  {
    if cand != [] {
      RowTotalZero(cand[0]);
      assert forall r, c :: 0 <= r < |cand| - 1 && 0 <= c < |cand[1..][r]| ==> cand[1..][r][c] == cand[r + 1][c];
      TotalZero(cand[1..]);
    }
  }

  /** Pointwise shrinking lowers the total, strictly if some cell lost a
      candidate. */
  lemma {:induction false} ShrinksTotal(a: CandGrid, b: CandGrid)
    requires Shaped(a) && Shaped(b) && Shrinks(a, b)
    ensures Total(b) <= Total(a)
    ensures (exists r, c :: InBounds(r, c) && b[r][c] != a[r][c]) ==> Total(b) < Total(a)
  {
    ShrinksRows(a, b, 0);
  }

  lemma {:induction false} ShrinksRows(a: CandGrid, b: CandGrid, r: int)
    requires Shaped(a) && Shaped(b) && Shrinks(a, b) && 0 <= r <= 9
    decreases 9 - r
    ensures Total(b[r..]) <= Total(a[r..])
    ensures (exists r2, c :: r <= r2 < 9 && 0 <= c < 9 && b[r2][c] != a[r2][c]) ==> Total(b[r..]) < Total(a[r..])
  {
    if r < 9 {
      assert a[r..][1..] == a[r + 1..] && b[r..][1..] == b[r + 1..];
      ShrinksCells(a[r], b[r], 0);
      ShrinksRows(a, b, r + 1);
    }
  }

  lemma {:induction false} ShrinksCells(a: seq<set<int>>, b: seq<set<int>>, c: int)
    requires |a| == 9 && |b| == 9 && 0 <= c <= 9
    requires forall k :: 0 <= k < 9 ==> b[k] <= a[k]
    decreases 9 - c
    ensures RowTotal(b[c..]) <= RowTotal(a[c..])
    ensures (exists k :: c <= k < 9 && b[k] != a[k]) ==> RowTotal(b[c..]) < RowTotal(a[c..])
  {
    if c < 9 {
      assert a[c..][1..] == a[c + 1..] && b[c..][1..] == b[c + 1..];
      SubsetCard(a[c], b[c]);
      ShrinksCells(a, b, c + 1);
    }
  }

  function Elems(xs: seq<int>): (s: set<int>)
    ensures forall x :: x in s <==> x in xs
  {
    set x | x in xs
  }

  /** buildCandidates: the candidates isSafe allows at every empty cell and
      none at a filled one. */
  function BuildCandidates(g: Grid): (cand: CandGrid)
    requires WellFormed(g)
    ensures Shaped(cand) && Sound(g, cand)
    ensures forall r, c, n :: InBounds(r, c) && g[r][c] == 0 && 1 <= n <= 9 && IsSafe(g, r, c, n) ==> n in cand[r][c]
    ensures forall r, c :: InBounds(r, c) && g[r][c] != 0 ==> cand[r][c] == {}
  {
    seq(9, r requires 0 <= r < 9 =>
      seq(9, c requires 0 <= c < 9 => if g[r][c] == 0 then Elems(GetCandidates(g, r, c)) else {}))
  }

  /** On a full grid there is nothing to do: no candidates at all. */
  lemma FullGridNoCandidates(g: Grid)
    requires WellFormed(g) && ZeroFree(g)
    ensures Total(BuildCandidates(g)) == 0
  {
    TotalZero(BuildCandidates(g));
  }

  /** The propagation step recorded for removing n from cell (r, c). */
  function PropagationStep(r: int, c: int, n: int): Step {
    Step(PlacementPropagation, [], [Move(r, c, n)])
  }

  /** One `before.filter(x => x !== n)` of updateCandidatesForPlacement,
      guarded by the cell being empty, with its optional record. */
  method Strip(g: Grid, cand: CandGrid, r: int, c: int, n: int, rec: Recorder) returns (cand': CandGrid, rec': Recorder)
    requires WellFormed(g) && Shaped(cand) && InBounds(r, c)
    ensures Shaped(cand')
    ensures forall r2, c2 :: InBounds(r2, c2) && (r2 != r || c2 != c) ==> cand'[r2][c2] == cand[r2][c2]
    ensures cand'[r][c] == if g[r][c] == 0 then cand[r][c] - {n} else cand[r][c]
    ensures rec' == if g[r][c] == 0 && n in cand[r][c] then Record(rec, PropagationStep(r, c, n)) else rec
    ensures OnlyLoses(n, cand, cand') && Logged(g, n, cand, cand', rec, rec')
  {
    cand', rec' := cand, rec;
    if g[r][c] == 0 {
      var before := cand[r][c];
      var after := before - {n};
      if |after| != |before| {
        rec' := Record(rec, PropagationStep(r, c, n));
      }
      cand' := cand[r := cand[r][c := after]];
    }
  }

  /** A step updateCandidatesForPlacement may record after placing n at
      (r, c): the removal of n from an empty peer that held it. */
  ghost predicate Propagates(g: Grid, cand: CandGrid, r: int, c: int, n: int, st: Step)
    requires WellFormed(g) && Shaped(cand)
  {
    && st.technique == PlacementPropagation && st.placements == []
    && |st.eliminations| == 1
    && var m := st.eliminations[0];
    && m.n == n && InBounds(m.r, m.c) && Peer(r, c, m.r, m.c)
    && g[m.r][m.c] == 0 && n in cand[m.r][m.c]
  }

  /** The recorder rec' extends rec with propagation steps only, and only if
      enabled. */
  ghost predicate RecordsPropagation(g: Grid, cand: CandGrid, r: int, c: int, n: int, rec: Recorder, rec': Recorder)
    requires WellFormed(g) && Shaped(cand)
  {
    && rec'.enabled == rec.enabled
    && rec.steps <= rec'.steps
    && (!rec.enabled ==> rec' == rec)
    && forall i :: |rec.steps| <= i < |rec'.steps| ==> Propagates(g, cand, r, c, n, rec'.steps[i])
  }

  /** Step st is the propagation step of an empty cell that listed n in
      cand and no longer does in cand'. */
  ghost predicate Lost(g: Grid, n: int, cand: CandGrid, cand': CandGrid, st: Step)
    requires WellFormed(g) && Shaped(cand) && Shaped(cand')
  {
    && |st.eliminations| == 1
    && var m := st.eliminations[0];
    && InBounds(m.r, m.c) && st == PropagationStep(m.r, m.c, n)
    && g[m.r][m.c] == 0 && n in cand[m.r][m.c] && n !in cand'[m.r][m.c]
  }

  /** No cell gains n on the way from cand to cand'. */
  ghost predicate OnlyLoses(n: int, cand: CandGrid, cand': CandGrid)
    requires Shaped(cand) && Shaped(cand')
  {
    forall r, c :: InBounds(r, c) && n in cand'[r][c] ==> n in cand[r][c]
  }

  /** The steps rec' adds to rec while the candidates go from cand to cand':
      when recording, one propagation step for each empty cell that lost n,
      none twice and nothing else; when not, none. */
  ghost predicate Logged(g: Grid, n: int, cand: CandGrid, cand': CandGrid, rec: Recorder, rec': Recorder)
    requires WellFormed(g) && Shaped(cand) && Shaped(cand')
  {
    var ok :=
      && rec'.enabled == rec.enabled && rec.steps <= rec'.steps
      && (!rec.enabled ==> rec' == rec)
      && (rec.enabled ==> forall i :: |rec.steps| <= i < |rec'.steps| ==> Lost(g, n, cand, cand', rec'.steps[i]))
      && (rec.enabled ==> forall i, j :: |rec.steps| <= i < j < |rec'.steps| ==> rec'.steps[i] != rec'.steps[j])
      && (rec.enabled ==> forall r, c :: InBounds(r, c) && g[r][c] == 0 && n in cand[r][c] && n !in cand'[r][c] ==>
            PropagationStep(r, c, n) in rec'.steps[|rec.steps|..]);
    ok
  }

  /** Two logged runs in a row make one logged run. */
  lemma LoggedTrans(g: Grid, n: int, c0: CandGrid, c1: CandGrid, c2: CandGrid, r0: Recorder, r1: Recorder, r2: Recorder)
    requires WellFormed(g) && Shaped(c0) && Shaped(c1) && Shaped(c2)
    requires Logged(g, n, c0, c1, r0, r1) && Logged(g, n, c1, c2, r1, r2)
    requires OnlyLoses(n, c0, c1) && OnlyLoses(n, c1, c2)
    ensures Logged(g, n, c0, c2, r0, r2)
  {
    if r0.enabled {
      LoggedTransSound(g, n, c0, c1, c2, r0, r1, r2);
      LoggedTransOnce(g, n, c0, c1, c2, r0, r1, r2);
      LoggedTransComplete(g, n, c0, c1, c2, r0, r1, r2);
    }
  }

  /** Every step of two logged runs is for a cell that lost n overall. */
  lemma LoggedTransSound(g: Grid, n: int, c0: CandGrid, c1: CandGrid, c2: CandGrid, r0: Recorder, r1: Recorder, r2: Recorder)
    requires WellFormed(g) && Shaped(c0) && Shaped(c1) && Shaped(c2) && r0.enabled
    requires Logged(g, n, c0, c1, r0, r1) && Logged(g, n, c1, c2, r1, r2)
    requires OnlyLoses(n, c0, c1) && OnlyLoses(n, c1, c2)
    ensures forall i :: |r0.steps| <= i < |r2.steps| ==> Lost(g, n, c0, c2, r2.steps[i])
  {
    forall i | |r0.steps| <= i < |r2.steps|
      ensures Lost(g, n, c0, c2, r2.steps[i])
    {
      if i < |r1.steps| {
        assert r2.steps[i] == r1.steps[i];
        assert Lost(g, n, c0, c1, r1.steps[i]);
      } else {
        assert Lost(g, n, c1, c2, r2.steps[i]);
      }
    }
  }

  /** Two logged runs in a row record no step twice: the first run's cells
      no longer list n, the second's still did. */
  lemma LoggedTransOnce(g: Grid, n: int, c0: CandGrid, c1: CandGrid, c2: CandGrid, r0: Recorder, r1: Recorder, r2: Recorder)
    requires WellFormed(g) && Shaped(c0) && Shaped(c1) && Shaped(c2) && r0.enabled
    requires Logged(g, n, c0, c1, r0, r1) && Logged(g, n, c1, c2, r1, r2)
    ensures forall i, j :: |r0.steps| <= i < j < |r2.steps| ==> r2.steps[i] != r2.steps[j]
  {
    var b := |r1.steps|;
    forall i, j | |r0.steps| <= i < j < |r2.steps|
      ensures r2.steps[i] != r2.steps[j]
    {
      if j < b {
        assert r2.steps[i] == r1.steps[i] && r2.steps[j] == r1.steps[j];
      } else if i < b {
        assert r2.steps[i] == r1.steps[i];
        assert Lost(g, n, c0, c1, r1.steps[i]);
        assert Lost(g, n, c1, c2, r2.steps[j]);
      }
    }
  }

  /** Every cell that lost n over two logged runs was logged by one of
      them. */
  lemma LoggedTransComplete(g: Grid, n: int, c0: CandGrid, c1: CandGrid, c2: CandGrid, r0: Recorder, r1: Recorder, r2: Recorder)
    requires WellFormed(g) && Shaped(c0) && Shaped(c1) && Shaped(c2) && r0.enabled
    requires Logged(g, n, c0, c1, r0, r1) && Logged(g, n, c1, c2, r1, r2)
    requires OnlyLoses(n, c0, c1)
    ensures forall r, c :: InBounds(r, c) && g[r][c] == 0 && n in c0[r][c] && n !in c2[r][c] ==>
      PropagationStep(r, c, n) in r2.steps[|r0.steps|..]
  {
    var a, b, e := |r0.steps|, |r1.steps|, |r2.steps|;
    forall r, c | InBounds(r, c) && g[r][c] == 0 && n in c0[r][c] && n !in c2[r][c]
      ensures PropagationStep(r, c, n) in r2.steps[a..]
    {
      var st := PropagationStep(r, c, n);
      if n !in c1[r][c] {
        assert st in r1.steps[a..];
        var k :| 0 <= k < b - a && r1.steps[a..][k] == st;
        assert r2.steps[a..][k] == r1.steps[a + k];
      } else {
        assert st in r2.steps[b..];
        var k :| 0 <= k < e - b && r2.steps[b..][k] == st;
        assert r2.steps[a..][k + b - a] == st;
      }
    }
  }

  /** When recording, every empty peer of (r, c) that listed n has its
      propagation step among the steps rec' adds to rec, and no step is
      added twice. */
  ghost predicate RecordsEveryPeer(g: Grid, cand: CandGrid, r: int, c: int, n: int, rec: Recorder, rec': Recorder)
    requires WellFormed(g) && Shaped(cand)
  {
    rec.enabled && rec.steps <= rec'.steps ==>
      && (forall r2, c2 :: InBounds(r2, c2) && Peer(r, c, r2, c2) && g[r2][c2] == 0 && n in cand[r2][c2] ==>
            PropagationStep(r2, c2, n) in rec'.steps[|rec.steps|..])
      && (forall i, j :: |rec.steps| <= i < j < |rec'.steps| ==> rec'.steps[i] != rec'.steps[j])
  }

  /** The first loop of updateCandidatesForPlacement: row r and column c. */
  method StripLines(g: Grid, cand: CandGrid, r: int, c: int, n: int, rec: Recorder)
    returns (cand': CandGrid, rec': Recorder)
    requires WellFormed(g) && Shaped(cand) && InBounds(r, c) && g[r][c] != 0
    ensures Shaped(cand')
    ensures forall r2, c2 :: InBounds(r2, c2) ==>
      cand'[r2][c2] == if g[r2][c2] == 0 && (r2 == r || c2 == c) then cand[r2][c2] - {n} else cand[r2][c2]
    ensures RecordsPropagation(g, cand, r, c, n, rec, rec')
    ensures Logged(g, n, cand, cand', rec, rec')
  {
    cand', rec' := cand, rec;
    var i := 0;
    while i < 9
      invariant 0 <= i <= 9 && Shaped(cand')
      invariant forall r2, c2 :: InBounds(r2, c2) ==>
        cand'[r2][c2] == if g[r2][c2] == 0 && ((r2 == r && c2 < i) || (c2 == c && r2 < i)) then cand[r2][c2] - {n} else cand[r2][c2]
      invariant RecordsPropagation(g, cand, r, c, n, rec, rec')
      invariant Logged(g, n, cand, cand', rec, rec')
    {
      var c1, r1 := Strip(g, cand', r, i, n, rec');
      LoggedTrans(g, n, cand, cand', c1, rec, rec', r1);
      var c2, r2 := Strip(g, c1, i, c, n, r1);
      LoggedTrans(g, n, cand, c1, c2, rec, r1, r2);
      cand', rec' := c2, r2;
      i := i + 1;
    }
  }

  /** One row of the box loop of updateCandidatesForPlacement: cells
      (rr, bc), (rr, bc + 1), (rr, bc + 2). */
  method StripBoxRow(g: Grid, cand: CandGrid, r: int, c: int, rr: int, bc: int, n: int, rec: Recorder)
    returns (cand': CandGrid, rec': Recorder)
    requires WellFormed(g) && Shaped(cand) && InBounds(r, c) && g[r][c] != 0
    requires 0 <= rr < 9 && 0 <= bc <= 6 && forall c2 :: bc <= c2 < bc + 3 ==> Peer(r, c, rr, c2)
    ensures Shaped(cand')
    ensures forall r2, c2 :: InBounds(r2, c2) ==>
      cand'[r2][c2] == if g[r2][c2] == 0 && r2 == rr && bc <= c2 < bc + 3 then cand[r2][c2] - {n} else cand[r2][c2]
    ensures RecordsPropagation(g, cand, r, c, n, rec, rec')
    ensures Logged(g, n, cand, cand', rec, rec')
  {
    cand', rec' := cand, rec;
    var cc := bc;
    while cc < bc + 3
      invariant bc <= cc <= bc + 3 && Shaped(cand')
      invariant forall r2, c2 :: InBounds(r2, c2) ==>
        cand'[r2][c2] == if g[r2][c2] == 0 && r2 == rr && bc <= c2 < cc then cand[r2][c2] - {n} else cand[r2][c2]
      invariant RecordsPropagation(g, cand, r, c, n, rec, rec')
      invariant Logged(g, n, cand, cand', rec, rec')
    {
      var c1, r1 := Strip(g, cand', rr, cc, n, rec');
      LoggedTrans(g, n, cand, cand', c1, rec, rec', r1);
      cand', rec' := c1, r1;
      cc := cc + 1;
    }
  }

  /** The box loop of updateCandidatesForPlacement, over the box holding
      (r, c) in row-major order. */
  method StripBox(g: Grid, cand: CandGrid, r: int, c: int, n: int, rec: Recorder)
    returns (cand': CandGrid, rec': Recorder)
    requires WellFormed(g) && Shaped(cand) && InBounds(r, c) && g[r][c] != 0
    ensures Shaped(cand')
    ensures forall r2, c2 :: InBounds(r2, c2) ==>
      cand'[r2][c2] == if g[r2][c2] == 0 && Band(r2) == Band(r) && Band(c2) == Band(c) then cand[r2][c2] - {n} else cand[r2][c2]
    ensures RecordsPropagation(g, cand, r, c, n, rec, rec')
    ensures Logged(g, n, cand, cand', rec, rec')
  {
    var br, bc := 3 * Band(r), 3 * Band(c);
    cand', rec' := cand, rec;
    var rr := br;
    while rr < br + 3
      invariant br <= rr <= br + 3 && Shaped(cand')
      invariant forall r2, c2 :: InBounds(r2, c2) ==>
        cand'[r2][c2] == if g[r2][c2] == 0 && br <= r2 < rr && bc <= c2 < bc + 3 then cand[r2][c2] - {n} else cand[r2][c2]
      invariant RecordsPropagation(g, cand, r, c, n, rec, rec')
      invariant Logged(g, n, cand, cand', rec, rec')
    {
      var c1, r1 := StripBoxRow(g, cand', r, c, rr, bc, n, rec');
      LoggedTrans(g, n, cand, cand', c1, rec, rec', r1);
      cand', rec' := c1, r1;
      rr := rr + 1;
    }
  }

  /** updateCandidatesForPlacement, called once n = g[r][c] has been written:
      the placed cell loses all candidates, every empty peer loses n, and no
      other cell or digit changes. */
  method UpdateCandidatesForPlacement(g: Grid, cand: CandGrid, r: int, c: int, rec: Recorder)
    returns (cand': CandGrid, rec': Recorder)
    requires WellFormed(g) && Shaped(cand) && InBounds(r, c) && g[r][c] != 0
    ensures Shaped(cand')
    ensures cand'[r][c] == {}
    ensures forall r2, c2 :: InBounds(r2, c2) && (r2 != r || c2 != c) ==>
      cand'[r2][c2] == if g[r2][c2] == 0 && Peer(r, c, r2, c2) then cand[r2][c2] - {g[r][c]} else cand[r2][c2]
    ensures RecordsPropagation(g, cand, r, c, g[r][c], rec, rec')
    ensures RecordsEveryPeer(g, cand, r, c, g[r][c], rec, rec')
  {
    var n := g[r][c];
    var cand0 := cand[r := cand[r][c := {}]];
    var cand1, rec1 := StripLines(g, cand0, r, c, n, rec);
    cand', rec' := StripBox(g, cand1, r, c, n, rec1);
    LoggedTrans(g, n, cand0, cand1, cand', rec, rec1, rec');
    forall i | |rec.steps| <= i < |rec'.steps|
      ensures Propagates(g, cand, r, c, n, rec'.steps[i])
    {
      if i < |rec1.steps| {
        assert rec'.steps[i] == rec1.steps[i];
      }
    }
  }

  /** Cell p is empty and lists n. */
  predicate Holds(g: Grid, cand: CandGrid, p: Pos, n: int)
    requires WellFormed(g) && Shaped(cand) && InBounds(p.r, p.c)
  {
    g[p.r][p.c] == 0 && n in cand[p.r][p.c]
  }
}

=== FILE: deductions.dfy ===
/** Why the techniques are sound: every solution the candidates allow holds
    each digit once in every row, column and box, so a digit that some cell
    of a unit can still take lands, in that solution, on one of the unit's
    holders of it. The technique modules build their deductions on these
    two facts. */
module Deductions {
  import opened Grid
  import opened Units
  import opened Safety
  import opened Candidates
  import opened Engine
  import opened Scans
  import Fill

  /** Two distinct cells of one unit hold different digits in a full
      conflict-free grid. */
  lemma UnitCellsDiffer(S: Grid, kind: UnitKind, p: Pos, q: Pos)
    requires WellFormed(S) && ZeroFree(S) && ConflictFree(S)
    requires InBounds(p.r, p.c) && InBounds(q.r, q.c) && p != q && UnitOf(kind, p) == UnitOf(kind, q)
    ensures S[p.r][p.c] != S[q.r][q.c]
  {
    PeerIffSharedUnit(p, q);
    assert Peer(p.r, p.c, q.r, q.c);
  }

  /** A full conflict-free grid holds every digit somewhere in every unit. */
  lemma DigitInUnit(S: Grid, kind: UnitKind, idx: int, n: int) returns (p: Pos)
    requires WellFormed(S) && ZeroFree(S) && ConflictFree(S) && 0 <= idx < 9 && 1 <= n <= 9
    ensures InBounds(p.r, p.c) && InUnit(kind, idx, p) && S[p.r][p.c] == n
  {
    Fill.FullUnitsArePermutations(S, kind, idx);
    var vals := UnitValues(S, kind, idx);
    assert n in vals;
    var k :| 0 <= k < 9 && vals[k] == n;
    p := CellOf(kind, idx, k);
  }

  /** When some cell h of unit (kind, idx) can still take n, every solution
      s admits puts n on a holder of n in that unit: the cell where the
      solution has n is not a given (h would see it), so it is empty in s
      and lists n. */
  lemma Lands(g: Grid, cand: CandGrid, S: Grid, kind: UnitKind, idx: int, n: int, h: Pos) returns (p: Pos)
    requires WellFormed(g) && Shaped(cand) && Sound(g, cand) && Solves(S, g) && Allows(g, cand, S) && 0 <= idx < 9
    requires InBounds(h.r, h.c) && InUnit(kind, idx, h) && Holds(g, cand, h, n)
    ensures p in Holders(g, cand, kind, idx, n) && InBounds(p.r, p.c) && S[p.r][p.c] == n
  {
    assert 1 <= n <= 9 && IsSafe(g, h.r, h.c, n);
    Fill.FullUnitsArePermutations(S, kind, idx);
    var vals := UnitValues(S, kind, idx);
    assert n in vals;
    var k :| 0 <= k < 9 && vals[k] == n;
    p := CellOf(kind, idx, k);
    InUnitIsUnitOf(kind, idx, p);
    InUnitIsUnitOf(kind, idx, h);
    PeerIffSharedUnit(h, p);
    assert g[p.r][p.c] != n;
    assert g[p.r][p.c] == 0;
    AllowsAt(g, cand, S, p);
    assert Holds(g, cand, CellOf(kind, idx, k), n);
  }

  /** The i-th holder of n in a unit is a cell of the unit that can take n. */
  lemma HolderAt(g: Grid, cand: CandGrid, kind: UnitKind, idx: int, n: int, i: int)
    requires WellFormed(g) && Shaped(cand) && 0 <= idx < 9 && 0 <= i < |Holders(g, cand, kind, idx, n)|
    ensures var h := Holders(g, cand, kind, idx, n)[i]; InBounds(h.r, h.c) && InUnit(kind, idx, h) && Holds(g, cand, h, n)
  {
  }

  /** Hidden single: when n has exactly one holder in a unit, every
      solution s admits has n there. */
  lemma HiddenSingleForced(s: State, kind: UnitKind, idx: int, n: int)
    requires Good(s) && 0 <= idx < 9 && |Holders(s.grid, s.cand, kind, idx, n)| == 1
    ensures var p := Holders(s.grid, s.cand, kind, idx, n)[0]; InBounds(p.r, p.c) && Forces(s, p.r, p.c, n)
  {
    var ps := Holders(s.grid, s.cand, kind, idx, n);
    var h := ps[0];
    assert InBounds(h.r, h.c) && InUnit(kind, idx, h) && Holds(s.grid, s.cand, h, n);
    forall S | Admits(s, S)
      ensures S[h.r][h.c] == n
    {
      var p := Lands(s.grid, s.cand, S, kind, idx, n, h);
      OnlyElement(ps, p);
    }
  }

  lemma OnlyElement<T>(xs: seq<T>, x: T)
    requires |xs| == 1 && x in xs
    ensures x == xs[0]
  {
  }

  /** Naked single: the only candidate of an empty cell is forced. */
  lemma NakedSingleForced(s: State, r: int, c: int, n: int)
    requires Good(s) && InBounds(r, c) && s.grid[r][c] == 0 && s.cand[r][c] == {n}
    ensures Forces(s, r, c, n)
  {
    forall S | Admits(s, S)
      ensures S[r][c] == n
    {
      assert Allows(s.grid, s.cand, S);
    }
  }

  /** Once a solution has n at p, no other cell of p's unit of kind
      `target` holds n in it. */
  lemma UnitAvoids(g: Grid, S: Grid, p: Pos, target: UnitKind, cells: seq<Pos>, n: int)
    requires WellFormed(g) && WellFormed(S) && ZeroFree(S) && ConflictFree(S) && AllInBounds(cells)
    requires InBounds(p.r, p.c) && S[p.r][p.c] == n
    requires forall i :: 0 <= i < |cells| ==> cells[i] != p && UnitOf(target, cells[i]) == UnitOf(target, p)
    ensures Avoids(g, S, cells, n, |cells|)
  {
    forall i | 0 <= i < |cells|
      ensures S[cells[i].r][cells[i].c] != n
    {
      UnitCellsDiffer(S, target, p, cells[i]);
    }
  }

  /** Naked tuple: when |K| distinct cells of one unit all take digits of
      K in a solution, they take every digit of K, so no other cell of
      the unit takes one. */
  lemma UsesUp(S: Grid, kind: UnitKind, members: seq<Pos>, K: set<int>, x: Pos)
    requires WellFormed(S) && ZeroFree(S) && ConflictFree(S) && AllInBounds(members) && Distinct(members)
    requires |members| == |K| && InBounds(x.r, x.c) && x !in members
    requires forall i :: 0 <= i < |members| ==> UnitOf(kind, members[i]) == UnitOf(kind, x) && S[members[i].r][members[i].c] in K
    ensures S[x.r][x.c] !in K
  {
    var vals := seq(|members|, i requires 0 <= i < |members| => S[members[i].r][members[i].c]);
    forall i, j | 0 <= i < j < |vals|
      ensures vals[i] != vals[j]
    {
      UnitCellsDiffer(S, kind, members[i], members[j]);
    }
    DistinctCard(vals);
    var used := set v | v in vals;
    assert used <= K;
    SubsetCard(K, used);
    if S[x.r][x.c] in K {
      assert S[x.r][x.c] in vals;
      var i :| 0 <= i < |members| && vals[i] == S[x.r][x.c];
      UnitCellsDiffer(S, kind, members[i], x);
    }
  }

  /** An empty cell holds in every allowed solution a digit its list has. */
  lemma AllowsAt(g: Grid, cand: CandGrid, S: Grid, p: Pos)
    requires WellFormed(g) && Shaped(cand) && WellFormed(S) && Allows(g, cand, S)
    requires InBounds(p.r, p.c) && g[p.r][p.c] == 0
    ensures S[p.r][p.c] in cand[p.r][p.c]
  {
  }
}

=== FILE: difficulty.dfy ===
/** evaluateDifficulty: count the clues, solve, and turn the solve metrics
    into a weighted score and a level. The score is computed exactly as a
    real number; the coefficients are multiples of 0.1. */
module Difficulty {
  import opened Wrappers
  import opened Grid
  import opened Telemetry
  import opened Solver
  import opened Engine

  /** The clues of one row. */
  function RowClues(row: seq<int>): (n: nat)
    ensures n + RowZeros(row) == |row|
  {
    if row == [] then 0 else (if row[0] != 0 then 1 else 0) + RowClues(row[1..])
  }

  /** countClues: the number of non-zero cells, row by row. On a grid of
      rows of nine, every cell is either a clue or empty, so the clue count
      and the empty-cell count add up to the number of cells. */
  function CountClues(g: Grid): (n: nat)
    ensures (forall r :: 0 <= r < |g| ==> |g[r]| == 9) ==> n + ZeroCount(g) == 9 * |g|
  {
    if g == [] then 0 else RowClues(g[0]) + CountClues(g[1..])
  }

  /** The clue count lies in [0, 81] and is 81 exactly on a full grid. */
  lemma CountCluesRange(g: Grid)
    requires WellFormed(g)
    ensures CountClues(g) <= 81
    ensures CountClues(g) == 81 <==> ZeroFree(g)
  {
    ZeroCountFacts(g);
  }

  datatype Level = Easy | Medium | Hard | Expert

  /** The position of a level in the order easy < medium < hard < expert. */
  function Rank(l: Level): nat {
    match l
    case Easy => 0
    case Medium => 1
    case Hard => 2
    case Expert => 3
  }

  /** scoreToLevel: the level's rank is the number of thresholds 120, 300,
      700 the score reaches. */
  function ScoreToLevel(score: real): (l: Level)
    ensures Rank(l) == (if score >= 120.0 then 1 else 0) + (if score >= 300.0 then 1 else 0) + (if score >= 700.0 then 1 else 0)
  {
    if score < 120.0 then Easy
    else if score < 300.0 then Medium
    else if score < 700.0 then Hard
    else Expert
  }

  /** A higher score never gives an easier level. */
  lemma LevelMonotone(a: real, b: real)
    requires a <= b
    ensures Rank(ScoreToLevel(a)) <= Rank(ScoreToLevel(b))
  {
  }

  /** The weighted score of evaluateDifficulty. Fewer clues than 81 or more
      of any other metric never lower it, except labels containing "Single",
      which are counted by steps too: with at most 81 clues and no more
      singles than steps, it is never negative. */
  function Score(clues: int, steps: int, backtracks: int, pairs: int, btUsed: int, singles: int): (x: real)
    ensures clues <= 81 && 0 <= singles <= steps && 0 <= backtracks && 0 <= pairs && 0 <= btUsed ==> x >= 0.0
  {
    (81 - clues) as real * 1.3 + steps as real * 0.4 + backtracks as real * 2.2
      + pairs as real * 4.0 + btUsed as real * 20.0 - singles as real * 0.2
  }

  /** Math.round: the nearest integer, halves rounded up. */
  function Round(x: real): (n: int)
    ensures n as real - 0.5 <= x < n as real + 0.5
  {
    (x + 0.5).Floor
  }

  /** A score that is a finite number, or Infinity. */
  datatype ScoreValue = Finite(value: int) | Infinite

  datatype Rating = Rating(level: Level, score: ScoreValue)

  /** The score of a solve's metrics and the puzzle's clue count. */
  function MetricsScore(clues: int, m: Metrics): real {
    Score(clues, m.steps, m.backtracks, CountPairs(m.used), if Backtracking in m.used then 1 else 0, CountSingles(m.used))
  }

  /** evaluateDifficulty(grid), with the ghost `solved` and `phase` the
      result of the solveSudoku call it makes and the state that call's
      human-style phase leaves. The score is infinite exactly when that
      solve returns no solution, and then the level is expert and the
      metrics empty, which cannot happen on a full grid; otherwise the
      metrics are the solve's, the level comes from the unrounded score of
      the clue count and those metrics, and the reported score is that score
      rounded, never negative; a full grid, conflicts or not, rates easy with
      score 0 and empty metrics. */
  method EvaluateDifficulty(g: Grid) returns (rating: Rating, metrics: Metrics, ghost solved: Solved, ghost phase: State)
    requires WellFormed(g)
    ensures SolveSpec(g, false, solved, phase)
    ensures rating.score.Infinite? <==> solved.solution.None?
    ensures solved.solution.Some? ==> metrics == solved.metrics
    ensures rating.score.Infinite? ==> rating.level == Expert && metrics == NoMetrics && !ZeroFree(g)
    ensures rating.score.Finite? ==>
      var x := MetricsScore(CountClues(g), metrics);
      && rating.level == ScoreToLevel(x)
      && rating.score.value as real - 0.5 <= x < rating.score.value as real + 0.5
      && 0 <= rating.score.value
      && metrics.backtracks <= metrics.steps
    ensures ZeroFree(g) ==> rating == Rating(Easy, Finite(0)) && metrics == NoMetrics
  {
    var clues := CountClues(g);
    CountCluesRange(g);
    var res, h := SolveSudoku(g, false);
    solved, phase := res, h;
    if res.solution.None? {
      return Rating(Expert, Infinite), NoMetrics, solved, phase;
    }
    metrics := res.metrics;
    var t := metrics.used;
    var singles := CountSingles(t);
    var pairs := CountPairs(t);
    var btUsed := if Backtracking in t then 1 else 0;
    var score := Score(clues, metrics.steps, metrics.backtracks, pairs, btUsed, singles);
    rating := Rating(ScoreToLevel(score), Finite(Round(score)));
  }
}

=== FILE: engine.dfy ===
/** The mutable state the human-style phase threads through its techniques
    (grid, candidate grid, metrics, recorder) and the elementary changes the
    techniques are built from: placing a digit, and narrowing one cell's
    candidates with its label and optional record. */
module Engine {
  import opened Grid
  import opened Safety
  import opened Telemetry
  import opened Candidates

  datatype State = State(grid: Grid, cand: CandGrid, metrics: Metrics, rec: Recorder)

  /** Shapes are right and the candidate invariant holds. */
  ghost predicate Good(s: State) {
    WellFormed(s.grid) && Shaped(s.cand) && Sound(s.grid, s.cand)
  }

  /** What every technique guarantees about the grid, the metrics and the
      recorder between state s and a later state t: given cells are never
      overwritten, conflicts are never introduced, one step is counted per
      filled cell and one "Single" label is pushed with it, labels and
      recorded steps are only appended, the fallback's Backtracking label is
      never among the appended ones, and the recorded placements rebuild t's
      grid from s's. */
  ghost predicate Follows(s: State, t: State)
    requires Good(s) && Good(t)
  {
    && Extends(s.grid, t.grid)
    && (ConflictFree(s.grid) ==> ConflictFree(t.grid))
    && t.metrics.backtracks == s.metrics.backtracks
    && s.metrics.used <= t.metrics.used
    && (Backtracking in t.metrics.used ==> Backtracking in s.metrics.used)
    && t.metrics.steps - s.metrics.steps == ZeroCount(s.grid) - ZeroCount(t.grid)
    && CountSingles(t.metrics.used) - CountSingles(s.metrics.used) == t.metrics.steps - s.metrics.steps
    && t.rec.enabled == s.rec.enabled
    && s.rec.steps <= t.rec.steps
    && (!s.rec.enabled ==> t.rec.steps == s.rec.steps)
    && (s.rec.enabled ==> Replay(s.grid, t.rec.steps[|s.rec.steps|..]) == t.grid)
  }

  /** Every cell that is empty in s and filled in t got one of the digits s
      listed there. */
  ghost predicate FillsFrom(s: State, t: State)
    requires Good(s) && Good(t)
  {
    forall r, c :: InBounds(r, c) && s.grid[r][c] == 0 && t.grid[r][c] != 0 ==> t.grid[r][c] in s.cand[r][c]
  }

  /** The bookkeeping half of a technique's contract: t follows s, a digit
      is only ever written where it was a candidate, every candidate set
      only shrank, a reported change strictly lowered the candidate total,
      and no reported change means nothing changed at all. */
  ghost predicate Progress(s: State, t: State, changed: bool) {
    && Good(s) && Good(t) && Follows(s, t) && FillsFrom(s, t) && Shrinks(s.cand, t.cand)
    && (changed ==> Total(t.cand) < Total(s.cand))
    && (!changed ==> t == s)
  }

  /** S is a solution of s's grid that s's candidates allow: full,
      conflict-free, keeping every digit of the grid, and holding at each
      empty cell a digit that cell still lists. */
  ghost predicate Admits(s: State, S: Grid) {
    WellFormed(s.grid) && Shaped(s.cand) && Solves(S, s.grid) && Allows(s.grid, s.cand, S)
  }

  /** Each empty cell of g holds in S a digit cand lists there. */
  ghost predicate Allows(g: Grid, cand: CandGrid, S: Grid)
    requires WellFormed(g) && Shaped(cand) && WellFormed(S)
  {
    forall r, c :: InBounds(r, c) && g[r][c] == 0 ==> S[r][c] in cand[r][c]
  }

  /** Every solution s admits, t still admits: no step placed a digit or
      struck a candidate that one of them needs. */
  ghost predicate KeepsSolutions(s: State, t: State) {
    forall S :: Admits(s, S) ==> Admits(t, S)
  }

  /** Every solution s admits with a digit of K at (r, c), t still admits:
      the guarantee of overwriting that cell's list with K. */
  ghost predicate KeepsAt(s: State, t: State, r: int, c: int, K: set<int>)
    requires InBounds(r, c)
  {
    forall S :: Admits(s, S) && S[r][c] in K ==> Admits(t, S)
  }

  /** Every solution s admits has a digit of K at (r, c): the deduction
      behind overwriting that cell's list with K. */
  ghost predicate Pinned(s: State, r: int, c: int, K: set<int>)
    requires InBounds(r, c)
  {
    forall S :: Admits(s, S) ==> S[r][c] in K
  }

  /** Every solution s admits holds n at (r, c): the deduction behind a
      placement. */
  ghost predicate Forces(s: State, r: int, c: int, n: int)
    requires InBounds(r, c)
  {
    forall S :: Admits(s, S) ==> S[r][c] == n
  }

  /** The cells of the list that are empty in g hold no n in S: the
      deduction behind an elimination of n. */
  ghost predicate Avoids(g: Grid, S: Grid, cells: seq<Pos>, n: int, k: int)
    requires WellFormed(g) && WellFormed(S) && AllInBounds(cells) && 0 <= k <= |cells|
  {
    forall i :: 0 <= i < k ==> g[cells[i].r][cells[i].c] != 0 || S[cells[i].r][cells[i].c] != n
  }

  /** A technique's contract: the bookkeeping of Progress, and no solution
      the candidates allowed is lost. */
  ghost predicate Advanced(s: State, t: State, changed: bool) {
    Progress(s, t, changed) && KeepsSolutions(s, t)
  }

  lemma AdvancedRefl(s: State)
    requires Good(s)
    ensures Advanced(s, s, false)
  {
    assert s.rec.steps[|s.rec.steps|..] == [];
  }

  lemma FollowsTrans(a: State, b: State, c: State)
    requires Good(a) && Good(b) && Good(c) && Follows(a, b) && Follows(b, c)
    ensures Follows(a, c)
  {
    ExtendsTransitive(a.grid, b.grid, c.grid);
    if a.rec.enabled {
      var x, y := c.rec.steps[|a.rec.steps|..|b.rec.steps|], c.rec.steps[|b.rec.steps|..];
      assert b.rec.steps[|a.rec.steps|..] == x;
      assert c.rec.steps[|a.rec.steps|..] == x + y;
      ReplayConcat(a.grid, x, y);
    }
  }

  lemma FillsFromTrans(a: State, b: State, c: State)
    requires Good(a) && Good(b) && Good(c) && Extends(b.grid, c.grid) && Shrinks(a.cand, b.cand)
    requires FillsFrom(a, b) && FillsFrom(b, c)
    ensures FillsFrom(a, c)
  {
    forall r, c' | InBounds(r, c') && a.grid[r][c'] == 0 && c.grid[r][c'] != 0
      ensures c.grid[r][c'] in a.cand[r][c']
    {
      if b.grid[r][c'] != 0 {
        assert c.grid[r][c'] == b.grid[r][c'];
      }
    }
  }

  /** The bookkeeping composes; the composite reports a change when either
      part did. */
  lemma ProgressTrans(a: State, b: State, c: State, ab: bool, bc: bool)
    requires Progress(a, b, ab) && Progress(b, c, bc)
    ensures Progress(a, c, ab || bc)
  {
    FollowsTrans(a, b, c);
    FillsFromTrans(a, b, c);
  }

  /** Technique contracts compose; the composite reports a change when
      either part did. */
  lemma AdvancedTrans(a: State, b: State, c: State, ab: bool, bc: bool)
    requires Advanced(a, b, ab) && Advanced(b, c, bc)
    ensures Advanced(a, c, ab || bc)
  {
    ProgressTrans(a, b, c, ab, bc);
  }

  /** Two technique steps in a row, as one fact. */
  ghost predicate Chained(a: State, b: State, c: State, ab: bool, bc: bool) {
    var ok := Advanced(a, b, ab) && Advanced(b, c, bc);
    ok
  }

  lemma ChainedTrans(a: State, b: State, c: State, ab: bool, bc: bool)
    requires Chained(a, b, c, ab, bc)
    ensures Advanced(a, c, ab || bc)
  {
    AdvancedTrans(a, b, c, ab, bc);
  }

  /** After a placement and the candidate update, every kept candidate is
      still safe. */
  lemma PlacementSound(s: State, g: Grid, r: int, c: int, cand: CandGrid)
    requires Good(s) && InBounds(r, c) && s.grid[r][c] == 0 && WellFormed(g) && 1 <= g[r][c] <= 9 && Shaped(cand)
    requires g == SetCell(s.grid, r, c, g[r][c])
    requires cand[r][c] == {}
    requires forall r2, c2 :: InBounds(r2, c2) && (r2 != r || c2 != c) ==>
      cand[r2][c2] == if g[r2][c2] == 0 && Peer(r, c, r2, c2) then s.cand[r2][c2] - {g[r][c]} else s.cand[r2][c2]
    ensures Sound(g, cand) && Shrinks(s.cand, cand)
  {
    forall r2, c2, m | InBounds(r2, c2) && m in cand[r2][c2]
      ensures g[r2][c2] == 0 && 1 <= m <= 9 && IsSafe(g, r2, c2, m)
    {
      SafeAfterPlacement(s.grid, r, c, g[r][c], r2, c2, m);
    }
  }

  /** The recorded placement followed by propagation steps replays to the
      grid with the digit written. */
  lemma PlacementReplay(g0: Grid, g: Grid, cand: CandGrid, r: int, c: int, tech: Technique, rec: Recorder, rec0: Recorder, rec': Recorder)
    requires WellFormed(g0) && InBounds(r, c) && WellFormed(g) && 1 <= g[r][c] <= 9 && Shaped(cand)
    requires g == SetCell(g0, r, c, g[r][c])
    requires rec.enabled && rec0 == Record(rec, Step(tech, [Move(r, c, g[r][c])], []))
    requires RecordsPropagation(g, cand, r, c, g[r][c], rec0, rec')
    ensures Replay(g0, rec'.steps[|rec.steps|..]) == g
  {
    var placed := Step(tech, [Move(r, c, g[r][c])], []);
    var tail := rec'.steps[|rec0.steps|..];
    assert rec'.steps[|rec.steps|..] == [placed] + tail;
    ReplayConcat(g0, [placed], tail);
    assert [placed][..0] == [];
    assert Replay(g0, [placed]) == ApplyMoves(g0, [Move(r, c, g[r][c])]);
    assert ApplyMoves(g0, [Move(r, c, g[r][c])]) == ApplyMoves(g, []);
    assert forall i :: 0 <= i < |tail| ==> tail[i] == rec'.steps[|rec0.steps| + i];
    ReplayNoPlacements(g, tail);
  }

  /** The bookkeeping of a placement satisfies the technique contract. */
  lemma PlacementAdvanced(s: State, t: State, r: int, c: int, n: int, tech: Technique)
    requires Good(s) && InBounds(r, c) && s.grid[r][c] == 0 && n in s.cand[r][c] && tech.IsSingle()
    requires t.grid == SetCell(s.grid, r, c, n) && Shaped(t.cand) && Sound(t.grid, t.cand)
    requires Shrinks(s.cand, t.cand) && t.cand[r][c] == {}
    requires t.metrics == Metrics(s.metrics.steps + 1, s.metrics.backtracks, s.metrics.used + [tech])
    requires t.rec.enabled == s.rec.enabled && s.rec.steps <= t.rec.steps
    requires !s.rec.enabled ==> t.rec.steps == s.rec.steps
    requires s.rec.enabled ==> Replay(s.grid, t.rec.steps[|s.rec.steps|..]) == t.grid
    ensures Progress(s, t, true)
  {
    var used := t.metrics.used;
    assert used[..|used| - 1] == s.metrics.used;
    ShrinksTotal(s.cand, t.cand);
    assert t.cand[r][c] != s.cand[r][c];
    FillDecreasesZeroCount(s.grid, r, c, n);
    if ConflictFree(s.grid) {
      SafePlacementConflictFree(s.grid, r, c, n);
    }
  }

  /** The candidates after n is placed at the empty cell (r, c) of s: the
      cell lists nothing, its empty peers lose n, and every other list is
      unchanged. */
  ghost predicate PlacedCandidates(s: State, r: int, c: int, n: int, cand: CandGrid)
    requires Good(s) && InBounds(r, c) && Shaped(cand)
  {
    && cand[r][c] == {}
    && forall r2, c2 :: InBounds(r2, c2) && (r2 != r || c2 != c) ==>
      cand[r2][c2] == if s.grid[r2][c2] == 0 && Peer(r, c, r2, c2) then s.cand[r2][c2] - {n} else s.cand[r2][c2]
  }

  /** A solution of s that holds n at (r, c) is still a solution once n
      is written there and the peers are updated. */
  lemma PlacementKeeps(s: State, t: State, r: int, c: int, n: int, S: Grid)
    requires Good(s) && Admits(s, S) && InBounds(r, c) && s.grid[r][c] == 0 && S[r][c] == n
    requires WellFormed(t.grid) && Shaped(t.cand) && t.grid == SetCell(s.grid, r, c, n) && PlacedCandidates(s, r, c, n, t.cand)
    ensures Admits(t, S)
  {
    forall r2, c2 | InBounds(r2, c2) && t.grid[r2][c2] != 0
      ensures S[r2][c2] == t.grid[r2][c2]
    {
      if r2 != r || c2 != c {
        assert t.grid[r2][c2] == s.grid[r2][c2];
      }
    }
    PlacementAllows(s, t, r, c, n, S);
  }

  lemma PlacementAllows(s: State, t: State, r: int, c: int, n: int, S: Grid)
    requires Good(s) && Admits(s, S) && InBounds(r, c) && s.grid[r][c] == 0 && S[r][c] == n
    requires WellFormed(t.grid) && Shaped(t.cand) && t.grid == SetCell(s.grid, r, c, n) && PlacedCandidates(s, r, c, n, t.cand)
    ensures Allows(t.grid, t.cand, S)
  {
    forall r2, c2 | InBounds(r2, c2) && t.grid[r2][c2] == 0
      ensures S[r2][c2] in t.cand[r2][c2]
    {
      PeerLosesDigit(s.grid, s.cand, t.cand, S, r, c, n, r2, c2);
    }
  }

  /** One cell of PlacementAllows. */
  lemma PeerLosesDigit(g: Grid, cand: CandGrid, cand': CandGrid, S: Grid, r: int, c: int, n: int, r2: int, c2: int)
    requires WellFormed(g) && Shaped(cand) && Shaped(cand') && WellFormed(S) && ConflictFree(S)
    requires InBounds(r, c) && InBounds(r2, c2) && (r2 != r || c2 != c) && S[r][c] == n && n != 0
    requires g[r2][c2] == 0 && S[r2][c2] in cand[r2][c2]
    requires cand'[r2][c2] == if g[r2][c2] == 0 && Peer(r, c, r2, c2) then cand[r2][c2] - {n} else cand[r2][c2]
    ensures S[r2][c2] in cand'[r2][c2]
  {
  }

  /** The recording and candidate half of a placement: record the
      placement step, then update the candidates of the peers. */
  method PlaceCandidates(s: State, r: int, c: int, n: int, tech: Technique) returns (cand: CandGrid, rec: Recorder)
    requires Good(s) && InBounds(r, c) && s.grid[r][c] == 0 && n in s.cand[r][c]
    ensures Shaped(cand) && Sound(SetCell(s.grid, r, c, n), cand) && Shrinks(s.cand, cand) && PlacedCandidates(s, r, c, n, cand)
    ensures var rec0 := Record(s.rec, Step(tech, [Move(r, c, n)], []));
      && RecordsPropagation(SetCell(s.grid, r, c, n), s.cand, r, c, n, rec0, rec)
      && RecordsEveryPeer(SetCell(s.grid, r, c, n), s.cand, r, c, n, rec0, rec)
    ensures rec.enabled == s.rec.enabled && s.rec.steps <= rec.steps
    ensures !s.rec.enabled ==> rec.steps == s.rec.steps
    ensures s.rec.enabled ==> Replay(s.grid, rec.steps[|s.rec.steps|..]) == SetCell(s.grid, r, c, n)
  {
    var g := SetCell(s.grid, r, c, n);
    var placed := Step(tech, [Move(r, c, n)], []);
    var rec0 := Record(s.rec, placed);
    cand, rec := UpdateCandidatesForPlacement(g, s.cand, r, c, rec0);
    PlacementSound(s, g, r, c, cand);
    if s.rec.enabled {
      PlacementReplay(s.grid, g, s.cand, r, c, tech, s.rec, rec0, rec);
    }
  }

  /** Writing n into the empty cell (r, c) as the source does for a single:
      count the step, push the label, record the placement, then update the
      candidates of the peers and record each removal. The solutions kept
      are those holding n at (r, c); when every solution does, this is a
      technique step. */
  method Place(s: State, r: int, c: int, n: int, tech: Technique) returns (t: State)
    requires Good(s) && InBounds(r, c) && s.grid[r][c] == 0 && n in s.cand[r][c] && tech.IsSingle()
    ensures Progress(s, t, true)
    ensures t.grid == SetCell(s.grid, r, c, n) && PlacedCandidates(s, r, c, n, t.cand)
    ensures t.metrics == Metrics(s.metrics.steps + 1, s.metrics.backtracks, s.metrics.used + [tech])
    ensures var rec0 := Record(s.rec, Step(tech, [Move(r, c, n)], []));
      RecordsPropagation(t.grid, s.cand, r, c, n, rec0, t.rec) && RecordsEveryPeer(t.grid, s.cand, r, c, n, rec0, t.rec)
    ensures forall S :: Admits(s, S) && S[r][c] == n ==> Admits(t, S)
    ensures Forces(s, r, c, n) ==> Advanced(s, t, true)
  {
    var cand, rec := PlaceCandidates(s, r, c, n, tech);
    t := State(SetCell(s.grid, r, c, n), cand, Metrics(s.metrics.steps + 1, s.metrics.backtracks, s.metrics.used + [tech]), rec);
    PlacementAdvanced(s, t, r, c, n, tech);
    forall S | Admits(s, S) && S[r][c] == n
      ensures Admits(t, S)
    {
      PlacementKeeps(s, t, r, c, n, S);
    }
  }

  /** A solution of s is still admitted once the list of one empty cell is
      overwritten with a set holding the solution's digit there. */
  lemma CellUpdateKeeps(s: State, t: State, r: int, c: int, after: set<int>)
    requires Good(s) && InBounds(r, c) && s.grid[r][c] == 0
    requires t.grid == s.grid && Shaped(t.cand) && t.cand == s.cand[r := s.cand[r][c := after]]
    ensures KeepsAt(s, t, r, c, after)
  {
    forall S | Admits(s, S) && S[r][c] in after
      ensures Admits(t, S)
    {
      forall r2, c2 | InBounds(r2, c2) && t.grid[r2][c2] == 0
        ensures S[r2][c2] in t.cand[r2][c2]
      {
        if r2 != r {
          assert t.cand[r2] == s.cand[r2];
        } else if c2 != c {
          assert t.cand[r] == s.cand[r][c := after];
        }
      }
    }
  }

  /** Overwriting the candidates of the empty cell (r, c) with digits that
      are safe there; nothing else changes. */
  function Assign(s: State, r: int, c: int, after: set<int>): (t: State)
    requires Good(s) && InBounds(r, c) && s.grid[r][c] == 0
    requires forall x :: x in after ==> 1 <= x <= 9 && IsSafe(s.grid, r, c, x)
    ensures Good(t) && Follows(s, t)
    ensures t.grid == s.grid && t.metrics == s.metrics && t.rec == s.rec
    ensures t.cand == s.cand[r := s.cand[r][c := after]]
    ensures KeepsAt(s, t, r, c, after)
  {
    assert s.rec.steps[|s.rec.steps|..] == [];
    var t := State(s.grid, s.cand[r := s.cand[r][c := after]], s.metrics, s.rec);
    CellUpdateKeeps(s, t, r, c, after);
    t
  }

  /** An elimination as the techniques write it: overwrite the cell's
      candidates, push the label, and record the removed entries when there
      are any. */
  method Narrow(s: State, r: int, c: int, after: set<int>, tech: Technique, removed: seq<Move>) returns (t: State)
    requires Good(s) && InBounds(r, c) && s.grid[r][c] == 0 && tech.IsElimination()
    requires forall x :: x in after ==> 1 <= x <= 9 && IsSafe(s.grid, r, c, x)
    ensures Good(t) && Follows(s, t)
    ensures t.grid == s.grid && t.cand == s.cand[r := s.cand[r][c := after]]
    ensures t.metrics == s.metrics.(used := s.metrics.used + [tech])
    ensures t.rec == if removed != [] then Record(s.rec, Step(tech, [], removed)) else s.rec
    ensures after <= s.cand[r][c] && after != s.cand[r][c] ==> Progress(s, t, true)
    ensures KeepsAt(s, t, r, c, after)
  {
    var a := Assign(s, r, c, after);
    var used := s.metrics.used + [tech];
    assert used[..|used| - 1] == s.metrics.used;
    var rec := if removed != [] then Record(s.rec, Step(tech, [], removed)) else s.rec;
    t := a.(metrics := s.metrics.(used := used), rec := rec);
    if s.rec.enabled {
      ReplayNoPlacements(s.grid, rec.steps[|s.rec.steps|..]);
    }
    if after <= s.cand[r][c] && after != s.cand[r][c] {
      assert Shrinks(s.cand, t.cand);
      ShrinksTotal(s.cand, t.cand);
    }
  }

  /** Overwriting one list leaves every other list as it was. */
  lemma UpdateFrame(cand: CandGrid, r: int, c: int, after: set<int>)
    requires Shaped(cand) && InBounds(r, c)
    ensures forall r2, c2 :: InBounds(r2, c2) && (r2 != r || c2 != c) ==> cand[r := cand[r][c := after]][r2][c2] == cand[r2][c2]
  {
    forall r2, c2 | InBounds(r2, c2) && (r2 != r || c2 != c)
      ensures cand[r := cand[r][c := after]][r2][c2] == cand[r2][c2]
    {
      if r2 == r {
        assert cand[r := cand[r][c := after]][r] == cand[r][c := after];
      }
    }
  }

  /** Striking n from the empty cell (r, c) keeps the solutions without n
      there, and no other list changes. */
  lemma StrikeKeeps(s: State, t: State, r: int, c: int, n: int)
    requires Good(s) && InBounds(r, c) && s.grid[r][c] == 0
    requires t.grid == s.grid && Shaped(t.cand) && t.cand == s.cand[r := s.cand[r][c := s.cand[r][c] - {n}]]
    ensures forall S :: Admits(s, S) && S[r][c] != n ==> Admits(t, S)
    ensures forall r2, c2 :: InBounds(r2, c2) && (r2 != r || c2 != c) ==> t.cand[r2][c2] == s.cand[r2][c2]
  {
    UpdateFrame(s.cand, r, c, s.cand[r][c] - {n});
    CellUpdateKeeps(s, t, r, c, s.cand[r][c] - {n});
    forall S | Admits(s, S) && S[r][c] != n
      ensures S[r][c] in s.cand[r][c] - {n}
    {
      assert Allows(s.grid, s.cand, S);
    }
  }

  /** One guarded elimination of n at (r, c): done exactly when the cell is
      empty and still lists n. */
  method EliminateIf(s: State, r: int, c: int, n: int, tech: Technique) returns (t: State, did: bool)
    requires Good(s) && InBounds(r, c) && tech.IsElimination()
    ensures Progress(s, t, did) && t.grid == s.grid
    ensures did <==> s.grid[r][c] == 0 && n in s.cand[r][c]
    ensures forall S :: Admits(s, S) && (s.grid[r][c] != 0 || S[r][c] != n) ==> Admits(t, S)
    ensures t.cand[r][c] == s.cand[r][c] - {n}
    ensures forall r2, c2 :: InBounds(r2, c2) && (r2 != r || c2 != c) ==> t.cand[r2][c2] == s.cand[r2][c2]
  {
    if s.grid[r][c] == 0 && n in s.cand[r][c] {
      t := Narrow(s, r, c, s.cand[r][c] - {n}, tech, [Move(r, c, n)]);
      did := true;
      StrikeKeeps(s, t, r, c, n);
    } else {
      t, did := s, false;
      AdvancedRefl(s);
      assert n !in s.cand[r][c];
      assert s.cand[r][c] - {n} == s.cand[r][c];
    }
  }

  /** Some cell of the list is empty and lists n. */
  ghost predicate SomeHolds(s: State, cells: seq<Pos>, n: int)
    requires WellFormed(s.grid) && Shaped(s.cand) && AllInBounds(cells)
  {
    exists i :: 0 <= i < |cells| && Holds(s.grid, s.cand, cells[i], n)
  }

  /** The bookkeeping of one iteration of EliminateAll: cells before i have
      lost n, cells from i on are untouched, and only listed cells differ. */
  lemma StrikeFrame(a: CandGrid, t: CandGrid, t1: CandGrid, cells: seq<Pos>, i: int, n: int)
    requires Shaped(a) && Shaped(t) && Shaped(t1) && AllInBounds(cells) && Distinct(cells) && 0 <= i < |cells|
    requires forall j :: 0 <= j < i ==> t[cells[j].r][cells[j].c] == a[cells[j].r][cells[j].c] - {n}
    requires forall j :: i <= j < |cells| ==> t[cells[j].r][cells[j].c] == a[cells[j].r][cells[j].c]
    requires forall r, c :: InBounds(r, c) && t[r][c] != a[r][c] ==> Pos(r, c) in cells
    requires t1[cells[i].r][cells[i].c] == t[cells[i].r][cells[i].c] - {n}
    requires forall r, c :: InBounds(r, c) && (r != cells[i].r || c != cells[i].c) ==> t1[r][c] == t[r][c]
    ensures forall j :: 0 <= j < i + 1 ==> t1[cells[j].r][cells[j].c] == a[cells[j].r][cells[j].c] - {n}
    ensures forall j :: i + 1 <= j < |cells| ==> t1[cells[j].r][cells[j].c] == a[cells[j].r][cells[j].c]
    ensures forall r, c :: InBounds(r, c) && t1[r][c] != a[r][c] ==> Pos(r, c) in cells
  {
    var p := cells[i];
    forall j | 0 <= j < |cells| && j != i
      ensures t1[cells[j].r][cells[j].c] == t[cells[j].r][cells[j].c]
    {
      assert cells[j] != p;
    }
    forall r, c | InBounds(r, c) && t1[r][c] != a[r][c]
      ensures Pos(r, c) in cells
    {
      if r == p.r && c == p.c {
        assert Pos(r, c) == cells[i];
      }
    }
  }

  /** The elimination loop the techniques share: n is struck from every
      listed cell that is empty and lists it, one label (and one recorded
      step) per strike. Exactly the listed cells lose n and nothing else
      changes; a change is reported exactly when some listed cell held n.
      The solutions kept are those without n at the listed empty cells. */
  method EliminateAll(s: State, cells: seq<Pos>, n: int, tech: Technique) returns (t: State, did: bool)
    requires Good(s) && AllInBounds(cells) && Distinct(cells) && tech.IsElimination()
    ensures Progress(s, t, did) && t.grid == s.grid
    ensures forall S :: Admits(s, S) && Avoids(s.grid, S, cells, n, |cells|) ==> Admits(t, S)
    ensures did <==> SomeHolds(s, cells, n)
    ensures forall i :: 0 <= i < |cells| ==> t.cand[cells[i].r][cells[i].c] == s.cand[cells[i].r][cells[i].c] - {n}
    ensures forall r, c :: InBounds(r, c) && Pos(r, c) !in cells ==> t.cand[r][c] == s.cand[r][c]
  {
    t, did := s, false;
    AdvancedRefl(s);
    var i := 0;
    while i < |cells|
      invariant 0 <= i <= |cells|
      invariant Progress(s, t, did) && t.grid == s.grid
      invariant forall S :: Admits(s, S) && Avoids(s.grid, S, cells, n, i) ==> Admits(t, S)
      invariant did <==> exists j :: 0 <= j < i && Holds(s.grid, s.cand, cells[j], n)
      invariant forall j :: 0 <= j < i ==> t.cand[cells[j].r][cells[j].c] == s.cand[cells[j].r][cells[j].c] - {n}
      invariant forall j :: i <= j < |cells| ==> t.cand[cells[j].r][cells[j].c] == s.cand[cells[j].r][cells[j].c]
      invariant forall r, c :: InBounds(r, c) && t.cand[r][c] != s.cand[r][c] ==> Pos(r, c) in cells
    {
      var p := cells[i];
      var t1, d := EliminateIf(t, p.r, p.c, n, tech);
      ProgressTrans(s, t, t1, did, d);
      StrikeFrame(s.cand, t.cand, t1.cand, cells, i, n);
      assert d <==> Holds(s.grid, s.cand, cells[i], n);
      t, did := t1, did || d;
      i := i + 1;
    }
  }
}

=== FILE: fill.dfy ===
/** fillGrid: a randomised depth-first fill. At the first empty cell in
    row-major order each dfs call shuffles the digits 1..9 and tries, in that
    order, those isSafe accepts. The shuffles' rolls come from a function of
    the grid the call starts from; within one fill no two dfs calls start
    from the same grid (siblings differ at the cell being tried, descendants
    have more cells filled), so this is as general as fresh rolls per call. */
module Fill {
  import opened Wrappers
  import opened Grid
  import opened Units
  import opened Safety
  import opened Candidates
  import opened Shuffling

  /** The array [1, 2, ..., 9] shuffled by every dfs call. */
  const Digits: seq<int> := seq(9, k => k + 1)

  /** Rolls for every grid, each enough for one shuffle of the digits. */
  ghost predicate Fair(rolls: Grid -> seq<real>) {
    forall h :: Rolls(rolls(h), 9)
  }

  /** Nine entries, each a digit, every digit among them. */
  ghost predicate DigitOrder(order: seq<int>) {
    && |order| == 9
    && (forall i :: 0 <= i < 9 ==> 1 <= order[i] <= 9)
    && (forall d :: 1 <= d <= 9 ==> d in order)
  }

  /** A shuffle of the digits orders all of them. */
  lemma ShuffledDigits(us: seq<real>)
    requires Rolls(us, 9)
    ensures DigitOrder(Shuffle(Digits, us))
  {
    var order := Shuffle(Digits, us);
    ShufflePermutes(Digits, us);
    SameItems(order, Digits);
    assert forall k :: 0 <= k < 9 ==> Digits[k] == k + 1;
    forall i | 0 <= i < 9
      ensures 1 <= order[i] <= 9
    {
      assert order[i] in Digits;
    }
    forall d | 1 <= d <= 9
      ensures d in order
    {
      assert Digits[d - 1] == d;
    }
  }

  /** The order a dfs call starting from h tries digits in: some ordering of
      1..9. */
  function Order(rolls: Grid -> seq<real>, h: Grid): (order: seq<int>)
    requires Fair(rolls)
    ensures DigitOrder(order)
  {
    ShuffledDigits(rolls(h));
    Shuffle(Digits, rolls(h))
  }

  /** emptyGrid. */
  function EmptyGrid(): (g: Grid)
    ensures WellFormed(g) && forall r, c :: InBounds(r, c) ==> g[r][c] == 0
  {
    seq(9, _ => seq(9, _ => 0))
  }

  /** The empty grid has no conflicts. */
  lemma EmptyGridConflictFree()
    ensures ConflictFree(EmptyGrid())
  {
  }

  /** dfs of fillGrid. A filled result is full, keeps every given and is
      conflict-free when the input is. */
  function FillDfs(g: Grid, rolls: Grid -> seq<real>): (res: Option<Grid>)
    requires WellFormed(g) && Fair(rolls)
    decreases ZeroCount(g), 1, 0
    ensures res.Some? ==>
      var v := res.value;
      WellFormed(v) && ZeroFree(v) && Extends(g, v) && (ConflictFree(g) ==> ConflictFree(v))
  {
    match FindEmpty(g)
    case None => Some(g)
    case Some(p) => FillTry(g, p.r, p.c, Order(rolls, g), 0, rolls)
  }

  /** The loop over the shuffled digits from the i-th on: a digit isSafe
      rejects is skipped; an accepted one is written and the fill recurses;
      a failed recursion resets the cell and moves on. */
  function FillTry(g: Grid, r: int, c: int, order: seq<int>, i: int, rolls: Grid -> seq<real>): (res: Option<Grid>)
    requires WellFormed(g) && Fair(rolls) && InBounds(r, c) && g[r][c] == 0
    requires DigitOrder(order) && 0 <= i <= 9
    decreases ZeroCount(g), 0, 9 - i
    ensures res.Some? ==>
      var v := res.value;
      WellFormed(v) && ZeroFree(v) && Extends(g, v) && (ConflictFree(g) ==> ConflictFree(v))
  {
    if i == 9 then None
    else
      if IsSafe(g, r, c, order[i]) then
        FillStep(g, r, c, order[i]);
        var sub := FillDfs(SetCell(g, r, c, order[i]), rolls);
        if sub.Some? then sub else FillTry(g, r, c, order, i + 1, rolls)
      else FillTry(g, r, c, order, i + 1, rolls)
  }

  /** Writing a digit isSafe accepts into an empty cell: one empty cell
      fewer, and a conflict-free grid stays conflict-free. */
  lemma FillStep(g: Grid, r: int, c: int, n: int)
    requires WellFormed(g) && InBounds(r, c) && g[r][c] == 0 && 1 <= n <= 9 && IsSafe(g, r, c, n)
    ensures ZeroCount(SetCell(g, r, c, n)) < ZeroCount(g)
    ensures ConflictFree(g) ==> ConflictFree(SetCell(g, r, c, n))
  {
    FillDecreasesZeroCount(g, r, c, n);
    if ConflictFree(g) {
      SafePlacementConflictFree(g, r, c, n);
    }
  }

  /** fillGrid(grid): the filled copy, or null when the fill fails. */
  function FillGrid(g: Grid, rolls: Grid -> seq<real>): (res: Option<Grid>)
    requires WellFormed(g) && Fair(rolls)
    ensures res.Some? ==> Solves(res.value, g) || !ConflictFree(g)
  {
    FillDfs(g, rolls)
  }

  /** The fill misses no completion: whatever the shuffles, a grid that has
      a solution is filled. */
  lemma {:induction false} FillComplete(g: Grid, s: Grid, rolls: Grid -> seq<real>)
    requires WellFormed(g) && Fair(rolls) && Solves(s, g)
    decreases ZeroCount(g)
    ensures FillDfs(g, rolls).Some?
  {
    match FindEmpty(g)
    case None =>
    case Some(p) =>
      var order := Order(rolls, g);
      SolutionDigitSafe(s, g, p.r, p.c);
      var d := s[p.r][p.c];
      assert d in order;
      var j :| 0 <= j < 9 && order[j] == d;
      FillStep(g, p.r, p.c, order[j]);
      FillComplete(SetCell(g, p.r, p.c, order[j]), s, rolls);
      FillReaches(g, p.r, p.c, order, 0, j, rolls);
  }

  /** The digit loop succeeds when any accepted digit from the i-th on
      leads to a filled grid. */
  lemma {:induction false} FillReaches(g: Grid, r: int, c: int, order: seq<int>, i: int, j: int, rolls: Grid -> seq<real>)
    requires WellFormed(g) && Fair(rolls) && InBounds(r, c) && g[r][c] == 0
    requires DigitOrder(order) && 0 <= i <= j < 9
    requires IsSafe(g, r, c, order[j]) && FillDfs(SetCell(g, r, c, order[j]), rolls).Some?
    decreases j - i
    ensures FillTry(g, r, c, order, i, rolls).Some?
  {
    if i < j {
      FillReaches(g, r, c, order, i + 1, j, rolls);
    }
    FillTryStep(g, r, c, order, i, rolls);
  }

  /** One turn of the digit loop succeeds when the later turns do, and when
      its own digit is accepted and leads to a filled grid. */
  lemma FillTryStep(g: Grid, r: int, c: int, order: seq<int>, i: int, rolls: Grid -> seq<real>)
    requires WellFormed(g) && Fair(rolls) && InBounds(r, c) && g[r][c] == 0
    requires DigitOrder(order) && 0 <= i < 9
    ensures FillTry(g, r, c, order, i + 1, rolls).Some? ==> FillTry(g, r, c, order, i, rolls).Some?
    ensures IsSafe(g, r, c, order[i]) && FillDfs(SetCell(g, r, c, order[i]), rolls).Some? ==>
      FillTry(g, r, c, order, i, rolls).Some?
  {
    if IsSafe(g, r, c, order[i]) {
      FillStep(g, r, c, order[i]);
    }
  }

  /** On a conflict-free grid, fillGrid fails exactly when the grid has no
      solution, and what it returns is one. */
  lemma FillGridIff(g: Grid, rolls: Grid -> seq<real>)
    requires WellFormed(g) && Fair(rolls) && ConflictFree(g)
    ensures FillGrid(g, rolls).Some? <==> exists s :: Solves(s, g)
  {
    if s :| Solves(s, g) {
      FillComplete(g, s, rolls);
    }
  }

  /** Nine pairwise different digits cover all of 1..9. */
  lemma Pigeonhole(vals: seq<int>)
    requires |vals| == 9
    requires forall i, j :: 0 <= i < j < 9 ==> vals[i] != vals[j]
    requires forall i :: 0 <= i < 9 ==> 1 <= vals[i] <= 9
    ensures forall d :: 1 <= d <= 9 ==> d in vals
  {
    var seen := set x | x in vals;
    DistinctCard(vals);
    var all := {1, 2, 3, 4, 5, 6, 7, 8, 9};
    assert |all| == 9;
    assert seen <= all;
    SubsetCard(all, seen);
  }

  /** In a full conflict-free grid every row, column and box holds each
      digit 1..9 exactly once. */
  lemma FullUnitsArePermutations(g: Grid, kind: UnitKind, idx: int)
    requires WellFormed(g) && ZeroFree(g) && ConflictFree(g) && 0 <= idx < 9
    ensures
      var vals := UnitValues(g, kind, idx);
      (forall i, j :: 0 <= i < j < 9 ==> vals[i] != vals[j]) && forall d :: 1 <= d <= 9 ==> d in vals
  {
    var vals := UnitValues(g, kind, idx);
    ConflictIffUnitDuplicate(g);
    assert !UnitHasDuplicate(g, kind, idx);
    forall i | 0 <= i < 9
      ensures 1 <= vals[i] <= 9
    {
      var p := CellOf(kind, idx, i);
      assert vals[i] == g[p.r][p.c];
    }
    Pigeonhole(vals);
  }

  /** x brought into 0..8, for 0 <= x < 18. */
  function Wrap(x: int): int {
    if x >= 9 then x - 9 else x
  }

  /** A completion of the empty grid: row r is 1..9 rotated left by
      3 * (r % 3) + floor(r / 3). */
  function Pattern(): Grid {
    seq(9, r => seq(9, c => Wrap(3 * Offset(r) + Band(r) + c) + 1))
  }

  /** The pattern is a full conflict-free grid. */
  lemma PatternSolvesEmpty()
    ensures Solves(Pattern(), EmptyGrid())
  {
    var g := Pattern();
    forall r | 0 <= r < 9
      ensures |g[r]| == 9 && forall c :: 0 <= c < 9 ==> g[r][c] == Wrap(3 * Offset(r) + Band(r) + c) + 1
    {
      BandOffset(r);
    }
    forall r, c | InBounds(r, c)
      ensures 1 <= g[r][c] <= 9
    {
      BandOffset(r);
    }
    forall r1, c1, r2, c2 |
      InBounds(r1, c1) && InBounds(r2, c2) && (r1 != r2 || c1 != c2) && Peer(r1, c1, r2, c2) && g[r1][c1] != 0
      ensures g[r1][c1] != g[r2][c2]
    {
      BandOffset(r1);
      BandOffset(r2);
      BandOffset(c1);
      BandOffset(c2);
    }
  }

  /** Whatever the shuffles, fillGrid(emptyGrid()) fills the grid. */
  lemma FillEmptySucceeds(rolls: Grid -> seq<real>)
    requires Fair(rolls)
    ensures FillGrid(EmptyGrid(), rolls).Some?
  {
    PatternSolvesEmpty();
    FillComplete(EmptyGrid(), Pattern(), rolls);
  }
}

=== FILE: generator.dfy ===
/** generateSudoku: fill an empty grid, then clear cells in a shuffled order
    while the puzzle keeps exactly one solution, down to a givens target
    drawn from the difficulty's range. Math.random() values are parameters
    (rolls in [0, 1)); the informational seed string is not modelled. */
module Generator {
  import opened Wrappers
  import opened Grid
  import opened Search
  import opened Shuffling
  import opened Fill

  /** A givens range [min, max] of the `targets` table. */
  datatype Range = Range(min: int, max: int)

  /** The names JavaScript finds on every plain object through its
      prototype: `targets[name]` yields an inherited property for these. */
  const Inherited: set<string> := {
    "constructor", "__proto__", "__defineGetter__", "__defineSetter__",
    "__lookupGetter__", "__lookupSetter__", "hasOwnProperty", "isPrototypeOf",
    "propertyIsEnumerable", "toString", "toLocaleString", "valueOf"}

  /** `targets[difficulty] || targets.medium` as written: the four table
      keys give their own range; an inherited name yields a function or an
      object, which the array destructuring rejects with a TypeError; any
      other name falls back to medium. */
  function TargetsAsWritten(difficulty: string): (res: Result<Range, string>)
    ensures res.Failure? <==> difficulty in Inherited
  {
    if difficulty == "easy" then Success(Range(36, 40))
    else if difficulty == "medium" then Success(Range(32, 35))
    else if difficulty == "hard" then Success(Range(28, 31))
    else if difficulty == "expert" then Success(Range(24, 27))
    else if difficulty in Inherited then Failure("TypeError: not iterable")
    else Success(Range(32, 35))
  }

  /** A difficulty name that does not fall back to medium but throws. */
  lemma ConstructorThrows()
    ensures TargetsAsWritten("constructor").Failure?
  {
  }

  /** The range lookup as intended: every name outside the table falls back
      to medium. */
  function Targets(difficulty: string): (rg: Range)
    ensures 24 <= rg.min <= rg.max <= 40
  {
    match difficulty
    case "easy" => Range(36, 40)
    case "medium" => Range(32, 35)
    case "hard" => Range(28, 31)
    case "expert" => Range(24, 27)
    case _ => Range(32, 35)
  }

  /** The intended lookup gives a range of the table, the medium one for an
      unknown name, and agrees with the code as written on every name the
      code does not reject. */
  lemma TargetsTable(difficulty: string)
    ensures var rg := Targets(difficulty);
      rg in {Range(36, 40), Range(32, 35), Range(28, 31), Range(24, 27)}
      && (difficulty !in {"easy", "medium", "hard", "expert"} ==> rg == Range(32, 35))
    ensures difficulty !in Inherited ==> TargetsAsWritten(difficulty) == Success(Targets(difficulty))
  {
  }

  /** Math.floor(min + u * (max - min + 1)). */
  function TargetGivens(rg: Range, u: real): (t: int)
    requires rg.min <= rg.max && IsRoll(u)
    ensures rg.min <= t <= rg.max
  {
    var w := (rg.max - rg.min + 1) as real;
    var x := rg.min as real + u * w;
    assert u * w < w by {
      assert (1.0 - u) * w > 0.0;
      assert (1.0 - u) * w == w - u * w;
    }
    x.Floor
  }

  /** Every target in the range is drawn by some roll. */
  lemma TargetReachable(rg: Range, t: int) returns (u: real)
    requires rg.min <= t <= rg.max
    ensures IsRoll(u) && TargetGivens(rg, u) == t
  {
    u := (t - rg.min) as real / (rg.max - rg.min + 1) as real;
    assert u * (rg.max - rg.min + 1) as real == (t - rg.min) as real;
  }

  /** The 81 coordinates [Math.floor(i / 9), i % 9] in row-major order. */
  function Cells(): (ps: seq<Pos>)
    ensures |ps| == 81 && AllInBounds(ps) && Distinct(ps)
    ensures forall r, c :: InBounds(r, c) ==> Pos(r, c) in ps
  {
    var ps := seq(81, i => Pos(i / 9, i % 9));
    CellsFacts(ps);
    ps
  }

  /** The row-major listing puts cell (r, c) at index 9 * r + c and nowhere
      else. */
  lemma CellsFacts(ps: seq<Pos>)
    requires ps == seq(81, i => Pos(i / 9, i % 9))
    ensures |ps| == 81 && AllInBounds(ps) && Distinct(ps)
    ensures forall r, c :: InBounds(r, c) ==> Pos(r, c) in ps
  {
    forall i | 0 <= i < 81
      ensures i == 9 * ps[i].r + ps[i].c && InBounds(ps[i].r, ps[i].c)
    {
      assert ps[i] == Pos(i / 9, i % 9);
    }
    forall r, c | InBounds(r, c)
      ensures Pos(r, c) in ps
    {
      var i := 9 * r + c;
      assert i / 9 == r && i % 9 == c;
      assert ps[i] == Pos(r, c);
    }
  }

  /** A shuffle of the 81 coordinates lists each cell once. */
  lemma ShuffledCells(us: seq<real>)
    requires Rolls(us, 81)
    ensures var ps := Shuffle(Cells(), us);
      |ps| == 81 && AllInBounds(ps) && forall r, c :: InBounds(r, c) ==> Pos(r, c) in ps
  {
    var ps := Shuffle(Cells(), us);
    ShufflePermutes(Cells(), us);
    SameItems(ps, Cells());
    assert forall i :: 0 <= i < 81 ==> ps[i] in Cells();
  }

  /** The loop's bookkeeping, kept as one condition: the puzzle is a
      reduction of full with `removed` cells cleared, the givens count
      81 - removed is still above the target, and a puzzle cut from a full
      grid has exactly one solution by countSolutions. */
  ghost predicate Reducing(full: Grid, puzzle: Grid, removed: int, target: int) {
    var ok :=
      && WellFormed(full) && WellFormed(puzzle) && Extends(puzzle, full)
      && ZeroCount(puzzle) == ZeroCount(full) + removed
      && 81 - removed > target
      && (ZeroFree(full) ==> CountSolutions(puzzle, 2) == 1);
    ok
  }

  /** Clearing one cell of the puzzle when countSolutions still reports one
      solution, and keeping it otherwise. */
  lemma ClearStep(full: Grid, puzzle: Grid, removed: int, target: int, r: int, c: int)
    requires Reducing(full, puzzle, removed, target) && InBounds(r, c) && puzzle[r][c] != 0
    requires CountSolutions(SetCell(puzzle, r, c, 0), 2) == 1
    ensures var trial := SetCell(puzzle, r, c, 0);
      WellFormed(trial) && Extends(trial, full) && ZeroCount(trial) == ZeroCount(full) + removed + 1
      && (81 - (removed + 1) > target ==> Reducing(full, trial, removed + 1, target))
  {
    ZeroCountSetCell(puzzle, r, c, 0);
  }

  /** removeCellsForDifficulty(full, difficulty) with the target roll and
      the shuffle's rolls. The ghost `broke` says whether the loop left by
      its break. The puzzle keeps some of full's cells and clears the rest;
      a puzzle cut from a full grid still has exactly one solution by
      countSolutions; the givens count 81 - removed never drops below the
      target and meets it exactly on the break. */
  method RemoveCellsForDifficulty(full: Grid, difficulty: string, roll: real, us: seq<real>)
    returns (puzzle: Grid, ghost broke: bool)
    requires WellFormed(full) && IsRoll(roll) && Rolls(us, 81)
    ensures WellFormed(puzzle) && Extends(puzzle, full)
    ensures ZeroFree(full) ==> CountSolutions(puzzle, 2) == 1
    ensures
      var target := TargetGivens(Targets(difficulty), roll);
      var givens := 81 - (ZeroCount(puzzle) - ZeroCount(full));
      target <= givens && (broke ==> givens == target) && (!broke ==> givens > target)
  {
    var rg := Targets(difficulty);
    var target := TargetGivens(rg, roll);
    puzzle := full;
    var positions := Shuffle(Cells(), us);
    ShuffledCells(us);
    var removed := 0;
    broke := false;
    if ZeroFree(full) {
      CountFull(full, 2);
    }
    assert Extends(full, full);
    var k := 0;
    while k < |positions|
      invariant 0 <= k <= |positions|
      invariant Reducing(full, puzzle, removed, target)
    {
      var p := positions[k];
      var current := puzzle[p.r][p.c];
      if current != 0 {
        var trial := SetCell(puzzle, p.r, p.c, 0);
        if CountSolutions(trial, 2) == 1 {
          ClearStep(full, puzzle, removed, target, p.r, p.c);
          puzzle, removed := trial, removed + 1;
          if 81 - removed <= target {
            broke := true;
            break;
          }
        }
      }
      k := k + 1;
    }
  }

  /** generateSudoku's result; the informational seed string is left out. */
  datatype Generated = Generated(puzzle: Grid, solution: Grid)

  /** generateSudoku(difficulty): the error branch is taken exactly when
      fillGrid(emptyGrid()) returns null; otherwise the solution is that
      full grid and the puzzle a reduction of it. Since the empty grid has
      a completion, the fill never fails whatever the rolls, so generation
      always succeeds, with a full conflict-free solution that solves the
      puzzle and a puzzle countSolutions finds exactly one solution of. */
  method GenerateSudoku(difficulty: string, rolls: Grid -> seq<real>, roll: real, us: seq<real>)
    returns (res: Result<Generated, string>)
    requires Fair(rolls) && IsRoll(roll) && Rolls(us, 81)
    ensures res.Failure? <==> FillGrid(EmptyGrid(), rolls).None?
    ensures res.Success?
    ensures res.Success? ==>
      && Some(res.value.solution) == FillGrid(EmptyGrid(), rolls)
      && Solves(res.value.solution, EmptyGrid())
      && Solves(res.value.solution, res.value.puzzle)
      && CountSolutions(res.value.puzzle, 2) == 1
      && TargetGivens(Targets(difficulty), roll) <= 81 - ZeroCount(res.value.puzzle)
  {
    var full := FillGrid(EmptyGrid(), rolls);
    FillEmptySucceeds(rolls);
    EmptyGridConflictFree();
    if full.None? {
      return Failure("Failed to generate full grid");
    }
    var solution := full.value;
    ZeroCountFacts(solution);
    var puzzle, broke := RemoveCellsForDifficulty(solution, difficulty, roll, us);
    res := Success(Generated(puzzle, solution));
  }
}

=== FILE: grid.dfy ===
/** The 9x9 grid: cell coordinates, well-formedness, placements, empty-cell
    search and the declarative notions (peers, conflicts, completions) that
    the rest of the model is stated in. */
module Grid {
  import opened Wrappers

  datatype Pos = Pos(r: int, c: int)

  /** A grid is nine rows of nine cells; 0 is an empty cell, 1..9 a digit. */
  type Grid = seq<seq<int>>

  predicate InBounds(r: int, c: int) {
    0 <= r < 9 && 0 <= c < 9
  }

  predicate WellFormed(g: Grid) {
    |g| == 9 && forall r :: 0 <= r < 9 ==> |g[r]| == 9 && forall c :: 0 <= c < 9 ==> 0 <= g[r][c] <= 9
  }

  /** The band of three rows (or columns) holding index x: Math.floor(x / 3)
      on 0..8, written without division. */
  function Band(x: int): (b: int)
    ensures 0 <= b <= 2
  {
    if x < 3 then 0 else if x < 6 then 1 else 2
  }

  lemma BandIsDivision(x: int)
    requires 0 <= x < 9
    ensures Band(x) == x / 3 && 3 * Band(x) <= x < 3 * Band(x) + 3
  {
  }

  /** Two cells see each other when they share a row, a column or a 3x3 box
      (every cell sees itself). */
  predicate Peer(r1: int, c1: int, r2: int, c2: int) {
    r1 == r2 || c1 == c2 || (Band(r1) == Band(r2) && Band(c1) == Band(c2))
  }

  /** Every listed cell is on the board. */
  predicate AllInBounds(ps: seq<Pos>) {
    forall i :: 0 <= i < |ps| ==> InBounds(ps[i].r, ps[i].c)
  }

  /** No cell is listed twice. */
  predicate Distinct(ps: seq<Pos>) {
    forall i, j :: 0 <= i < j < |ps| ==> ps[i] != ps[j]
  }

  /** A list without repeats has as many distinct items as entries. */
  lemma {:induction false} DistinctCard<T>(xs: seq<T>)
    requires forall i, j :: 0 <= i < j < |xs| ==> xs[i] != xs[j]
    ensures |set x | x in xs| == |xs|
  {
    if xs != [] {
      var rest := xs[1..];
      DistinctCard(rest);
      assert (set x | x in xs) == {xs[0]} + (set x | x in rest);
      assert xs[0] !in rest;
    }
  }

  /** Row-major order on cells. */
  predicate Before(a: Pos, b: Pos) {
    a.r < b.r || (a.r == b.r && a.c < b.c)
  }

  /** The grid with cell (r, c) overwritten by v: `grid[r][c] = v`. */
  function SetCell(g: Grid, r: int, c: int, v: int): (h: Grid)
    requires WellFormed(g) && InBounds(r, c) && 0 <= v <= 9
    ensures WellFormed(h) && h[r][c] == v
    ensures forall r2, c2 :: InBounds(r2, c2) && (r2 != r || c2 != c) ==> h[r2][c2] == g[r2][c2]
  {
    g[r := g[r][c := v]]
  }

  ghost predicate ZeroFree(g: Grid)
    requires WellFormed(g)
  {
    forall r, c :: InBounds(r, c) ==> g[r][c] != 0
  }

  /** h keeps every non-zero cell of g. */
  ghost predicate Extends(g: Grid, h: Grid)
    requires WellFormed(g) && WellFormed(h)
  {
    forall r, c :: InBounds(r, c) && g[r][c] != 0 ==> h[r][c] == g[r][c]
  }

  /** No two distinct cells that see each other hold the same digit. */
  ghost predicate ConflictFree(g: Grid)
    requires WellFormed(g)
  {
    forall r1, c1, r2, c2 ::
      InBounds(r1, c1) && InBounds(r2, c2) && (r1 != r2 || c1 != c2) && Peer(r1, c1, r2, c2) && g[r1][c1] != 0
      ==> g[r1][c1] != g[r2][c2]
  }

  /** s is a solution of puzzle g: full, conflict-free and keeping g's givens. */
  ghost predicate Solves(s: Grid, g: Grid) {
    WellFormed(s) && WellFormed(g) && ZeroFree(s) && ConflictFree(s) && Extends(g, s)
  }

  function RowZeros(row: seq<int>): nat
  {
    if row == [] then 0 else (if row[0] == 0 then 1 else 0) + RowZeros(row[1..])
  }

  /** The number of empty cells; the search recursions decrease it. */
  function ZeroCount(g: Grid): nat
  {
    if g == [] then 0 else RowZeros(g[0]) + ZeroCount(g[1..])
  }

  lemma {:induction false} RowZerosBounds(row: seq<int>)
    ensures RowZeros(row) <= |row|
    ensures RowZeros(row) == 0 <==> forall c :: 0 <= c < |row| ==> row[c] != 0
  {
    if row != [] {
      RowZerosBounds(row[1..]);
      assert forall c :: 1 <= c < |row| ==> row[c] == row[1..][c - 1];
    }
  }

  lemma {:induction false} RowZerosUpdate(row: seq<int>, c: int, v: int)
    requires 0 <= c < |row|
    ensures RowZeros(row[c := v]) + (if row[c] == 0 then 1 else 0) == RowZeros(row) + (if v == 0 then 1 else 0)
  {
    if c > 0 {
      assert row[c := v][1..] == row[1..][c - 1 := v];
      RowZerosUpdate(row[1..], c - 1, v);
    }
  }

  lemma {:induction false} ZeroCountRows(g: Grid)
    requires forall r :: 0 <= r < |g| ==> |g[r]| == 9
    ensures ZeroCount(g) <= 9 * |g|
    ensures ZeroCount(g) == 0 <==> forall r, c :: 0 <= r < |g| && 0 <= c < 9 ==> g[r][c] != 0
  {
    if g != [] {
      RowZerosBounds(g[0]);
      ZeroCountRows(g[1..]);
      assert forall r :: 1 <= r < |g| ==> g[r] == g[1..][r - 1];
    }
  }

  lemma {:induction false} ZeroCountUpdateRows(g: Grid, r: int, c: int, v: int)
    requires 0 <= r < |g| && 0 <= c < |g[r]|
    ensures ZeroCount(g[r := g[r][c := v]]) + (if g[r][c] == 0 then 1 else 0)
         == ZeroCount(g) + (if v == 0 then 1 else 0)
  {
    if r == 0 {
      assert g[r := g[r][c := v]][1..] == g[1..];
      RowZerosUpdate(g[0], c, v);
    } else {
      assert g[r := g[r][c := v]][1..] == g[1..][r - 1 := g[r][c := v]];
      ZeroCountUpdateRows(g[1..], r - 1, c, v);
    }
  }

  /** The empty-cell count is at most 81 and is 0 exactly on full grids. */
  lemma ZeroCountFacts(g: Grid)
    requires WellFormed(g)
    ensures ZeroCount(g) <= 81
    ensures ZeroCount(g) == 0 <==> ZeroFree(g)
  {
    ZeroCountRows(g);
  }

  /** Writing v into (r, c) changes the empty-cell count by what the cell was
      and what v is. */
  lemma ZeroCountSetCell(g: Grid, r: int, c: int, v: int)
    requires WellFormed(g) && InBounds(r, c) && 0 <= v <= 9
    ensures ZeroCount(SetCell(g, r, c, v)) + (if g[r][c] == 0 then 1 else 0)
         == ZeroCount(g) + (if v == 0 then 1 else 0)
  {
    ZeroCountUpdateRows(g, r, c, v);
  }

  /** Scans cells from (r, c) onwards in row-major order, as the nested
      loops of findEmpty do. */
  function FindEmptyFrom(g: Grid, r: int, c: int): (p: Option<Pos>)
    requires WellFormed(g) && 0 <= r <= 9 && 0 <= c <= 9
    decreases 9 - r, 9 - c
    ensures p.None? <==> forall r2, c2 :: InBounds(r2, c2) && !Before(Pos(r2, c2), Pos(r, c)) ==> g[r2][c2] != 0
    ensures p.Some? ==>
      && InBounds(p.value.r, p.value.c) && g[p.value.r][p.value.c] == 0
      && !Before(p.value, Pos(r, c))
      && forall r2, c2 :: InBounds(r2, c2) && !Before(Pos(r2, c2), Pos(r, c)) && Before(Pos(r2, c2), p.value) ==> g[r2][c2] != 0
  {
    if r == 9 then None
    else if c == 9 then FindEmptyFrom(g, r + 1, 0)
    else if g[r][c] == 0 then Some(Pos(r, c))
    else FindEmptyFrom(g, r, c + 1)
  }

  /** findEmpty: the first empty cell in row-major order, or None exactly when
      the grid is full. */
  function FindEmpty(g: Grid): (p: Option<Pos>)
    requires WellFormed(g)
    ensures p.None? <==> ZeroFree(g)
    ensures p.Some? ==>
      && InBounds(p.value.r, p.value.c) && g[p.value.r][p.value.c] == 0
      && forall r, c :: InBounds(r, c) && Before(Pos(r, c), p.value) ==> g[r][c] != 0
  {
    FindEmptyFrom(g, 0, 0)
  }

  /** Writing a digit into an empty cell removes exactly one empty cell. */
  lemma FillDecreasesZeroCount(g: Grid, r: int, c: int, v: int)
    requires WellFormed(g) && InBounds(r, c) && g[r][c] == 0 && 1 <= v <= 9
    ensures ZeroCount(SetCell(g, r, c, v)) == ZeroCount(g) - 1
  {
    ZeroCountSetCell(g, r, c, v);
  }

  lemma ExtendsTransitive(a: Grid, b: Grid, c: Grid)
    requires WellFormed(a) && WellFormed(b) && WellFormed(c)
    requires Extends(a, b) && Extends(b, c)
    ensures Extends(a, c)
  {
  }

  /** Clearing cells of a conflict-free grid keeps it conflict-free; in
      particular every puzzle that has a solution is conflict-free. */
  lemma ReductionConflictFree(g: Grid, s: Grid)
    requires WellFormed(g) && WellFormed(s) && Extends(g, s) && ConflictFree(s)
    ensures ConflictFree(g)
  {
  }
}

=== FILE: hiddenpairs.dfy ===
/** techniqueHiddenPairs: in a unit, when two digits a < b can each go in
    exactly the same two cells, both cells keep only a and b. The
    assignment is unconditional: a cell that already has two candidates is
    overwritten silently, without a label or a record. Positions are
    collected from the candidates at the start of the unit. */
module HiddenPairs {
  import opened Grid
  import opened Units
  import opened Telemetry
  import opened Candidates
  import opened Engine
  import opened Scans
  import opened Deductions

  /** The two holder lists form a hidden pair with something to strip:
      exactly two cells, the same for both digits, and one of them has a
      number of candidates other than two. */
  ghost predicate Pair(s: State, pa: seq<Pos>, pb: seq<Pos>)
    requires Good(s) && AllInBounds(pa)
  {
    |pa| == 2 && pb == pa && (|s.cand[pa[0].r][pa[0].c]| != 2 || |s.cand[pa[1].r][pa[1].c]| != 2)
  }

  /** Digits a < b form a hidden pair in unit (kind, idx) of s whose
      assignment changes a candidate list. */
  ghost predicate HiddenPairIn(s: State, kind: UnitKind, idx: int, a: int, b: int)
    requires Good(s)
  {
    0 <= idx < 9 && 1 <= a < b <= 9 && Pair(s, Holders(s.grid, s.cand, kind, idx, a), Holders(s.grid, s.cand, kind, idx, b))
  }

  /** Since the start u of the unit, every list only shrank, and a list that
      differs from its start has exactly two digits (it was overwritten by
      a pair). Stated cell by cell in row-major order. */
  ghost predicate Within(u: CandGrid, t: CandGrid)
    requires Shaped(u) && Shaped(t)
  {
    WithinFrom(u, t, 0)
  }

  /** Within, for the cells from row-major index k on. */
  ghost predicate WithinFrom(u: CandGrid, t: CandGrid, k: nat)
    requires Shaped(u) && Shaped(t) && k <= 81
    decreases 81 - k
  {
    k == 81 || (Kept(u[k / 9][k % 9], t[k / 9][k % 9]) && WithinFrom(u, t, k + 1))
  }

  /** A list b that came from a: a subset of it, and either all of it or a
      pair. */
  ghost predicate Kept(a: set<int>, b: set<int>) {
    b <= a && (|b| == 2 || |b| == |a|)
  }

  lemma {:induction false} WithinAt(u: CandGrid, t: CandGrid, k: nat, r: int, c: int)
    requires Shaped(u) && Shaped(t) && k <= 81 && WithinFrom(u, t, k) && InBounds(r, c) && k <= 9 * r + c
    decreases 81 - k
    ensures Kept(u[r][c], t[r][c])
  {
    if k < 9 * r + c {
      WithinAt(u, t, k + 1, r, c);
    } else {
      assert k / 9 == r && k % 9 == c;
    }
  }

  lemma {:induction false} WithinRefl(u: CandGrid, k: nat)
    requires Shaped(u) && k <= 81
    decreases 81 - k
    ensures WithinFrom(u, u, k)
  {
    if k < 81 {
      WithinRefl(u, k + 1);
    }
  }

  lemma {:induction false} WithinUpdate(u: CandGrid, a: CandGrid, b: CandGrid, x: Pos, after: set<int>, k: nat)
    requires Shaped(u) && Shaped(a) && InBounds(x.r, x.c) && k <= 81 && WithinFrom(u, a, k)
    requires Kept(u[x.r][x.c], after) && b == a[x.r := a[x.r][x.c := after]]
    decreases 81 - k
    ensures Shaped(b) && WithinFrom(u, b, k)
  {
    if k < 81 {
      WithinUpdate(u, a, b, x, after, k + 1);
      var r, c := k / 9, k % 9;
      if r != x.r || c != x.c {
        assert b[r][c] == a[r][c];
      }
    }
  }

  lemma WithinShrinks(u: CandGrid, t: CandGrid)
    requires Shaped(u) && Shaped(t) && Within(u, t)
    ensures Shrinks(u, t)
  {
    forall r, c | InBounds(r, c)
      ensures t[r][c] <= u[r][c]
    {
      WithinAt(u, t, 0, r, c);
    }
  }

  /** Overwriting one list with two of its starting digits keeps Within;
      the total drops exactly when the list did not have two digits. */
  lemma Overwrite(u: CandGrid, a: CandGrid, b: CandGrid, x: Pos, after: set<int>)
    requires Shaped(u) && Shaped(a) && InBounds(x.r, x.c) && Within(u, a)
    requires after <= u[x.r][x.c] && |after| == 2 && b == a[x.r := a[x.r][x.c := after]]
    ensures Shaped(b) && Within(u, b)
    ensures |a[x.r][x.c]| != 2 ==> Total(b) < Total(a)
    ensures |a[x.r][x.c]| == 2 ==> Total(b) == Total(a)
  {
    WithinAt(u, a, 0, x.r, x.c);
    WithinUpdate(u, a, b, x, after, 0);
    TotalUpdate(a, x.r, x.c, after);
    SubsetCard(u[x.r][x.c], after);
    SubsetCard(u[x.r][x.c], a[x.r][x.c]);
  }

  /** What holds between the start u of a unit and the current state t. */
  ghost predicate UnitProgress(u: State, t: State, did: bool)
  {
    var ok := && Good(u) && Good(t) && Follows(u, t) && t.grid == u.grid && Within(u.cand, t.cand)
      && KeepsSolutions(u, t)
      && (did ==> Total(t.cand) < Total(u.cand))
      && (!did ==> t == u);
    ok
  }

  lemma UnitProgressRefl(u: State)
    requires Good(u)
    ensures UnitProgress(u, u, false)
  {
    AdvancedRefl(u);
    WithinRefl(u.cand, 0);
  }

  /** At the end of a unit the progress is a technique step. */
  lemma UnitAdvanced(u: State, t: State, did: bool)
    requires UnitProgress(u, t, did)
    ensures Advanced(u, t, did)
  {
    WithinShrinks(u.cand, t.cand);
  }

  /** Overwriting the list of cell x, one of the two cells of the pair
      (a, b): labelled and recorded only when the list did not have two
      digits. */
  method PairCell(u: State, t0: State, a: int, b: int, x: Pos, tech: Technique, ghost did0: bool) returns (t: State, d: bool)
    requires UnitProgress(u, t0, did0) && InBounds(x.r, x.c) && u.grid[x.r][x.c] == 0 && tech.IsElimination()
    requires a != b && a in u.cand[x.r][x.c] && b in u.cand[x.r][x.c]
    requires Pinned(u, x.r, x.c, {a, b})
    ensures UnitProgress(u, t, did0 || d)
    ensures d <==> |t0.cand[x.r][x.c]| != 2
  {
    var before := t0.cand[x.r][x.c];
    var after := {a, b};
    assert |after| == 2;
    Overwrite(u.cand, t0.cand, t0.cand[x.r := t0.cand[x.r][x.c := after]], x, after);
    if |before| != 2 {
      t := Narrow(t0, x.r, x.c, after, tech, MovesAt(x.r, x.c, Digits(before - after)));
      PairKeeps(u, t0, t, x, after);
      d := true;
    } else if before != after {
      assert did0 by {
        if !did0 {
          SubsetCard(before, after);
        }
      }
      t := Assign(t0, x.r, x.c, after);
      PairKeeps(u, t0, t, x, after);
      d := false;
    } else {
      t, d := t0, false;
      AdvancedRefl(t0);
    }
    ProgressStep(u, t0, t, did0, d);
  }

  /** Overwriting cell x with a set that holds x's digit in every solution
      u admits keeps those solutions. */
  lemma PairKeeps(u: State, t0: State, t: State, x: Pos, after: set<int>)
    requires InBounds(x.r, x.c) && KeepsSolutions(u, t0)
    requires Pinned(u, x.r, x.c, after) && KeepsAt(t0, t, x.r, x.c, after)
    ensures KeepsSolutions(u, t)
  {
  }

  /** Chaining one overwrite onto the progress of the unit. */
  lemma ProgressStep(u: State, t0: State, t: State, did0: bool, d: bool)
    requires UnitProgress(u, t0, did0) && Good(t) && Follows(t0, t) && t.grid == t0.grid && Within(u.cand, t.cand)
    requires KeepsSolutions(u, t)
    requires Total(t.cand) <= Total(t0.cand) && (d ==> Total(t.cand) < Total(t0.cand))
    requires !d && !did0 ==> t == t0
    ensures UnitProgress(u, t, did0 || d)
  {
    FollowsTrans(u, t0, t);
  }

  /** posByNum: for every digit n, the cells of the unit that are empty and
      list n, taken from the candidates at the start u of the unit (which
      satisfies the candidate invariant). */
  ghost predicate PosByNum(u: State, pos: seq<seq<Pos>>)
  {
    var ok := Good(u) && |pos| == 10 && forall n, i :: 1 <= n <= 9 && 0 <= i < |pos[n]| ==>
      InBounds(pos[n][i].r, pos[n][i].c) && u.grid[pos[n][i].r][pos[n][i].c] == 0 && n in u.cand[pos[n][i].r][pos[n][i].c];
    ok
  }

  /** The snapshot the unit works from. */
  function Positions(u: State, kind: UnitKind, idx: int): (pos: seq<seq<Pos>>)
    requires Good(u) && 0 <= idx < 9
    ensures PosByNum(u, pos)
    ensures forall n :: 1 <= n <= 9 ==> pos[n] == Holders(u.grid, u.cand, kind, idx, n)
  {
    seq(10, n requires 0 <= n < 10 => if n == 0 then [] else Holders(u.grid, u.cand, kind, idx, n))
  }

  /** The candidates of cell p, and none off the board. */
  function CandAt(cand: CandGrid, p: Pos): (s: set<int>)
    ensures Shaped(cand) && InBounds(p.r, p.c) ==> s == cand[p.r][p.c]
  {
    if 0 <= p.r < |cand| && 0 <= p.c < |cand[p.r]| then cand[p.r][p.c] else {}
  }

  /** Two cells, one of which does not have exactly two candidates in uc:
      overwriting both with a pair changes something. */
  predicate Strips(uc: CandGrid, pa: seq<Pos>) {
    |pa| == 2 && (|CandAt(uc, pa[0])| != 2 || |CandAt(uc, pa[1])| != 2)
  }

  /** Digits a < b form a pair with something to strip, read off the
      snapshot pos of the positions and the candidates uc at the start of
      the unit. */
  predicate PairAt(uc: CandGrid, pos: seq<seq<Pos>>, a: int, b: int) {
    var ok := 1 <= a < b <= 9 && |pos| == 10 && pos[b] == pos[a] && Strips(uc, pos[a]);
    ok
  }

  /** Read off the snapshot of the unit, a pair is exactly a hidden pair. */
  lemma PairAtIff(u: State, kind: UnitKind, idx: int, pos: seq<seq<Pos>>)
    requires Good(u) && 0 <= idx < 9 && pos == Positions(u, kind, idx)
    ensures forall a, b :: PairAt(u.cand, pos, a, b) <==> HiddenPairIn(u, kind, idx, a, b)
  {
  }

  /** Two distinct empty cells of the start u of the unit that both list
      a and b, a != b. */
  ghost predicate Shared(u: State, pa: seq<Pos>, a: int, b: int) {
    var ok := Good(u) && |pa| == 2 && a != b && forall i :: 0 <= i < 2 ==>
      InBounds(pa[i].r, pa[i].c) && u.grid[pa[i].r][pa[i].c] == 0 && a in u.cand[pa[i].r][pa[i].c] && b in u.cand[pa[i].r][pa[i].c];
    ok
  }

  /** The shared two holders of digits a and b when they form a pair (the
      positions of a and b agree cell by cell), and no cells otherwise. */
  function PairCells(u: State, pos: seq<seq<Pos>>, a: int, b: int): (pa: seq<Pos>)
    requires PosByNum(u, pos)
    ensures pa == [] || Shared(u, pa, a, b)
    ensures PairAt(u.cand, pos, a, b) <==> Strips(u.cand, pa)
  {
    if 1 <= a < b <= 9 && |pos[a]| == 2 && pos[b] == pos[a] then pos[a] else []
  }

  /** Why a hidden pair is sound: in every solution u admits, a and b
      each land on one of their two shared holders, on different cells,
      so each of the two cells takes a or b. */
  lemma PairSound(g: Grid, cand: CandGrid, S: Grid, kind: UnitKind, idx: int, a: int, b: int, pa: seq<Pos>, x: Pos)
    requires WellFormed(g) && Shaped(cand) && Sound(g, cand) && Solves(S, g) && Allows(g, cand, S) && 0 <= idx < 9 && a != b
    requires pa == Holders(g, cand, kind, idx, a) && |pa| == 2 && Holders(g, cand, kind, idx, b) == pa
    requires x == pa[0] || x == pa[1]
    ensures InBounds(x.r, x.c) && S[x.r][x.c] in {a, b}
  {
    HoldersDistinct(g, cand, kind, idx, a);
    assert Holds(g, cand, pa[0], a) && Holds(g, cand, pa[0], b);
    var p := Lands(g, cand, S, kind, idx, a, pa[0]);
    var q := Lands(g, cand, S, kind, idx, b, pa[0]);
    InPair(pa, p);
    InPair(pa, q);
    if p == pa[0] {
      assert q == pa[1];
    } else {
      assert p == pa[1] && q == pa[0];
    }
  }

  /** One cell of a hidden pair of u takes a or b in every solution u
      admits. */
  lemma PinCell(u: State, kind: UnitKind, idx: int, a: int, b: int, pa: seq<Pos>, x: Pos)
    requires Good(u) && 0 <= idx < 9 && a != b
    requires pa == Holders(u.grid, u.cand, kind, idx, a) && |pa| == 2 && Holders(u.grid, u.cand, kind, idx, b) == pa
    requires x == pa[0] || x == pa[1]
    ensures InBounds(x.r, x.c) && Pinned(u, x.r, x.c, {a, b})
  {
    assert InBounds(x.r, x.c);
    forall S | Admits(u, S)
      ensures S[x.r][x.c] in {a, b}
    {
      PairSound(u.grid, u.cand, S, kind, idx, a, b, pa, x);
    }
  }

  lemma InPair(xs: seq<Pos>, x: Pos)
    requires |xs| == 2 && x in xs
    ensures x == xs[0] || x == xs[1]
  {
  }

  /** The pair the scan found in the snapshot of the unit is sound. */
  lemma PairForced(u: State, kind: UnitKind, idx: int, pos: seq<seq<Pos>>, a: int, b: int)
    requires Good(u) && 0 <= idx < 9 && pos == Positions(u, kind, idx)
    requires PairCells(u, pos, a, b) != []
    ensures var pa := PairCells(u, pos, a, b);
      Pinned(u, pa[0].r, pa[0].c, {a, b}) && Pinned(u, pa[1].r, pa[1].c, {a, b})
  {
    var pa := PairCells(u, pos, a, b);
    assert 1 <= a < b <= 9 && pa == pos[a] == pos[b];
    assert pa == Holders(u.grid, u.cand, kind, idx, a) == Holders(u.grid, u.cand, kind, idx, b) && |pa| == 2;
    PinCell(u, kind, idx, a, b, pa, pa[0]);
    PinCell(u, kind, idx, a, b, pa, pa[1]);
  }

  /** Overwriting both cells of a pair, in order. */
  method PairApply(u: State, t0: State, did0: bool, a: int, b: int, pa: seq<Pos>, kind: UnitKind) returns (t: State, did: bool)
    requires UnitProgress(u, t0, did0) && Shared(u, pa, a, b)
    requires Pinned(u, pa[0].r, pa[0].c, {a, b}) && Pinned(u, pa[1].r, pa[1].c, {a, b})
    ensures UnitProgress(u, t, did)
    ensures did <==> did0 || Strips(u.cand, pa)
  {
    var t1, d1 := PairCell(u, t0, a, b, pa[0], HiddenPair(kind), did0);
    var t2, d2 := PairCell(u, t1, a, b, pa[1], HiddenPair(kind), did0 || d1);
    t, did := t2, did0 || d1 || d2;
  }

  /** No pair before (a, b) in the loops of the unit. */
  ghost predicate NoneBefore(uc: CandGrid, pos: seq<seq<Pos>>, a: int, b: int) {
    forall a', b' :: PairBefore(a', b', a, b) ==> !PairAt(uc, pos, a', b')
  }

  /** Scanning one more pair keeps "no pair so far" in the unit, unless
      that pair is one. */
  lemma PairRowNext(uc: CandGrid, pos: seq<seq<Pos>>, a: int, b: int)
    requires NoneBefore(uc, pos, a, b)
    ensures PairAt(uc, pos, a, b) || NoneBefore(uc, pos, a, b + 1)
  {
    if !PairAt(uc, pos, a, b) {
      forall a', b' | PairBefore(a', b', a, b + 1)
        ensures !PairAt(uc, pos, a', b')
      {
        if a' != a || b' != b {
          assert PairBefore(a', b', a, b);
        }
      }
    }
  }

  /** (a', b') comes before (a, b) in the pair loops. */
  predicate PairBefore(a': int, b': int, a: int, b: int) {
    a' < a || (a' == a && b' < b)
  }

  /** The state of the pair loops of a unit before pair (a, b): the
      progress since the start u, and either no pair so far or the first
      one found, (wa, wb). */
  ghost predicate Scan(u: State, pos: seq<seq<Pos>>, t: State, did: bool, a: int, b: int, wa: int, wb: int) {
    var ok := UnitProgress(u, t, did) && PosByNum(u, pos)
      && (!did ==> NoneBefore(u.cand, pos, a, b))
      && (did ==> PairAt(u.cand, pos, wa, wb));
    ok
  }

  /** The inner loop over b for a fixed a. */
  method PairRow(u: State, pos: seq<seq<Pos>>, t0: State, did0: bool, kind: UnitKind, idx: int, a: int, ghost wa0: int, ghost wb0: int)
      returns (t: State, did: bool, ghost wa: int, ghost wb: int)
    requires Scan(u, pos, t0, did0, a, a + 1, wa0, wb0) && 0 <= idx < 9 && pos == Positions(u, kind, idx)
    ensures Scan(u, pos, t, did, a + 1, a + 2, wa, wb)
  {
    t, did, wa, wb := t0, did0, wa0, wb0;
    var b := a + 1;
    while b <= 9
      invariant Scan(u, pos, t, did, a, b, wa, wb)
    {
      t, did, wa, wb := PairStep(u, pos, t, did, kind, idx, a, b, wa, wb);
      b := b + 1;
    }
    PairRowEnd(u, pos, t, did, a, b, wa, wb);
  }

  /** Past the last b, the scan of row a is the scan before row a + 1. */
  lemma PairRowEnd(u: State, pos: seq<seq<Pos>>, t: State, did: bool, a: int, b: int, wa: int, wb: int)
    requires Scan(u, pos, t, did, a, b, wa, wb) && b >= 10
    ensures Scan(u, pos, t, did, a + 1, a + 2, wa, wb)
  {
    if !did {
      forall a', b' | PairBefore(a', b', a + 1, a + 2)
        ensures !PairAt(u.cand, pos, a', b')
      {
        if PairAt(u.cand, pos, a', b') {
          assert PairBefore(a', b', a, b);
        }
      }
    }
  }

  /** The pair (a, b) of the unit: when both digits have the same two
      holders, both cells are overwritten. */
  method PairStep(u: State, pos: seq<seq<Pos>>, t0: State, did0: bool, kind: UnitKind, idx: int, a: int, b: int, ghost wa0: int, ghost wb0: int)
      returns (t: State, did: bool, ghost wa: int, ghost wb: int)
    requires Scan(u, pos, t0, did0, a, b, wa0, wb0) && 0 <= idx < 9 && pos == Positions(u, kind, idx)
    ensures Scan(u, pos, t, did, a, b + 1, wa, wb)
  {
    t, did, wa, wb := t0, did0, wa0, wb0;
    var pa := PairCells(u, pos, a, b);
    if pa != [] {
      PairForced(u, kind, idx, pos, a, b);
      t, did := PairApply(u, t0, did0, a, b, pa, kind);
    }
    if !did0 {
      PairRowNext(u.cand, pos, a, b);
      if did {
        wa, wb := a, b;
      }
    }
  }

  /** One unit: every pair of digits a < b in order, against the snapshot
      of the positions at the start of the unit. A change happens exactly
      when the unit had a hidden pair with something to strip. */
  method PairUnit(u: State, kind: UnitKind, idx: int) returns (t: State, did: bool)
    requires Good(u) && 0 <= idx < 9
    ensures Advanced(u, t, did) && t.grid == u.grid
    ensures did <==> exists a, b :: HiddenPairIn(u, kind, idx, a, b)
  {
    var pos := Positions(u, kind, idx);
    t, did := u, false;
    UnitProgressRefl(u);
    ghost var wa, wb := 1, 2;
    var a := 1;
    while a <= 9
      invariant 1 <= a <= 10
      invariant Scan(u, pos, t, did, a, a + 1, wa, wb)
    {
      t, did, wa, wb := PairRow(u, pos, t, did, kind, idx, a, wa, wb);
      a := a + 1;
    }
    PairUnitEnd(u, kind, idx, pos, t, did, wa, wb);
  }

  /** After every pair, the scan is the unit's contract. */
  lemma PairUnitEnd(u: State, kind: UnitKind, idx: int, pos: seq<seq<Pos>>, t: State, did: bool, wa: int, wb: int)
    requires Good(u) && 0 <= idx < 9 && pos == Positions(u, kind, idx)
    requires Scan(u, pos, t, did, 10, 11, wa, wb)
    ensures Advanced(u, t, did) && t.grid == u.grid
    ensures did <==> exists a, b :: HiddenPairIn(u, kind, idx, a, b)
  {
    UnitAdvanced(u, t, did);
    PairAtIff(u, kind, idx, pos);
    if !did {
      forall a, b
        ensures !PairAt(u.cand, pos, a, b)
      {
        if PairAt(u.cand, pos, a, b) {
          assert PairBefore(a, b, 10, 11);
        }
      }
    }
  }

  /** Scanning one more unit keeps "no hidden pair so far". */
  lemma PairScanNext(s: State, ki: int, idx: int)
    requires Good(s) && 0 <= ki < 3 && 0 <= idx < 9
    requires forall kind, i, a, b :: (KindRank(kind) < ki || (KindRank(kind) == ki && i < idx)) ==> !HiddenPairIn(s, kind, i, a, b)
    requires forall a, b :: !HiddenPairIn(s, Kinds[ki], idx, a, b)
    ensures forall kind, i, a, b :: (KindRank(kind) < ki || (KindRank(kind) == ki && i < idx + 1)) ==> !HiddenPairIn(s, kind, i, a, b)
  {
    forall kind, i, a, b | KindRank(kind) == ki && i == idx
      ensures !HiddenPairIn(s, kind, i, a, b)
    {
      assert kind == Kinds[ki];
    }
  }

  /** techniqueHiddenPairs: rows, then columns, then boxes. A change is
      reported exactly when the starting state had a hidden pair whose
      assignment changes a list. */
  method HiddenPairsPass(s: State) returns (t: State, changed: bool)
    requires Good(s)
    ensures Advanced(s, t, changed) && t.grid == s.grid
    ensures changed <==> exists kind, idx, a, b :: HiddenPairIn(s, kind, idx, a, b)
  {
    t, changed := s, false;
    AdvancedRefl(s);
    ghost var wk, wi, wa, wb := Row, 0, 1, 2;
    var ki := 0;
    while ki < 3
      invariant 0 <= ki <= 3
      invariant Advanced(s, t, changed) && t.grid == s.grid
      invariant !changed ==> forall kind, i, a, b :: KindRank(kind) < ki ==> !HiddenPairIn(s, kind, i, a, b)
      invariant changed ==> HiddenPairIn(s, wk, wi, wa, wb)
    {
      var idx := 0;
      while idx < 9
        invariant 0 <= idx <= 9
        invariant Advanced(s, t, changed) && t.grid == s.grid
        invariant !changed ==> forall kind, i, a, b :: (KindRank(kind) < ki || (KindRank(kind) == ki && i < idx)) ==> !HiddenPairIn(s, kind, i, a, b)
        invariant changed ==> HiddenPairIn(s, wk, wi, wa, wb)
      {
        var t1, d := PairUnit(t, Kinds[ki], idx);
        if !changed && d {
          wk, wi := Kinds[ki], idx;
          wa, wb :| HiddenPairIn(s, wk, wi, wa, wb);
        } else if !changed {
          PairScanNext(s, ki, idx);
        }
        ChainedTrans(s, t, t1, changed, d);
        t, changed := t1, changed || d;
        idx := idx + 1;
      }
      ki := ki + 1;
    }
  }
}

=== FILE: hiddentriples.dfy ===
/** techniqueHiddenTriples: in a unit, when three digits a < b < c each have
    one to three positions and together they occupy exactly three cells,
    those cells keep only a, b and c. Positions are collected from the
    candidates at the start of the unit; the filter applies to the current
    candidates. */
module HiddenTriples {
  import opened Grid
  import opened Units
  import opened Telemetry
  import opened Candidates
  import opened Engine
  import opened Scans
  import opened HiddenPairs
  import opened Deductions

  /** A digit with one to three positions in the unit. */
  predicate Spread(ps: seq<Pos>) {
    1 <= |ps| <= 3
  }

  /** The cells a list names. */
  function CellSet(ps: seq<Pos>): set<Pos> {
    set p | p in ps
  }

  /** Some listed cell lists a digit outside K. */
  ghost predicate Loose(s: State, ps: seq<Pos>, K: set<int>)
    requires Good(s)
  {
    exists p :: p in ps && InBounds(p.r, p.c) && s.cand[p.r][p.c] - K != {}
  }

  /** Digits a < b < c form a hidden triple in unit (kind, idx) of s whose
      filter changes a candidate list: each has one to three holders, the
      holders of the three together are exactly three cells, and one of
      those cells lists a digit other than a, b and c. */
  ghost predicate HiddenTripleIn(s: State, kind: UnitKind, idx: int, a: int, b: int, c: int)
    requires Good(s)
  {
    0 <= idx < 9 && 1 <= a < b < c <= 9 && Triple(s, Holders(s.grid, s.cand, kind, idx, a), Holders(s.grid, s.cand, kind, idx, b), Holders(s.grid, s.cand, kind, idx, c), {a, b, c})
  }

  /** The condition of HiddenTripleIn on the three holder lists. */
  ghost predicate Triple(s: State, pa: seq<Pos>, pb: seq<Pos>, pc: seq<Pos>, K: set<int>)
    requires Good(s)
  {
    Spread(pa) && Spread(pb) && Spread(pc) && |CellSet(pa + pb + pc)| == 3 && Loose(s, pa + pb + pc, K)
  }

  /** The union the source builds: the three position lists concatenated,
      first occurrence of each cell kept. */
  function Union(pa: seq<Pos>, pb: seq<Pos>, pc: seq<Pos>): seq<Pos>
  {
    Dedup(pa + pb + pc, [])
  }

  /** The union names the same cells as the three lists, once each. */
  lemma UnionFacts(pa: seq<Pos>, pb: seq<Pos>, pc: seq<Pos>)
    ensures CellSet(Union(pa, pb, pc)) == CellSet(pa + pb + pc)
    ensures |Union(pa, pb, pc)| == |CellSet(pa + pb + pc)|
  {
    DistinctCard(Union(pa, pb, pc));
  }

  /** Three cells, one of which lists a digit outside K in uc. */
  predicate Stray(uc: CandGrid, cells: seq<Pos>, K: set<int>) {
    |cells| == 3 && exists i :: 0 <= i < 3 && CandAt(uc, cells[i]) - K != {}
  }

  /** Digits a < b < c form a triple with something to filter, read off the
      snapshot pos of the positions and the candidates uc at the start of
      the unit. */
  predicate TripleAt(uc: CandGrid, pos: seq<seq<Pos>>, a: int, b: int, c: int) {
    var ok := 1 <= a < b < c <= 9 && |pos| == 10 && Spread(pos[a]) && Spread(pos[b]) && Spread(pos[c])
      && Stray(uc, Union(pos[a], pos[b], pos[c]), {a, b, c});
    ok
  }

  /** Read off the snapshot of the unit, a triple is exactly a hidden
      triple. */
  lemma TripleAtIff(u: State, kind: UnitKind, idx: int, pos: seq<seq<Pos>>)
    requires Good(u) && 0 <= idx < 9 && pos == Positions(u, kind, idx)
    ensures forall a, b, c :: TripleAt(u.cand, pos, a, b, c) <==> HiddenTripleIn(u, kind, idx, a, b, c)
  {
    forall a, b, c
      ensures TripleAt(u.cand, pos, a, b, c) <==> HiddenTripleIn(u, kind, idx, a, b, c)
    {
      TripleAtOne(u, kind, idx, pos, a, b, c);
    }
  }

  /** TripleAtIff for one choice of digits. */
  lemma TripleAtOne(u: State, kind: UnitKind, idx: int, pos: seq<seq<Pos>>, a: int, b: int, c: int)
    requires Good(u) && 0 <= idx < 9 && pos == Positions(u, kind, idx)
    ensures TripleAt(u.cand, pos, a, b, c) <==> HiddenTripleIn(u, kind, idx, a, b, c)
  {
    if 1 <= a < b < c <= 9 {
      assert pos[a] == Holders(u.grid, u.cand, kind, idx, a);
      assert pos[b] == Holders(u.grid, u.cand, kind, idx, b);
      assert pos[c] == Holders(u.grid, u.cand, kind, idx, c);
      TripleOn(u, pos[a], pos[b], pos[c], {a, b, c});
    }
  }

  /** On three lists of cells of the board, the triple condition read off
      the union and the one read off the lists agree. */
  lemma TripleOn(u: State, pa: seq<Pos>, pb: seq<Pos>, pc: seq<Pos>, K: set<int>)
    requires Good(u) && AllInBounds(pa) && AllInBounds(pb) && AllInBounds(pc)
    ensures Spread(pa) && Spread(pb) && Spread(pc) && Stray(u.cand, Union(pa, pb, pc), K) <==> Triple(u, pa, pb, pc, K)
  {
    assert AllInBounds(pa + pb + pc) by {
      forall i | 0 <= i < |pa + pb + pc|
        ensures InBounds((pa + pb + pc)[i].r, (pa + pb + pc)[i].c)
      {
        if i < |pa| {
          assert (pa + pb + pc)[i] == pa[i];
        } else if i < |pa| + |pb| {
          assert (pa + pb + pc)[i] == pb[i - |pa|];
        } else {
          assert (pa + pb + pc)[i] == pc[i - |pa| - |pb|];
        }
      }
    }
    StrayIffLoose(u, pa, pb, pc, K);
  }

  /** On three holder lists whose union is three cells, Stray on the union
      and Loose on the lists agree. */
  lemma StrayIffLoose(u: State, pa: seq<Pos>, pb: seq<Pos>, pc: seq<Pos>, K: set<int>)
    requires Good(u) && AllInBounds(pa + pb + pc)
    ensures Stray(u.cand, Union(pa, pb, pc), K) <==> |CellSet(pa + pb + pc)| == 3 && Loose(u, pa + pb + pc, K)
  {
    var xs := pa + pb + pc;
    var cells := Union(pa, pb, pc);
    UnionFacts(pa, pb, pc);
    if Stray(u.cand, cells, K) {
      var i :| 0 <= i < 3 && CandAt(u.cand, cells[i]) - K != {};
      assert cells[i] in CellSet(cells);
      assert cells[i] in xs;
    }
    if |cells| == 3 && Loose(u, xs, K) {
      var p :| p in xs && InBounds(p.r, p.c) && u.cand[p.r][p.c] - K != {};
      assert p in CellSet(xs);
      var i :| 0 <= i < 3 && cells[i] == p;
    }
  }

  /** The union of a triple's positions when all three digits have one to
      three of them and the union is three cells, and no cells otherwise. */
  function TripleCells(u: State, pos: seq<seq<Pos>>, a: int, b: int, c: int): (cells: seq<Pos>)
    requires PosByNum(u, pos)
    ensures cells == [] || Spot(u, cells)
    ensures TripleAt(u.cand, pos, a, b, c) <==> Stray(u.cand, cells, {a, b, c})
  {
    if 1 <= a < b < c <= 9 && Spread(pos[a]) && Spread(pos[b]) && Spread(pos[c]) then
      var cells := Union(pos[a], pos[b], pos[c]);
      UnionCells(u, pos, a, b, c, cells);
      if |cells| == 3 then cells else []
    else []
  }

  /** The union lists only positions of the three digits. */
  lemma UnionCells(u: State, pos: seq<seq<Pos>>, a: int, b: int, c: int, cells: seq<Pos>)
    requires PosByNum(u, pos) && 1 <= a < b < c <= 9 && cells == Union(pos[a], pos[b], pos[c])
    ensures forall i :: 0 <= i < |cells| ==> InBounds(cells[i].r, cells[i].c) && u.grid[cells[i].r][cells[i].c] == 0
  {
    forall i | 0 <= i < |cells|
      ensures InBounds(cells[i].r, cells[i].c) && u.grid[cells[i].r][cells[i].c] == 0
    {
      UnionFacts(pos[a], pos[b], pos[c]);
      assert cells[i] in CellSet(cells);
      var n :| n in {a, b, c} && cells[i] in pos[n];
      var j :| 0 <= j < |pos[n]| && pos[n][j] == cells[i];
    }
  }

  /** Three empty cells of the start u of the unit. */
  ghost predicate Spot(u: State, cells: seq<Pos>) {
    var ok := Good(u) && |cells| == 3 && forall i :: 0 <= i < 3 ==> InBounds(cells[i].r, cells[i].c) && u.grid[cells[i].r][cells[i].c] == 0;
    ok
  }

  /** Filtering a list to K changes it exactly when it lists a digit
      outside K. */
  lemma FilterChanges(before: set<int>, K: set<int>)
    ensures |before * K| != |before| <==> before - K != {}
  {
    SubsetCard(before, before * K);
    if before - K == {} {
      forall x | x in before
        ensures x in K
      {
        assert x !in before - K;
      }
      assert before * K == before;
    } else {
      assert before * K != before by {
        assert |before - K| > 0;
        HasElement(before - K);
        var x :| x in before - K;
        assert x !in before * K;
      }
    }
  }

  /** One of the first i listed cells lists a digit outside K. */
  ghost predicate Loosened(a: CandGrid, cells: seq<Pos>, K: set<int>, i: int)
    requires 0 <= i <= |cells|
  {
    exists j :: 0 <= j < i && CandAt(a, cells[j]) - K != {}
  }

  /** In S, each of the first i listed cells holds a digit of K. */
  ghost predicate Inside(S: Grid, cells: seq<Pos>, K: set<int>, i: int)
    requires WellFormed(S) && AllInBounds(cells) && 0 <= i <= |cells|
  {
    forall j :: 0 <= j < i ==> S[cells[j].r][cells[j].c] in K
  }

  /** b is a with each of the first i listed cells filtered to K. */
  ghost predicate FilteredFrom(a: CandGrid, b: CandGrid, cells: seq<Pos>, K: set<int>, i: int)
    requires Shaped(a) && Shaped(b) && 0 <= i <= |cells|
  {
    forall r, c :: InBounds(r, c) ==> b[r][c] == if Pos(r, c) in cells[..i] then a[r][c] * K else a[r][c]
  }

  /** A listed cell has lost nothing but digits of its list in a. */
  lemma FilterMeets(a: CandGrid, b: CandGrid, cells: seq<Pos>, K: set<int>, i: int)
    requires Shaped(a) && Shaped(b) && AllInBounds(cells) && 0 <= i < |cells| && FilteredFrom(a, b, cells, K, i)
    ensures b[cells[i].r][cells[i].c] - K <= a[cells[i].r][cells[i].c] - K
  {
    var x := cells[i];
    assert Pos(x.r, x.c) == x;
  }

  /** Moving past a listed cell that lists nothing outside K. */
  lemma FilterSkip(a: CandGrid, b: CandGrid, cells: seq<Pos>, K: set<int>, i: int)
    requires Shaped(a) && Shaped(b) && AllInBounds(cells) && 0 <= i < |cells| && FilteredFrom(a, b, cells, K, i)
    requires b[cells[i].r][cells[i].c] - K == {}
    ensures FilteredFrom(a, b, cells, K, i + 1)
  {
    assert cells[..i + 1] == cells[..i] + [cells[i]];
    var x := cells[i];
    assert Pos(x.r, x.c) == x;
    if x !in cells[..i] {
      assert b[x.r][x.c] == a[x.r][x.c];
      assert a[x.r][x.c] * K == a[x.r][x.c] by {
        forall y | y in a[x.r][x.c]
          ensures y in K
        {
          assert y !in b[x.r][x.c] - K;
        }
      }
    }
  }

  /** Moving past a listed cell whose list is filtered to K. */
  lemma FilterStep(a: CandGrid, b: CandGrid, b1: CandGrid, cells: seq<Pos>, K: set<int>, i: int)
    requires Shaped(a) && Shaped(b) && AllInBounds(cells) && 0 <= i < |cells| && FilteredFrom(a, b, cells, K, i)
    requires b1 == b[cells[i].r := b[cells[i].r][cells[i].c := b[cells[i].r][cells[i].c] * K]]
    ensures Shaped(b1) && FilteredFrom(a, b1, cells, K, i + 1)
  {
    var x := cells[i];
    assert cells[..i + 1] == cells[..i] + [cells[i]];
    assert Pos(x.r, x.c) == x;
    UpdateFrame(b, x.r, x.c, b[x.r][x.c] * K);
    assert b1[x.r][x.c] == a[x.r][x.c] * K by {
      if x in cells[..i] {
        assert b[x.r][x.c] == a[x.r][x.c] * K;
        assert a[x.r][x.c] * K * K == a[x.r][x.c] * K;
      }
    }
  }

  /** One filter of the loop keeps every solution whose listed cells take
      digits of K over one more entry. */
  lemma FilterSurvivors(v: State, t: State, t1: State, cells: seq<Pos>, K: set<int>, i: int)
    requires Good(v) && Good(t) && AllInBounds(cells) && 0 <= i < |cells|
    requires t.grid == v.grid && v.grid[cells[i].r][cells[i].c] == 0
    requires forall S :: Admits(v, S) && Inside(S, cells, K, i) ==> Admits(t, S)
    requires KeepsAt(t, t1, cells[i].r, cells[i].c, t.cand[cells[i].r][cells[i].c] * K)
    ensures forall S :: Admits(v, S) && Inside(S, cells, K, i + 1) ==> Admits(t1, S)
  {
    var x := cells[i];
    forall S | Admits(v, S) && Inside(S, cells, K, i + 1)
      ensures Admits(t1, S)
    {
      assert Inside(S, cells, K, i);
      assert Admits(t, S);
      assert S[x.r][x.c] in t.cand[x.r][x.c] by {
        assert Allows(t.grid, t.cand, S);
      }
    }
  }

  /** The filter loop over the union: each cell keeps only the digits of
      K, every other cell is left alone; a cell whose list shrank pushes
      the label and records the digits it lost. Every solution of v in
      which the three cells take digits of K survives. */
  method Filter(v: State, cells: seq<Pos>, K: set<int>, tech: Technique) returns (t: State, d: bool)
    requires Spot(v, cells) && tech.IsElimination()
    ensures Progress(v, t, d) && t.grid == v.grid
    ensures d <==> Loosened(v.cand, cells, K, 3)
    ensures forall r, c :: InBounds(r, c) ==> t.cand[r][c] == if Pos(r, c) in cells then v.cand[r][c] * K else v.cand[r][c]
    ensures forall S :: Admits(v, S) && Inside(S, cells, K, 3) ==> Admits(t, S)
  {
    t, d := v, false;
    AdvancedRefl(v);
    var i := 0;
    while i < 3
      invariant 0 <= i <= 3
      invariant Progress(v, t, d) && t.grid == v.grid
      invariant d <==> Loosened(v.cand, cells, K, i)
      invariant FilteredFrom(v.cand, t.cand, cells, K, i)
      invariant forall S :: Admits(v, S) && Inside(S, cells, K, i) ==> Admits(t, S)
    {
      t, d := FilterCell(v, t, d, cells, K, tech, i);
      i := i + 1;
    }
    assert cells[..i] == cells;
  }

  /** One entry of Filter's loop. */
  method FilterCell(v: State, t0: State, d0: bool, cells: seq<Pos>, K: set<int>, tech: Technique, i: int)
      returns (t: State, d: bool)
    requires Spot(v, cells) && tech.IsElimination() && 0 <= i < 3
    requires Progress(v, t0, d0) && t0.grid == v.grid
    requires d0 <==> Loosened(v.cand, cells, K, i)
    requires FilteredFrom(v.cand, t0.cand, cells, K, i)
    requires forall S :: Admits(v, S) && Inside(S, cells, K, i) ==> Admits(t0, S)
    ensures Progress(v, t, d) && t.grid == v.grid
    ensures d <==> Loosened(v.cand, cells, K, i + 1)
    ensures FilteredFrom(v.cand, t.cand, cells, K, i + 1)
    ensures forall S :: Admits(v, S) && Inside(S, cells, K, i + 1) ==> Admits(t, S)
  {
    t, d := t0, d0;
    var x := cells[i];
    var before := t.cand[x.r][x.c];
    var after := before * K;
    FilterChanges(before, K);
    FilterMeets(v.cand, t.cand, cells, K, i);
    if |after| != |before| {
      assert CandAt(v.cand, cells[i]) - K != {};
      var t1 := Narrow(t, x.r, x.c, after, tech, MovesAt(x.r, x.c, Digits(before - K)));
      FilterStep(v.cand, t.cand, t1.cand, cells, K, i);
      FilterSurvivors(v, t, t1, cells, K, i);
      ProgressTrans(v, t, t1, d, true);
      t, d := t1, true;
    } else {
      FilterSkip(v.cand, t.cand, cells, K, i);
      if !d {
        assert before == v.cand[x.r][x.c] by {
          assert Pos(x.r, x.c) == x;
          if x in cells[..i] {
            var j :| 0 <= j < i && cells[j] == x;
          }
        }
        assert forall S :: Admits(v, S) && Inside(S, cells, K, i + 1) ==> Inside(S, cells, K, i);
      }
    }
  }

  /** Three distinct members of a three-cell set are all of it. */
  lemma CoverThree(cs: set<Pos>, p: Pos, q: Pos, w: Pos)
    requires |cs| == 3 && p in cs && q in cs && w in cs && p != q && q != w && p != w
    ensures forall x :: x in cs ==> x == p || x == q || x == w
  {
    var three := {p, q, w};
    assert |three| == 3;
    assert cs == three + (cs - three);
    assert three * (cs - three) == {};
    assert |cs - three| == 0;
  }

  /** Why a hidden triple is sound: in every solution the candidates
      allow, a, b and c each land on one of their holders, on three
      different cells of the three-cell union, so every cell of the union
      takes one of them. */
  lemma TripleSound(g: Grid, cand: CandGrid, S: Grid, kind: UnitKind, idx: int, a: int, b: int, c: int,
      pa: seq<Pos>, pb: seq<Pos>, pc: seq<Pos>, x: Pos)
    requires WellFormed(g) && Shaped(cand) && Sound(g, cand) && Solves(S, g) && Allows(g, cand, S) && 0 <= idx < 9
    requires 1 <= a < b < c <= 9
    requires pa == Holders(g, cand, kind, idx, a) && pb == Holders(g, cand, kind, idx, b) && pc == Holders(g, cand, kind, idx, c)
    requires Spread(pa) && Spread(pb) && Spread(pc) && |CellSet(pa + pb + pc)| == 3 && x in CellSet(pa + pb + pc)
    ensures InBounds(x.r, x.c) && S[x.r][x.c] in {a, b, c}
  {
    HolderAt(g, cand, kind, idx, a, 0);
    HolderAt(g, cand, kind, idx, b, 0);
    HolderAt(g, cand, kind, idx, c, 0);
    var p := Lands(g, cand, S, kind, idx, a, pa[0]);
    var q := Lands(g, cand, S, kind, idx, b, pb[0]);
    var w := Lands(g, cand, S, kind, idx, c, pc[0]);
    Covered(S, pa, pb, pc, a, b, c, p, q, w, x);
  }

  /** Three cells of the three-cell union holding a, b and c in S cover
      the union. */
  lemma Covered(S: Grid, pa: seq<Pos>, pb: seq<Pos>, pc: seq<Pos>, a: int, b: int, c: int, p: Pos, q: Pos, w: Pos, x: Pos)
    requires WellFormed(S) && a != b && b != c && a != c && |CellSet(pa + pb + pc)| == 3 && x in CellSet(pa + pb + pc)
    requires p in pa && InBounds(p.r, p.c) && S[p.r][p.c] == a
    requires q in pb && InBounds(q.r, q.c) && S[q.r][q.c] == b
    requires w in pc && InBounds(w.r, w.c) && S[w.r][w.c] == c
    ensures InBounds(x.r, x.c) && S[x.r][x.c] in {a, b, c}
  {
    var cs := CellSet(pa + pb + pc);
    assert p in pa + pb + pc && q in pa + pb + pc && w in pa + pb + pc;
    CoverThree(cs, p, q, w);
    assert x == p || x == q || x == w;
  }

  /** Every cell of the union of a hidden triple of u takes a, b or c in
      every solution u admits. */
  lemma TriplePin(u: State, kind: UnitKind, idx: int, a: int, b: int, c: int, pa: seq<Pos>, pb: seq<Pos>, pc: seq<Pos>, x: Pos)
    requires Good(u) && 0 <= idx < 9 && 1 <= a < b < c <= 9
    requires pa == Holders(u.grid, u.cand, kind, idx, a) && pb == Holders(u.grid, u.cand, kind, idx, b) && pc == Holders(u.grid, u.cand, kind, idx, c)
    requires Spread(pa) && Spread(pb) && Spread(pc) && |CellSet(pa + pb + pc)| == 3 && x in CellSet(pa + pb + pc)
    ensures InBounds(x.r, x.c) && Pinned(u, x.r, x.c, {a, b, c})
  {
    assert x in pa + pb + pc;
    assert InBounds(x.r, x.c);
    forall S | Admits(u, S)
      ensures S[x.r][x.c] in {a, b, c}
    {
      TripleSound(u.grid, u.cand, S, kind, idx, a, b, c, pa, pb, pc, x);
    }
  }

  /** The three cells a triple of the unit filters each take a digit of
      the triple in every solution u admits. */
  lemma TripleForced(u: State, kind: UnitKind, idx: int, pos: seq<seq<Pos>>, a: int, b: int, c: int)
    requires Good(u) && 0 <= idx < 9 && pos == Positions(u, kind, idx) && TripleCells(u, pos, a, b, c) != []
    ensures var cells := TripleCells(u, pos, a, b, c);
      Pinned(u, cells[0].r, cells[0].c, {a, b, c}) && Pinned(u, cells[1].r, cells[1].c, {a, b, c}) && Pinned(u, cells[2].r, cells[2].c, {a, b, c})
  {
    var cells := TripleCells(u, pos, a, b, c);
    assert 1 <= a < b < c <= 9 && Spread(pos[a]) && Spread(pos[b]) && Spread(pos[c]);
    var pa, pb, pc := pos[a], pos[b], pos[c];
    assert pa == Holders(u.grid, u.cand, kind, idx, a) && pb == Holders(u.grid, u.cand, kind, idx, b) && pc == Holders(u.grid, u.cand, kind, idx, c);
    UnionFacts(pa, pb, pc);
    assert cells == Union(pa, pb, pc) && |CellSet(pa + pb + pc)| == 3;
    assert cells[0] in CellSet(cells) && cells[1] in CellSet(cells) && cells[2] in CellSet(cells);
    TriplePin(u, kind, idx, a, b, c, pa, pb, pc, cells[0]);
    TriplePin(u, kind, idx, a, b, c, pa, pb, pc, cells[1]);
    TriplePin(u, kind, idx, a, b, c, pa, pb, pc, cells[2]);
  }

  lemma InsideThree(S: Grid, cells: seq<Pos>, K: set<int>)
    requires WellFormed(S) && |cells| == 3 && AllInBounds(cells)
    requires S[cells[0].r][cells[0].c] in K && S[cells[1].r][cells[1].c] in K && S[cells[2].r][cells[2].c] in K
    ensures Inside(S, cells, K, 3)
  {
  }

  /** Filtering three cells that every solution of the start u fills from
      K keeps every solution u admits. */
  lemma FilterKeeps(u: State, t0: State, t1: State, cells: seq<Pos>, K: set<int>)
    requires Good(u) && KeepsSolutions(u, t0) && |cells| == 3 && AllInBounds(cells)
    requires Pinned(u, cells[0].r, cells[0].c, K) && Pinned(u, cells[1].r, cells[1].c, K) && Pinned(u, cells[2].r, cells[2].c, K)
    requires forall S :: Admits(t0, S) && Inside(S, cells, K, 3) ==> Admits(t1, S)
    ensures KeepsSolutions(u, t1)
  {
    forall S | Admits(u, S)
      ensures Admits(t1, S)
    {
      assert Admits(t0, S);
      assert S[cells[0].r][cells[0].c] in K && S[cells[1].r][cells[1].c] in K && S[cells[2].r][cells[2].c] in K;
      InsideThree(S, cells, K);
    }
  }

  /** (a', b', c') comes before (a, b, c) in the triple loops. */
  predicate TripleBefore(a': int, b': int, c': int, a: int, b: int, c: int) {
    a' < a || (a' == a && b' < b) || (a' == a && b' == b && c' < c)
  }

  /** No triple before (a, b, c) in the loops of the unit. */
  ghost predicate NoneBefore3(uc: CandGrid, pos: seq<seq<Pos>>, a: int, b: int, c: int) {
    forall a', b', c' :: TripleBefore(a', b', c', a, b, c) ==> !TripleAt(uc, pos, a', b', c')
  }

  /** Scanning one more triple keeps "no triple so far", unless that triple
      is one. */
  lemma TripleNext(uc: CandGrid, pos: seq<seq<Pos>>, a: int, b: int, c: int)
    requires NoneBefore3(uc, pos, a, b, c)
    ensures TripleAt(uc, pos, a, b, c) || NoneBefore3(uc, pos, a, b, c + 1)
  {
    if !TripleAt(uc, pos, a, b, c) {
      forall a', b', c' | TripleBefore(a', b', c', a, b, c + 1)
        ensures !TripleAt(uc, pos, a', b', c')
      {
        if a' != a || b' != b || c' != c {
          assert TripleBefore(a', b', c', a, b, c);
        }
      }
    }
  }

  /** The state of the triple loops of a unit before (a, b, c): the
      progress since the start u, and either no triple so far or the first
      one found, w. */
  ghost predicate Scan3(u: State, pos: seq<seq<Pos>>, t: State, did: bool, a: int, b: int, c: int, w: (int, int, int)) {
    var ok := Advanced(u, t, did) && t.grid == u.grid && PosByNum(u, pos)
      && (!did ==> NoneBefore3(u.cand, pos, a, b, c))
      && (did ==> TripleAt(u.cand, pos, w.0, w.1, w.2));
    ok
  }

  /** The triple (a, b, c) of the unit: when the union of the positions is
      three cells, they are filtered. */
  method TripleStep(u: State, pos: seq<seq<Pos>>, t0: State, did0: bool, kind: UnitKind, idx: int, a: int, b: int, c: int, ghost w0: (int, int, int))
      returns (t: State, did: bool, ghost w: (int, int, int))
    requires Scan3(u, pos, t0, did0, a, b, c, w0) && 0 <= idx < 9 && pos == Positions(u, kind, idx)
    ensures Scan3(u, pos, t, did, a, b, c + 1, w)
  {
    t, did, w := t0, did0, w0;
    var cells := TripleCells(u, pos, a, b, c);
    if cells != [] {
      TripleForced(u, kind, idx, pos, a, b, c);
      var t1, d := TripleApply(u, t0, did0, kind, cells, {a, b, c});
      t, did := t1, did0 || d;
    }
    if !did0 {
      TripleNext(u.cand, pos, a, b, c);
      if did {
        w := (a, b, c);
      }
    }
  }

  /** Filtering the three cells of a triple of the unit to its digits K,
      from the current state t0. */
  method TripleApply(u: State, t0: State, did0: bool, kind: UnitKind, cells: seq<Pos>, K: set<int>)
      returns (t: State, d: bool)
    requires Advanced(u, t0, did0) && t0.grid == u.grid && Spot(u, cells)
    requires Pinned(u, cells[0].r, cells[0].c, K) && Pinned(u, cells[1].r, cells[1].c, K) && Pinned(u, cells[2].r, cells[2].c, K)
    ensures Advanced(u, t, did0 || d) && t.grid == u.grid
    ensures d <==> Loosened(t0.cand, cells, K, 3)
  {
    t, d := Filter(t0, cells, K, HiddenTriple(kind));
    FilterKeeps(u, t0, t, cells, K);
    ProgressTrans(u, t0, t, did0, d);
  }

  /** Past the last c, the scan of (a, b) is the scan before (a, b + 1). */
  lemma EndOfC(u: State, pos: seq<seq<Pos>>, t: State, did: bool, a: int, b: int, c: int, w: (int, int, int))
    requires Scan3(u, pos, t, did, a, b, c, w) && c >= 10
    ensures Scan3(u, pos, t, did, a, b + 1, b + 2, w)
  {
    if !did {
      forall a', b', c' | TripleBefore(a', b', c', a, b + 1, b + 2)
        ensures !TripleAt(u.cand, pos, a', b', c')
      {
        if TripleAt(u.cand, pos, a', b', c') {
          assert TripleBefore(a', b', c', a, b, c);
        }
      }
    }
  }

  /** Past the last b, the scan of a is the scan before a + 1. */
  lemma EndOfB(u: State, pos: seq<seq<Pos>>, t: State, did: bool, a: int, b: int, w: (int, int, int))
    requires Scan3(u, pos, t, did, a, b, b + 1, w) && b >= 10
    ensures Scan3(u, pos, t, did, a + 1, a + 2, a + 3, w)
  {
    if !did {
      forall a', b', c' | TripleBefore(a', b', c', a + 1, a + 2, a + 3)
        ensures !TripleAt(u.cand, pos, a', b', c')
      {
        if TripleAt(u.cand, pos, a', b', c') {
          assert TripleBefore(a', b', c', a, b, b + 1);
        }
      }
    }
  }

  /** The innermost loop over c for fixed a and b. */
  method TripleLoopC(u: State, pos: seq<seq<Pos>>, t0: State, did0: bool, kind: UnitKind, idx: int, a: int, b: int, ghost w0: (int, int, int))
      returns (t: State, did: bool, ghost w: (int, int, int))
    requires Scan3(u, pos, t0, did0, a, b, b + 1, w0) && 0 <= idx < 9 && pos == Positions(u, kind, idx)
    ensures Scan3(u, pos, t, did, a, b + 1, b + 2, w)
  {
    t, did, w := t0, did0, w0;
    var c := b + 1;
    while c <= 9
      invariant c >= b + 1 && Scan3(u, pos, t, did, a, b, c, w)
    {
      t, did, w := TripleStep(u, pos, t, did, kind, idx, a, b, c, w);
      c := c + 1;
    }
    EndOfC(u, pos, t, did, a, b, c, w);
  }

  /** The middle loop over b for a fixed a. */
  method TripleLoopB(u: State, pos: seq<seq<Pos>>, t0: State, did0: bool, kind: UnitKind, idx: int, a: int, ghost w0: (int, int, int))
      returns (t: State, did: bool, ghost w: (int, int, int))
    requires Scan3(u, pos, t0, did0, a, a + 1, a + 2, w0) && 0 <= idx < 9 && pos == Positions(u, kind, idx)
    ensures Scan3(u, pos, t, did, a + 1, a + 2, a + 3, w)
  {
    t, did, w := t0, did0, w0;
    var b := a + 1;
    while b <= 9
      invariant b >= a + 1 && Scan3(u, pos, t, did, a, b, b + 1, w)
    {
      t, did, w := TripleLoopC(u, pos, t, did, kind, idx, a, b, w);
      b := b + 1;
    }
    EndOfB(u, pos, t, did, a, b, w);
  }

  /** One unit: every triple of digits a < b < c in order, against the
      snapshot of the positions at the start of the unit. A change happens
      exactly when the unit had a hidden triple with something to filter. */
  method TripleUnit(u: State, kind: UnitKind, idx: int) returns (t: State, did: bool)
    requires Good(u) && 0 <= idx < 9
    ensures Advanced(u, t, did) && t.grid == u.grid
    ensures did <==> exists a, b, c :: HiddenTripleIn(u, kind, idx, a, b, c)
  {
    var pos := Positions(u, kind, idx);
    t, did := u, false;
    AdvancedRefl(u);
    ghost var w := (1, 2, 3);
    var a := 1;
    while a <= 9
      invariant 1 <= a <= 10
      invariant Scan3(u, pos, t, did, a, a + 1, a + 2, w)
    {
      t, did, w := TripleLoopB(u, pos, t, did, kind, idx, a, w);
      a := a + 1;
    }
    TripleUnitEnd(u, kind, idx, pos, t, did, w);
  }

  /** After every triple, the scan is the unit's contract. */
  lemma TripleUnitEnd(u: State, kind: UnitKind, idx: int, pos: seq<seq<Pos>>, t: State, did: bool, w: (int, int, int))
    requires Good(u) && 0 <= idx < 9 && pos == Positions(u, kind, idx)
    requires Scan3(u, pos, t, did, 10, 11, 12, w)
    ensures Advanced(u, t, did) && t.grid == u.grid
    ensures did <==> exists a, b, c :: HiddenTripleIn(u, kind, idx, a, b, c)
  {
    TripleAtIff(u, kind, idx, pos);
    if !did {
      forall a, b, c
        ensures !TripleAt(u.cand, pos, a, b, c)
      {
        if TripleAt(u.cand, pos, a, b, c) {
          assert TripleBefore(a, b, c, 10, 11, 12);
        }
      }
    }
  }

  /** Scanning one more unit keeps "no hidden triple so far". */
  lemma TripleScanNext(s: State, ki: int, idx: int)
    requires Good(s) && 0 <= ki < 3 && 0 <= idx < 9
    requires forall kind, i, a, b, c :: (KindRank(kind) < ki || (KindRank(kind) == ki && i < idx)) ==> !HiddenTripleIn(s, kind, i, a, b, c)
    requires forall a, b, c :: !HiddenTripleIn(s, Kinds[ki], idx, a, b, c)
    ensures forall kind, i, a, b, c :: (KindRank(kind) < ki || (KindRank(kind) == ki && i < idx + 1)) ==> !HiddenTripleIn(s, kind, i, a, b, c)
  {
    forall kind, i, a, b, c | KindRank(kind) == ki && i == idx
      ensures !HiddenTripleIn(s, kind, i, a, b, c)
    {
      assert kind == Kinds[ki];
    }
  }

  /** techniqueHiddenTriples: rows, then columns, then boxes. A change is
      reported exactly when the starting state had a hidden triple whose
      filter changes a list. */
  method HiddenTriplesPass(s: State) returns (t: State, changed: bool)
    requires Good(s)
    ensures Advanced(s, t, changed) && t.grid == s.grid
    ensures changed <==> exists kind, idx, a, b, c :: HiddenTripleIn(s, kind, idx, a, b, c)
  {
    t, changed := s, false;
    AdvancedRefl(s);
    ghost var wk, wi, wa, wb, wc := Row, 0, 1, 2, 3;
    var ki := 0;
    while ki < 3
      invariant 0 <= ki <= 3
      invariant Advanced(s, t, changed) && t.grid == s.grid
      invariant !changed ==> forall kind, i, a, b, c :: KindRank(kind) < ki ==> !HiddenTripleIn(s, kind, i, a, b, c)
      invariant changed ==> HiddenTripleIn(s, wk, wi, wa, wb, wc)
    {
      var idx := 0;
      while idx < 9
        invariant 0 <= idx <= 9
        invariant Advanced(s, t, changed) && t.grid == s.grid
        invariant !changed ==> forall kind, i, a, b, c :: (KindRank(kind) < ki || (KindRank(kind) == ki && i < idx)) ==> !HiddenTripleIn(s, kind, i, a, b, c)
        invariant changed ==> HiddenTripleIn(s, wk, wi, wa, wb, wc)
      {
        var t1, d := TripleUnit(t, Kinds[ki], idx);
        if !changed && d {
          wk, wi := Kinds[ki], idx;
          wa, wb, wc :| HiddenTripleIn(s, wk, wi, wa, wb, wc);
        } else if !changed {
          TripleScanNext(s, ki, idx);
        }
        ChainedTrans(s, t, t1, changed, d);
        t, changed := t1, changed || d;
        idx := idx + 1;
      }
      ki := ki + 1;
    }
  }
}

=== FILE: humanphase.dfy ===
/** humanSolvePhase: build the candidate grid, then repeat rounds of the eight
    techniques until a round changes nothing. A round stops at the first
    technique that reports a change; the placing techniques (naked singles,
    hidden singles) end the round at once, the eliminating ones first let
    realizeSinglesFromCandidates place the singles they exposed. */
module HumanPhase {
  import opened Grid
  import opened Safety
  import opened Telemetry
  import opened Candidates
  import opened Engine
  import opened Singles
  import opened Locked
  import opened Tuples
  import opened HiddenPairs
  import opened HiddenTriples
  import opened XWing

  /** No technique of the round applies to s: the negation of every
      technique's "reports a change exactly when" condition. */
  ghost predicate Stuck(s: State)
    requires Good(s)
  {
    && NoNakedSingle(s)
    && (forall kind, idx, n :: !HiddenSingleIn(s, kind, idx, n))
    && (forall kind, idx, n :: 0 <= idx < 9 && 1 <= n <= 9 ==> !LockedAt(s, kind, idx, n))
    && (forall kind, idx, K :: !NakedTupleAt(s, kind, idx, K, 2))
    && (forall kind, idx, a, b :: !HiddenPairIn(s, kind, idx, a, b))
    && (forall kind, idx, K :: !NakedTupleAt(s, kind, idx, K, 3))
    && (forall kind, idx, a, b, c :: !HiddenTripleIn(s, kind, idx, a, b, c))
    && (forall axis, n, key :: 1 <= n <= 9 ==> !XWingAt(s, axis, n, key))
  }

  /** An eliminating technique that changed s into t, followed by
      realizeSinglesFromCandidates; the round reports progress either way. */
  method Realize(s: State, t: State) returns (u: State, placed: bool)
    requires Advanced(s, t, true)
    ensures Advanced(s, u, true) && Advanced(t, u, placed)
    ensures placed <==> !NoNakedSingle(t)
  {
    u, placed := NakedSingles(t);
    ChainedTrans(s, t, u, true, placed);
  }

  /** The techniques that place digits, in order. */
  method PlacingRound(s: State) returns (t: State, progress: bool)
    requires Good(s)
    ensures Advanced(s, t, progress)
    ensures !progress <==> NoNakedSingle(s) && forall kind, idx, n :: !HiddenSingleIn(s, kind, idx, n)
  {
    t, progress := NakedSingles(s);
    if !progress {
      t, progress := HiddenSingles(s);
    }
  }

  /** Locked candidates, naked pairs, hidden pairs, in order. */
  method FirstEliminations(s: State) returns (t: State, progress: bool)
    requires Good(s)
    ensures Advanced(s, t, progress)
    ensures !progress <==>
      && (forall kind, idx, n :: 0 <= idx < 9 && 1 <= n <= 9 ==> !LockedAt(s, kind, idx, n))
      && (forall kind, idx, K :: !NakedTupleAt(s, kind, idx, K, 2))
      && (forall kind, idx, a, b :: !HiddenPairIn(s, kind, idx, a, b))
  {
    t, progress := LockedCandidates(s);
    if progress {
      var placed;
      t, placed := Realize(s, t);
      return;
    }
    t, progress := NakedTuples(s, 2);
    if progress {
      var placed;
      t, placed := Realize(s, t);
      return;
    }
    t, progress := HiddenPairsPass(s);
    if progress {
      var placed;
      t, placed := Realize(s, t);
    }
  }

  /** Naked triples, hidden triples, X-Wing, in order. */
  method LastEliminations(s: State) returns (t: State, progress: bool)
    requires Good(s)
    ensures Advanced(s, t, progress)
    ensures !progress <==>
      && (forall kind, idx, K :: !NakedTupleAt(s, kind, idx, K, 3))
      && (forall kind, idx, a, b, c :: !HiddenTripleIn(s, kind, idx, a, b, c))
      && (forall axis, n, key :: 1 <= n <= 9 ==> !XWingAt(s, axis, n, key))
  {
    t, progress := NakedTuples(s, 3);
    if progress {
      var placed;
      t, placed := Realize(s, t);
      return;
    }
    t, progress := HiddenTriplesPass(s);
    if progress {
      var placed;
      t, placed := Realize(s, t);
      return;
    }
    t, progress := XWings(s);
    if progress {
      var placed;
      t, placed := Realize(s, t);
    }
  }

  /** One iteration of the while loop. It reports no progress exactly when
      no technique applies, and then nothing changed. */
  method Round(s: State) returns (t: State, progress: bool)
    requires Good(s)
    ensures Advanced(s, t, progress)
    ensures !progress <==> Stuck(s)
  {
    t, progress := PlacingRound(s);
    if !progress {
      t, progress := FirstEliminations(s);
      if !progress {
        t, progress := LastEliminations(s);
      }
    }
  }

  /** The state humanSolvePhase starts from: candidates from buildCandidates. */
  function Start(g: Grid, metrics: Metrics, rec: Recorder): (s: State)
    requires WellFormed(g)
    ensures Good(s) && s.grid == g
  {
    State(g, BuildCandidates(g), metrics, rec)
  }

  /** Every solution of the puzzle is one the starting candidates allow:
      its digit at an empty cell clashes with no given, so buildCandidates
      lists it. */
  lemma StartAdmits(g: Grid, metrics: Metrics, rec: Recorder, S: Grid)
    requires WellFormed(g) && Solves(S, g)
    ensures Admits(Start(g, metrics, rec), S)
  {
    var cand := BuildCandidates(g);
    forall r, c | InBounds(r, c) && g[r][c] == 0
      ensures S[r][c] in cand[r][c]
    {
      SolutionDigitSafe(S, g, r, c);
    }
  }

  /** humanSolvePhase. It terminates because every round with progress
      strictly lowers the candidate total; it returns a state no technique
      applies to, reached from the start by technique steps only; on a grid
      with no candidates at all (a full grid, say) it changes nothing. */
  method HumanSolvePhase(g: Grid, metrics: Metrics, rec: Recorder) returns (t: State)
    requires WellFormed(g)
    ensures Good(t) && Stuck(t)
    ensures Follows(Start(g, metrics, rec), t) && FillsFrom(Start(g, metrics, rec), t) && Shrinks(BuildCandidates(g), t.cand)
    ensures KeepsSolutions(Start(g, metrics, rec), t)
    ensures Total(BuildCandidates(g)) == 0 ==> t == Start(g, metrics, rec)
  {
    var s0 := Start(g, metrics, rec);
    t := s0;
    AdvancedRefl(s0);
    ghost var moved := false;
    var progress := true;
    while progress
      invariant Advanced(s0, t, moved)
      invariant !progress ==> Stuck(t)
      invariant Total(s0.cand) == 0 ==> t == s0
      decreases progress, Total(t.cand)
    {
      var t1, p := Round(t);
      ChainedTrans(s0, t, t1, moved, p);
      t, progress, moved := t1, p, moved || p;
    }
  }
}

=== FILE: input.dfy ===
/** The request-boundary functions of the solver module: validateGrid, which
    accepts an arbitrary decoded JSON value, and normalizeGrid, which copies a
    validated grid coercing each cell with `v | 0`. */
module Input {
  import opened Grid

  /** A decoded JSON value, as far as validateGrid can tell them apart:
      numbers (finite reals), arrays, and everything else. */
  datatype Value = Num(x: real) | Arr(items: seq<Value>) | Other

  /** Number.isInteger on a finite number. */
  predicate IsInteger(x: real) {
    x.Floor as real == x
  }

  predicate IsCell(v: Value) {
    v.Num? && IsInteger(v.x) && 0.0 <= v.x <= 9.0
  }

  /** The inner loop over one row, from position i on. */
  function CellsValid(items: seq<Value>, i: nat): (ok: bool)
    requires i <= |items|
    decreases |items| - i
    ensures ok <==> forall k :: i <= k < |items| ==> IsCell(items[k])
  {
    i == |items| || (IsCell(items[i]) && CellsValid(items, i + 1))
  }

  predicate IsRow(v: Value) {
    v.Arr? && |v.items| == 9 && forall k :: 0 <= k < 9 ==> IsCell(v.items[k])
  }

  /** The outer loop over the rows, from row i on. */
  function RowsValid(rows: seq<Value>, i: nat): (ok: bool)
    requires i <= |rows|
    decreases |rows| - i
    ensures ok <==> forall k :: i <= k < |rows| ==> IsRow(rows[k])
  {
    i == |rows| || (rows[i].Arr? && |rows[i].items| == 9 && CellsValid(rows[i].items, 0) && RowsValid(rows, i + 1))
  }

  /** validateGrid: an array of exactly nine arrays of exactly nine integers,
      each in 0..9. */
  function ValidateGrid(v: Value): (ok: bool)
    ensures ok <==> v.Arr? && |v.items| == 9 && forall r :: 0 <= r < 9 ==> IsRow(v.items[r])
  {
    v.Arr? && |v.items| == 9 && RowsValid(v.items, 0)
  }

  /** The grid a validated value denotes. */
  function ToGrid(v: Value): (g: Grid)
    requires ValidateGrid(v)
    ensures WellFormed(g)
    ensures forall r, c :: InBounds(r, c) ==> g[r][c] as real == v.items[r].items[c].x
  {
    seq(9, r requires 0 <= r < 9 => seq(9, c requires 0 <= c < 9 => v.items[r].items[c].x.Floor))
  }

  /** The JSON array a grid is sent as. */
  function FromGrid(g: Grid): (v: Value)
    requires WellFormed(g)
    ensures v.Arr? && |v.items| == 9
    ensures forall r :: 0 <= r < 9 ==> v.items[r].Arr? && |v.items[r].items| == 9
    ensures forall r, c :: InBounds(r, c) ==> v.items[r].items[c] == Num(g[r][c] as real)
  {
    Arr(seq(9, r requires 0 <= r < 9 => Arr(seq(9, c requires 0 <= c < 9 => Num(g[r][c] as real)))))
  }

  /** Every well-formed grid passes validateGrid once sent as JSON, and reads
      back as itself. */
  lemma GridRoundTrip(g: Grid)
    requires WellFormed(g)
    ensures ValidateGrid(FromGrid(g)) && ToGrid(FromGrid(g)) == g
  {
    var v := FromGrid(g);
    assert forall r :: 0 <= r < 9 ==> IsRow(v.items[r]);
    var h := ToGrid(v);
    assert forall r :: 0 <= r < 9 ==> h[r] == g[r];
  }

  /** Every value validateGrid accepts is the JSON form of the grid it
      denotes. */
  lemma ValueRoundTrip(v: Value)
    requires ValidateGrid(v)
    ensures FromGrid(ToGrid(v)) == v
  {
    var w := FromGrid(ToGrid(v));
    forall r | 0 <= r < 9
      ensures w.items[r] == v.items[r]
    {
      assert w.items[r].items == v.items[r].items;
    }
    assert w.items == v.items;
  }

  /** `x | 0` on a finite number: ToInt32, truncation toward zero followed by
      wrap-around into the signed 32-bit range. */
  function ToInt32(x: real): (n: int)
    ensures -0x8000_0000 <= n < 0x8000_0000
    ensures IsInteger(x) && -0x8000_0000 as real <= x < 0x8000_0000 as real ==> n as real == x
  {
    var t := Truncate(x);
    var m := t % 0x1_0000_0000;
    WrapSmall(t);
    if m >= 0x8000_0000 then m - 0x1_0000_0000 else m
  }

  /** Truncation toward zero; an integer is its own truncation. */
  function Truncate(x: real): (t: int)
    ensures IsInteger(x) ==> t as real == x
  {
    if x >= 0.0 then x.Floor
    else
      var k := x.Floor;
      assert IsInteger(x) ==> -x == (-k) as real && ((-k) as real).Floor == -k;
      -((-x).Floor)
  }

  /** A value already in the signed 32-bit range comes back from the
      wrap-around unchanged. */
  lemma WrapSmall(t: int)
    ensures var m := t % 0x1_0000_0000;
      -0x8000_0000 <= t < 0x8000_0000 ==> (if m >= 0x8000_0000 then m - 0x1_0000_0000 else m) == t
  {
    if t < -0x8000_0000 || t >= 0x8000_0000 {
    } else if t >= 0 {
      assert t % 0x1_0000_0000 == t;
    } else {
      assert (t + 0x1_0000_0000) % 0x1_0000_0000 == t + 0x1_0000_0000;
      assert t % 0x1_0000_0000 == t + 0x1_0000_0000;
    }
  }

  /** normalizeGrid: the grid with every cell coerced by `| 0`. The source
      only calls it on grids validateGrid accepted. */
  function NormalizeGrid(v: Value): (w: Value)
    requires ValidateGrid(v)
    ensures w == v
  {
    var rows := seq(9, r requires 0 <= r < 9 =>
      Arr(seq(9, c requires 0 <= c < 9 => Num(ToInt32(v.items[r].items[c].x) as real))));
    assert forall r :: 0 <= r < 9 ==> rows[r].items == v.items[r].items;
    assert rows == v.items;
    Arr(rows)
  }
}

=== FILE: locked.dfy ===
/** techniqueLockedCandidates. Pointing: when the cells of a box that can
    take digit n all lie in one row (or one column), n is struck from the
    rest of that row (column). Claiming: when the cells of a row (column)
    that can take n all lie in one box, n is struck from the rest of that
    box. Unit kind Box below stands for the pointing pass, Row and Col for
    the two claiming passes. */
module Locked {
  import opened Grid
  import opened Units
  import opened Telemetry
  import opened Candidates
  import opened Engine
  import opened Scans
  import opened Deductions

  /** Every listed cell lies in the same unit of kind `target` as the first:
      the `allRow` / `allCol` / `sameBox` tests. */
  predicate Aligned(ps: seq<Pos>, target: UnitKind)
    requires |ps| > 0
  {
    forall i :: 0 <= i < |ps| ==> UnitOf(target, ps[i]) == UnitOf(target, ps[0])
  }

  /** The cells a lock strikes: those of the `target` unit through ps[0]
      that lie outside unit (kind, idx), in unitCells order. */
  function Targets(ps: seq<Pos>, kind: UnitKind, idx: int, target: UnitKind): (cells: seq<Pos>)
    requires |ps| > 0 && InBounds(ps[0].r, ps[0].c)
    ensures AllInBounds(cells) && Distinct(cells)
    ensures forall p :: p in cells ==> !InUnit(kind, idx, p)
  {
    CellOfRoundTrip(target, ps[0]);
    UnitCellsDistinct(target, UnitOf(target, ps[0]));
    Outside(UnitCells(target, UnitOf(target, ps[0])), kind, idx)
  }

  /** In s, the holders of n in unit (kind, idx) are two or more, all in one
      unit of kind `target`, and some cell of that unit outside (kind, idx)
      still lists n. */
  ghost predicate LockedIn(s: State, kind: UnitKind, idx: int, n: int, target: UnitKind)
    requires WellFormed(s.grid) && Shaped(s.cand) && 0 <= idx < 9
  {
    Lock(s, Holders(s.grid, s.cand, kind, idx, n), kind, idx, n, target)
  }

  /** The holders ps are two or more, aligned along `target`, and a target
      cell still lists n. */
  ghost predicate Lock(s: State, ps: seq<Pos>, kind: UnitKind, idx: int, n: int, target: UnitKind)
    requires WellFormed(s.grid) && Shaped(s.cand) && AllInBounds(ps)
  {
    |ps| > 1 && Aligned(ps, target) && SomeHolds(s, Targets(ps, kind, idx, target), n)
  }

  /** The elimination the technique finds for digit n at unit (kind, idx):
      pointing along a row or a column from a box, claiming into the box
      from a row or a column. */
  ghost predicate LockedAt(s: State, kind: UnitKind, idx: int, n: int)
    requires WellFormed(s.grid) && Shaped(s.cand) && 0 <= idx < 9
  {
    if kind == Box then LockedIn(s, Box, idx, n, Row) || LockedIn(s, Box, idx, n, Col)
    else LockedIn(s, kind, idx, n, Box)
  }

  /** The label the pass of that kind pushes. */
  function LockLabel(kind: UnitKind): (tech: Technique)
    ensures tech.IsElimination()
  {
    if kind == Box then LockedPointing else LockedClaiming
  }

  /** Striking n along one target unit when the holders ps are aligned
      with it. */
  method LockAlong(s: State, kind: UnitKind, idx: int, n: int, target: UnitKind, ps: seq<Pos>) returns (t: State, did: bool)
    requires Good(s) && 0 <= idx < 9 && ps == Holders(s.grid, s.cand, kind, idx, n) && |ps| > 1
    ensures Advanced(s, t, did) && t.grid == s.grid
    ensures did <==> LockedIn(s, kind, idx, n, target)
    ensures !Aligned(ps, target) ==> t == s
    ensures forall r, c :: InBounds(r, c) ==>
      t.cand[r][c] == s.cand[r][c] || (!InUnit(kind, idx, Pos(r, c)) && t.cand[r][c] == s.cand[r][c] - {n})
  {
    if Aligned(ps, target) {
      var cells := Targets(ps, kind, idx, target);
      t, did := EliminateAll(s, cells, n, LockLabel(kind));
      StrikesOutside(s.cand, t.cand, cells, kind, idx, n);
      forall S | Admits(s, S)
        ensures Admits(t, S)
      {
        LockSound(s, S, kind, idx, n, target, ps);
      }
    } else {
      t, did := s, false;
      AdvancedRefl(s);
    }
  }

  /** Why a lock is sound: every solution s admits puts n on one of the
      holders, inside the target unit through ps[0], so no target cell
      holds n in it. */
  lemma LockSound(s: State, S: Grid, kind: UnitKind, idx: int, n: int, target: UnitKind, ps: seq<Pos>)
    requires Good(s) && Admits(s, S) && 0 <= idx < 9
    requires ps == Holders(s.grid, s.cand, kind, idx, n) && |ps| > 1 && Aligned(ps, target)
    ensures Avoids(s.grid, S, Targets(ps, kind, idx, target), n, |Targets(ps, kind, idx, target)|)
  {
    var cells := Targets(ps, kind, idx, target);
    var p := Lands(s.grid, s.cand, S, kind, idx, n, ps[0]);
    var u := UnitOf(target, ps[0]);
    CellOfRoundTrip(target, ps[0]);
    forall i | 0 <= i < |cells|
      ensures cells[i] != p && UnitOf(target, cells[i]) == UnitOf(target, p)
    {
      assert cells[i] in UnitCells(target, u);
      InUnitIsUnitOf(target, u, cells[i]);
    }
    UnitAvoids(s.grid, S, p, target, cells, n);
  }

  /** Striking n from cells that all lie outside unit (kind, idx) changes
      no cell of that unit and changes other cells only by removing n. */
  lemma StrikesOutside(a: CandGrid, b: CandGrid, cells: seq<Pos>, kind: UnitKind, idx: int, n: int)
    requires Shaped(a) && Shaped(b)
    requires forall p :: p in cells ==> !InUnit(kind, idx, p)
    requires forall i :: 0 <= i < |cells| ==> InBounds(cells[i].r, cells[i].c) && b[cells[i].r][cells[i].c] == a[cells[i].r][cells[i].c] - {n}
    requires forall r, c :: InBounds(r, c) && Pos(r, c) !in cells ==> b[r][c] == a[r][c]
    ensures forall r, c :: InBounds(r, c) ==>
      b[r][c] == a[r][c] || (!InUnit(kind, idx, Pos(r, c)) && b[r][c] == a[r][c] - {n})
  {
    forall r, c | InBounds(r, c) && b[r][c] != a[r][c]
      ensures !InUnit(kind, idx, Pos(r, c)) && b[r][c] == a[r][c] - {n}
    {
      var i :| 0 <= i < |cells| && cells[i] == Pos(r, c);
    }
  }

  /** With fewer than two holders nothing is locked. */
  lemma FewHoldersNotLocked(s: State, kind: UnitKind, idx: int, n: int, ps: seq<Pos>)
    requires WellFormed(s.grid) && Shaped(s.cand) && 0 <= idx < 9
    requires ps == Holders(s.grid, s.cand, kind, idx, n) && |ps| <= 1
    ensures !LockedAt(s, kind, idx, n)
  {
    if kind == Box {
      assert !LockedIn(s, Box, idx, n, Row) by {
        ShortNoLock(s, ps, Box, idx, n, Row);
      }
      assert !LockedIn(s, Box, idx, n, Col) by {
        ShortNoLock(s, ps, Box, idx, n, Col);
      }
    } else {
      assert !LockedIn(s, kind, idx, n, Box) by {
        ShortNoLock(s, ps, kind, idx, n, Box);
      }
    }
  }

  /** At most one holder is never a lock. */
  lemma ShortNoLock(s: State, ps: seq<Pos>, kind: UnitKind, idx: int, n: int, target: UnitKind)
    requires WellFormed(s.grid) && Shaped(s.cand) && AllInBounds(ps) && |ps| <= 1
    ensures !Lock(s, ps, kind, idx, n, target)
  {
  }

  /** One (unit, digit) iteration: a change happens exactly when LockedAt
      holds. */
  method LockedUnit(s: State, kind: UnitKind, idx: int, n: int) returns (t: State, did: bool)
    requires Good(s) && 0 <= idx < 9
    ensures Advanced(s, t, did) && t.grid == s.grid
    ensures did <==> LockedAt(s, kind, idx, n)
  {
    var ps := Holders(s.grid, s.cand, kind, idx, n);
    if |ps| <= 1 {
      t, did := s, false;
      FewHoldersNotLocked(s, kind, idx, n, ps);
      AdvancedRefl(s);
    } else if kind == Box {
      t, did := Pointing(s, idx, n, ps);
    } else {
      t, did := LockAlong(s, kind, idx, n, Box, ps);
    }
  }

  /** Two distinct holders cannot share both their row and their column. */
  lemma NotBothAligned(s: State, b: int, n: int, ps: seq<Pos>)
    requires Good(s) && 0 <= b < 9 && ps == Holders(s.grid, s.cand, Box, b, n) && |ps| > 1
    ensures !(Aligned(ps, Row) && Aligned(ps, Col))
  {
    HoldersDistinct(s.grid, s.cand, Box, b, n);
    assert ps[0] != ps[1];
  }

  /** The pointing iteration for box b: along the row if all holders share
      one, then along the column if all holders share one (at most one of
      the two applies, since the holders are distinct cells). */
  method Pointing(s: State, b: int, n: int, ps: seq<Pos>) returns (t: State, did: bool)
    requires Good(s) && 0 <= b < 9 && ps == Holders(s.grid, s.cand, Box, b, n) && |ps| > 1
    ensures Advanced(s, t, did) && t.grid == s.grid
    ensures did <==> LockedIn(s, Box, b, n, Row) || LockedIn(s, Box, b, n, Col)
  {
    t, did := LockAlong(s, Box, b, n, Row, ps);
    if Aligned(ps, Col) {
      NotBothAligned(s, b, n, ps);
      t, did := LockAlong(s, Box, b, n, Col, ps);
    }
  }

  /** One pass: every unit of the kind, every digit 1..9, in order. A change
      is reported exactly when the starting state had an elimination of
      that kind. */
  method LockedPass(s: State, kind: UnitKind) returns (t: State, changed: bool)
    requires Good(s)
    ensures Advanced(s, t, changed) && t.grid == s.grid
    ensures changed <==> exists idx, n :: 0 <= idx < 9 && 1 <= n <= 9 && LockedAt(s, kind, idx, n)
  {
    t, changed := s, false;
    AdvancedRefl(s);
    ghost var wi, wn := 0, 1;
    var idx := 0;
    while idx < 9
      invariant 0 <= idx <= 9
      invariant Advanced(s, t, changed) && t.grid == s.grid
      invariant !changed ==> forall i, m :: 0 <= i < idx && 1 <= m <= 9 ==> !LockedAt(s, kind, i, m)
      invariant changed ==> 0 <= wi < 9 && 1 <= wn <= 9 && LockedAt(s, kind, wi, wn)
    {
      t, changed, wi, wn := LockedPassUnit(s, t, changed, kind, idx, wi, wn);
      idx := idx + 1;
    }
  }

  /** The digit loop of LockedPass for one unit. */
  method LockedPassUnit(s: State, t0: State, changed0: bool, kind: UnitKind, idx: int, ghost wi0: int, ghost wn0: int)
      returns (t: State, changed: bool, ghost wi: int, ghost wn: int)
    requires Good(s) && 0 <= idx < 9
    requires Advanced(s, t0, changed0) && t0.grid == s.grid
    requires !changed0 ==> forall i, m :: 0 <= i < idx && 1 <= m <= 9 ==> !LockedAt(s, kind, i, m)
    requires changed0 ==> 0 <= wi0 < 9 && 1 <= wn0 <= 9 && LockedAt(s, kind, wi0, wn0)
    ensures Advanced(s, t, changed) && t.grid == s.grid
    ensures !changed ==> forall i, m :: 0 <= i < idx + 1 && 1 <= m <= 9 ==> !LockedAt(s, kind, i, m)
    ensures changed ==> 0 <= wi < 9 && 1 <= wn <= 9 && LockedAt(s, kind, wi, wn)
  {
    t, changed, wi, wn := t0, changed0, wi0, wn0;
    var n := 1;
    while n <= 9
      invariant 1 <= n <= 10
      invariant Advanced(s, t, changed) && t.grid == s.grid
      invariant !changed ==> forall i, m :: (0 <= i < idx && 1 <= m <= 9) || (i == idx && 1 <= m < n) ==> !LockedAt(s, kind, i, m)
      invariant changed ==> 0 <= wi < 9 && 1 <= wn <= 9 && LockedAt(s, kind, wi, wn)
    {
      t, changed, wi, wn := LockedDigit(s, t, changed, kind, idx, n, wi, wn);
      n := n + 1;
    }
  }

  /** One digit of LockedPassUnit. */
  method LockedDigit(s: State, t0: State, changed0: bool, kind: UnitKind, idx: int, n: int, ghost wi0: int, ghost wn0: int)
      returns (t: State, changed: bool, ghost wi: int, ghost wn: int)
    requires Good(s) && 0 <= idx < 9 && 1 <= n <= 9
    requires Advanced(s, t0, changed0) && t0.grid == s.grid
    requires !changed0 ==> forall i, m :: (0 <= i < idx && 1 <= m <= 9) || (i == idx && 1 <= m < n) ==> !LockedAt(s, kind, i, m)
    requires changed0 ==> 0 <= wi0 < 9 && 1 <= wn0 <= 9 && LockedAt(s, kind, wi0, wn0)
    ensures Advanced(s, t, changed) && t.grid == s.grid
    ensures !changed ==> forall i, m :: (0 <= i < idx && 1 <= m <= 9) || (i == idx && 1 <= m < n + 1) ==> !LockedAt(s, kind, i, m)
    ensures changed ==> 0 <= wi < 9 && 1 <= wn <= 9 && LockedAt(s, kind, wi, wn)
  {
    wi, wn := wi0, wn0;
    var t1, d := LockedUnit(t0, kind, idx, n);
    if !changed0 && d {
      wi, wn := idx, n;
    } else if !changed0 {
      LockedScanNext(s, kind, idx, n);
    }
    ChainedTrans(s, t0, t1, changed0, d);
    t, changed := t1, changed0 || d;
  }

  /** Scanning one more digit of the unit keeps "nothing locked so far". */
  lemma {:induction false} LockedScanNext(s: State, kind: UnitKind, idx: int, n: int)
    requires WellFormed(s.grid) && Shaped(s.cand) && 0 <= idx < 9
    requires forall i, m :: (0 <= i < idx && 1 <= m <= 9) || (i == idx && 1 <= m < n) ==> !LockedAt(s, kind, i, m)
    requires !LockedAt(s, kind, idx, n)
    ensures forall i, m :: (0 <= i < idx && 1 <= m <= 9) || (i == idx && 1 <= m < n + 1) ==> !LockedAt(s, kind, i, m)
  {
    forall i, m | (0 <= i < idx && 1 <= m <= 9) || (i == idx && 1 <= m < n + 1)
      ensures !LockedAt(s, kind, i, m)
    {
      if i == idx && m == n {
      }
    }
  }

  /** techniqueLockedCandidates: the pointing pass over the boxes, then the
      claiming passes over the rows and the columns. A change is reported
      exactly when the starting state offered a locked-candidates
      elimination of any of the three kinds. */
  method LockedCandidates(s: State) returns (t: State, changed: bool)
    requires Good(s)
    ensures Advanced(s, t, changed) && t.grid == s.grid
    ensures changed <==> exists kind, idx, n :: 0 <= idx < 9 && 1 <= n <= 9 && LockedAt(s, kind, idx, n)
  {
    var t1, c1 := LockedPass(s, Box);
    var t2, c2 := LockedPass(t1, Row);
    var t3, c3 := LockedPass(t2, Col);
    ChainedTrans(s, t1, t2, c1, c2);
    ChainedTrans(s, t2, t3, c1 || c2, c3);
    t, changed := t3, c1 || c2 || c3;
    if !changed {
      forall kind, idx, n | 0 <= idx < 9 && 1 <= n <= 9
        ensures !LockedAt(s, kind, idx, n)
      {
        match kind
        case Box =>
        case Row =>
        case Col =>
      }
    }
  }
}

=== FILE: safety.dfy ===
/** Digit safety, candidate lists and conflict detection: isSafe,
    getCandidates and hasConflicts of the solver. */
module Safety {
  import opened Grid
  import opened Units

  /** The first loop of isSafe: cells i.. of row r and of column c. */
  function LinesClear(g: Grid, r: int, c: int, n: int, i: int): (ok: bool)
    requires WellFormed(g) && InBounds(r, c) && 0 <= i <= 9
    decreases 9 - i
    ensures ok <==> forall k :: i <= k < 9 ==> g[r][k] != n && g[k][c] != n
  {
    i == 9 || (g[r][i] != n && g[i][c] != n && LinesClear(g, r, c, n, i + 1))
  }

  /** The nested box loop of isSafe: rows rr.. of the box with corner (br, bc). */
  function BoxClear(g: Grid, br: int, bc: int, n: int, rr: int): (ok: bool)
    requires WellFormed(g) && 0 <= br <= 6 && 0 <= bc <= 6 && br <= rr <= br + 3
    decreases br + 3 - rr
    ensures ok <==> forall r2, c2 :: rr <= r2 < br + 3 && bc <= c2 < bc + 3 ==> g[r2][c2] != n
  {
    rr == br + 3 || (g[rr][bc] != n && g[rr][bc + 1] != n && g[rr][bc + 2] != n && BoxClear(g, br, bc, n, rr + 1))
  }

  /** isSafe: n may go into (r, c) exactly when no cell that (r, c) sees
      (itself included) already holds n. */
  function IsSafe(g: Grid, r: int, c: int, n: int): (safe: bool)
    requires WellFormed(g) && InBounds(r, c)
    ensures safe <==> forall r2, c2 :: InBounds(r2, c2) && Peer(r, c, r2, c2) ==> g[r2][c2] != n
  {
    LinesClear(g, r, c, n, 0) && BoxClear(g, 3 * Band(r), 3 * Band(c), n, 3 * Band(r))
  }

  /** The digits isSafe accepts at (r, c). */
  function SafeDigits(g: Grid, r: int, c: int): set<int>
    requires WellFormed(g) && InBounds(r, c)
  {
    set n | 1 <= n <= 9 && IsSafe(g, r, c, n)
  }

  function CandidatesFrom(g: Grid, r: int, c: int, n: int): (cs: seq<int>)
    requires WellFormed(g) && InBounds(r, c) && 1 <= n <= 10
    decreases 10 - n
    ensures forall x :: x in cs <==> n <= x <= 9 && IsSafe(g, r, c, x)
    ensures forall i, j :: 0 <= i < j < |cs| ==> cs[i] < cs[j]
  {
    if n == 10 then []
    else
      var rest := CandidatesFrom(g, r, c, n + 1);
      if IsSafe(g, r, c, n) then
        var cs := [n] + rest;
        assert forall j :: 1 <= j < |cs| ==> cs[j] == rest[j - 1] && rest[j - 1] in rest;
        cs
      else rest
  }

  /** getCandidates: the digits isSafe accepts, ascending and without
      repeats. The source calls it on empty cells only; on a filled cell it
      still lists the digits that cell's peers leave open. */
  function GetCandidates(g: Grid, r: int, c: int): (cs: seq<int>)
    requires WellFormed(g) && InBounds(r, c)
    ensures forall x :: x in cs <==> x in SafeDigits(g, r, c)
    ensures forall i, j :: 0 <= i < j < |cs| ==> cs[i] < cs[j]
    ensures forall i :: 0 <= i < |cs| ==> 1 <= cs[i] <= 9
  {
    var cs := CandidatesFrom(g, r, c, 1);
    assert forall i :: 0 <= i < |cs| ==> cs[i] in cs;
    cs
  }

  /** After writing digit n into the empty cell (r, c), a digit m stays safe
      at (r2, c2) exactly when it was safe before and is not n at a peer of
      (r, c). */
  lemma SafeAfterPlacement(g: Grid, r: int, c: int, n: int, r2: int, c2: int, m: int)
    requires WellFormed(g) && InBounds(r, c) && g[r][c] == 0 && 1 <= n <= 9
    requires InBounds(r2, c2) && 1 <= m <= 9
    ensures IsSafe(SetCell(g, r, c, n), r2, c2, m) <==> IsSafe(g, r2, c2, m) && !(m == n && Peer(r2, c2, r, c))
  {
  }

  /** Writing a safe digit into an empty cell of a conflict-free grid keeps
      it conflict-free. */
  lemma SafePlacementConflictFree(g: Grid, r: int, c: int, n: int)
    requires WellFormed(g) && InBounds(r, c) && g[r][c] == 0 && 1 <= n <= 9
    requires IsSafe(g, r, c, n) && ConflictFree(g)
    ensures ConflictFree(SetCell(g, r, c, n))
  {
    var h := SetCell(g, r, c, n);
    forall r1, c1, r2, c2 |
      InBounds(r1, c1) && InBounds(r2, c2) && (r1 != r2 || c1 != c2) && Peer(r1, c1, r2, c2) && h[r1][c1] != 0
      ensures h[r1][c1] != h[r2][c2]
    {
      if r1 == r && c1 == c {
        assert Peer(r, c, r2, c2);
      } else if r2 == r && c2 == c {
        assert Peer(r, c, r1, c1);
      }
    }
  }

  /** A solution of g puts at each empty cell a digit that is safe there,
      and still solves g once that digit is written. */
  lemma SolutionDigitSafe(s: Grid, g: Grid, r: int, c: int)
    requires Solves(s, g) && InBounds(r, c) && g[r][c] == 0
    ensures 1 <= s[r][c] <= 9 && IsSafe(g, r, c, s[r][c])
    ensures Solves(s, SetCell(g, r, c, s[r][c]))
  {
    forall r2, c2 | InBounds(r2, c2) && Peer(r, c, r2, c2)
      ensures g[r2][c2] != s[r][c]
    {
      if g[r2][c2] != 0 {
        assert s[r2][c2] == g[r2][c2];
      }
    }
  }

  /** The scan of one unit with a set of digits seen so far, as hasConflicts
      does with `new Set()`: true once a non-zero value repeats. */
  function HasDuplicate(vals: seq<int>, seen: set<int>): (dup: bool)
    ensures dup <==>
      (exists i :: 0 <= i < |vals| && vals[i] != 0 && vals[i] in seen) ||
      (exists i, j :: 0 <= i < j < |vals| && vals[i] != 0 && vals[i] == vals[j])
  {
    if vals == [] then false
    else if vals[0] != 0 && vals[0] in seen then true
    else
      var dup := HasDuplicate(vals[1..], if vals[0] != 0 then seen + {vals[0]} else seen);
      assert forall i :: 1 <= i < |vals| ==> vals[i] == vals[1..][i - 1];
      dup
  }

  /** The values of a unit's cells, in unit order. */
  function UnitValues(g: Grid, kind: UnitKind, idx: int): (vals: seq<int>)
    requires WellFormed(g) && 0 <= idx < 9
    ensures |vals| == 9
    ensures forall k :: 0 <= k < 9 ==> vals[k] == g[CellOf(kind, idx, k).r][CellOf(kind, idx, k).c]
  {
    seq(9, k requires 0 <= k < 9 => g[CellOf(kind, idx, k).r][CellOf(kind, idx, k).c])
  }

  /** Some non-zero value occurs twice in vals. */
  ghost predicate Duplicated(vals: seq<int>)
  {
    exists i, j :: 0 <= i < j < |vals| && vals[i] != 0 && vals[i] == vals[j]
  }

  ghost predicate UnitHasDuplicate(g: Grid, kind: UnitKind, idx: int)
    requires WellFormed(g) && 0 <= idx < 9
  {
    Duplicated(UnitValues(g, kind, idx))
  }

  /** One unit's scan, starting from an empty set of seen digits. */
  function UnitConflict(g: Grid, kind: UnitKind, idx: int): (conflict: bool)
    requires WellFormed(g) && 0 <= idx < 9
    ensures conflict <==> UnitHasDuplicate(g, kind, idx)
  {
    HasDuplicate(UnitValues(g, kind, idx), {})
  }

  /** Rows and columns i.. of hasConflicts' first loop. */
  function LinesConflict(g: Grid, i: int): (conflict: bool)
    requires WellFormed(g) && 0 <= i <= 9
    decreases 9 - i
    ensures conflict <==> exists k :: i <= k < 9 && (UnitHasDuplicate(g, Row, k) || UnitHasDuplicate(g, Col, k))
  {
    i < 9 && (UnitConflict(g, Row, i) || UnitConflict(g, Col, i) || LinesConflict(g, i + 1))
  }

  /** Boxes b.. of hasConflicts' second loop. */
  function BoxesConflict(g: Grid, b: int): (conflict: bool)
    requires WellFormed(g) && 0 <= b <= 9
    decreases 9 - b
    ensures conflict <==> exists k :: b <= k < 9 && UnitHasDuplicate(g, Box, k)
  {
    UnitsFrom(g, Box, b);
    b < 9 && (UnitConflict(g, Box, b) || BoxesConflict(g, b + 1))
  }

  /** Some unit from b on holds a duplicate exactly when unit b does or
      some unit after it. */
  lemma UnitsFrom(g: Grid, kind: UnitKind, b: int)
    requires WellFormed(g) && 0 <= b <= 9
    ensures (exists k :: b <= k < 9 && UnitHasDuplicate(g, kind, k)) <==>
      b < 9 && (UnitHasDuplicate(g, kind, b) || exists k :: b + 1 <= k < 9 && UnitHasDuplicate(g, kind, k))
  {
  }

  /** A conflict is exactly a unit holding some non-zero value twice. */
  lemma ConflictIffUnitDuplicate(g: Grid)
    requires WellFormed(g)
    ensures !ConflictFree(g) <==> exists kind: UnitKind, idx :: 0 <= idx < 9 && UnitHasDuplicate(g, kind, idx)
  {
    if !ConflictFree(g) {
      var r1, c1, r2, c2 :| InBounds(r1, c1) && InBounds(r2, c2) && (r1 != r2 || c1 != c2)
        && Peer(r1, c1, r2, c2) && g[r1][c1] != 0 && g[r1][c1] == g[r2][c2];
      var p, q := Pos(r1, c1), Pos(r2, c2);
      PeerIffSharedUnit(p, q);
      var kind: UnitKind :| UnitOf(kind, p) == UnitOf(kind, q);
      CellOfRoundTrip(kind, p);
      CellOfRoundTrip(kind, q);
      var idx, i, j := UnitOf(kind, p), IndexIn(kind, p), IndexIn(kind, q);
      var vals := UnitValues(g, kind, idx);
      assert vals[i] == g[p.r][p.c] && vals[j] == g[q.r][q.c];
      assert i != j;
      if i < j {
        assert vals[i] != 0 && vals[i] == vals[j];
      } else {
        assert vals[j] != 0 && vals[j] == vals[i];
      }
      assert UnitHasDuplicate(g, kind, idx);
    }
    if exists kind: UnitKind, idx :: 0 <= idx < 9 && UnitHasDuplicate(g, kind, idx) {
      var kind: UnitKind, idx :| 0 <= idx < 9 && UnitHasDuplicate(g, kind, idx);
      var vals := UnitValues(g, kind, idx);
      var i, j :| 0 <= i < j < 9 && vals[i] != 0 && vals[i] == vals[j];
      var p, q := CellOf(kind, idx, i), CellOf(kind, idx, j);
      IndexInRoundTrip(kind, idx, i);
      IndexInRoundTrip(kind, idx, j);
      PeerIffSharedUnit(p, q);
      assert p != q;
      assert g[p.r][p.c] != 0 && g[p.r][p.c] == g[q.r][q.c];
    }
  }

  lemma ScansCoverUnits(g: Grid)
    requires WellFormed(g)
    ensures (LinesConflict(g, 0) || BoxesConflict(g, 0)) <==>
      exists kind: UnitKind, idx :: 0 <= idx < 9 && UnitHasDuplicate(g, kind, idx)
  {
    if exists kind: UnitKind, idx :: 0 <= idx < 9 && UnitHasDuplicate(g, kind, idx) {
      var kind: UnitKind, idx :| 0 <= idx < 9 && UnitHasDuplicate(g, kind, idx);
      match kind
      case Row => assert LinesConflict(g, 0);
      case Col => assert LinesConflict(g, 0);
      case Box => assert BoxesConflict(g, 0);
    }
    if LinesConflict(g, 0) {
      var k :| 0 <= k < 9 && (UnitHasDuplicate(g, Row, k) || UnitHasDuplicate(g, Col, k));
      if UnitHasDuplicate(g, Row, k) {
        assert exists kind: UnitKind, idx :: 0 <= idx < 9 && UnitHasDuplicate(g, kind, idx) by {
          assert UnitHasDuplicate(g, Row, k);
        }
      } else {
        assert exists kind: UnitKind, idx :: 0 <= idx < 9 && UnitHasDuplicate(g, kind, idx) by {
          assert UnitHasDuplicate(g, Col, k);
        }
      }
    }
    if BoxesConflict(g, 0) {
      var k :| 0 <= k < 9 && UnitHasDuplicate(g, Box, k);
    }
  }

  /** hasConflicts: true exactly when some row, column or box holds a
      non-zero digit twice; empty cells never conflict. */
  function HasConflicts(g: Grid): (conflict: bool)
    requires WellFormed(g)
    ensures conflict <==> !ConflictFree(g)
  {
    ConflictIffUnitDuplicate(g);
    ScansCoverUnits(g);
    LinesConflict(g, 0) || BoxesConflict(g, 0)
  }
}

=== FILE: scans.dfy ===
/** The list-building helpers the techniques share: the cells of a unit
    that still hold a digit (the `positions`, `pos` and `posByNum` lists of
    the source), insertion-ordered grouping (a JavaScript Map or object
    keyed by a string), first-occurrence de-duplication (`new Set`), and
    the ascending digit lists of candidate sets. */
module Scans {
  import opened Grid
  import opened Units
  import opened Telemetry
  import opened Candidates

  /** The cells of unit (kind, idx) from position k on that are empty and
      list n, in unitCells order. */
  function HoldersFrom(g: Grid, cand: CandGrid, kind: UnitKind, idx: int, n: int, k: int): (ps: seq<Pos>)
    requires WellFormed(g) && Shaped(cand) && 0 <= idx < 9 && 0 <= k <= 9
    decreases 9 - k
    ensures forall i :: 0 <= i < |ps| ==>
      InBounds(ps[i].r, ps[i].c) && InUnit(kind, idx, ps[i]) && g[ps[i].r][ps[i].c] == 0 && n in cand[ps[i].r][ps[i].c]
    ensures forall j :: k <= j < 9 ==> Holds(g, cand, CellOf(kind, idx, j), n) ==> CellOf(kind, idx, j) in ps
  {
    if k == 9 then []
    else
      var p := CellOf(kind, idx, k);
      var rest := HoldersFrom(g, cand, kind, idx, n, k + 1);
      if Holds(g, cand, p, n) then [p] + rest else rest
  }

  /** The cells are listed in strictly increasing unitCells position. */
  predicate Ordered(kind: UnitKind, ps: seq<Pos>) {
    forall i, j :: 0 <= i < j < |ps| ==> IndexIn(kind, ps[i]) < IndexIn(kind, ps[j])
  }

  /** HoldersFrom lists cells in unitCells order. */
  lemma {:induction false} HoldersOrdered(g: Grid, cand: CandGrid, kind: UnitKind, idx: int, n: int, k: int)
    requires WellFormed(g) && Shaped(cand) && 0 <= idx < 9 && 0 <= k <= 9
    decreases 9 - k
    ensures forall p :: p in HoldersFrom(g, cand, kind, idx, n, k) ==> k <= IndexIn(kind, p) < 9
    ensures Ordered(kind, HoldersFrom(g, cand, kind, idx, n, k))
  {
    if k < 9 {
      HoldersOrdered(g, cand, kind, idx, n, k + 1);
      var p := CellOf(kind, idx, k);
      IndexInRoundTrip(kind, idx, k);
      var rest := HoldersFrom(g, cand, kind, idx, n, k + 1);
      if Holds(g, cand, p, n) {
        assert HoldersFrom(g, cand, kind, idx, n, k) == [p] + rest;
        OrderedCons(kind, p, rest, k);
      }
    }
  }

  /** A cell at position k put in front of cells listed in order after k
      keeps the list in order. */
  lemma OrderedCons(kind: UnitKind, p: Pos, rest: seq<Pos>, k: int)
    requires IndexIn(kind, p) == k && k < 9 && Ordered(kind, rest)
    requires forall q :: q in rest ==> k + 1 <= IndexIn(kind, q) < 9
    ensures forall q :: q in [p] + rest ==> k <= IndexIn(kind, q) < 9
    ensures Ordered(kind, [p] + rest)
  {
    var ps := [p] + rest;
    forall q | q in ps
      ensures k <= IndexIn(kind, q) < 9
    {
      if q != p {
        assert q in rest;
      }
    }
    forall i, j | 0 <= i < j < |ps|
      ensures IndexIn(kind, ps[i]) < IndexIn(kind, ps[j])
    {
      assert ps[j] == rest[j - 1] && ps[j] in rest;
      if i > 0 {
        assert ps[i] == rest[i - 1];
      }
    }
  }

  /** The cells of a unit that are empty and list n. */
  function Holders(g: Grid, cand: CandGrid, kind: UnitKind, idx: int, n: int): (ps: seq<Pos>)
    requires WellFormed(g) && Shaped(cand) && 0 <= idx < 9
    ensures forall i :: 0 <= i < |ps| ==>
      InBounds(ps[i].r, ps[i].c) && InUnit(kind, idx, ps[i]) && g[ps[i].r][ps[i].c] == 0 && n in cand[ps[i].r][ps[i].c]
    ensures forall j :: 0 <= j < 9 ==> Holds(g, cand, CellOf(kind, idx, j), n) ==> CellOf(kind, idx, j) in ps
  {
    HoldersFrom(g, cand, kind, idx, n, 0)
  }

  /** The holders of a digit come in unitCells order, so none repeats. */
  lemma HoldersDistinct(g: Grid, cand: CandGrid, kind: UnitKind, idx: int, n: int)
    requires WellFormed(g) && Shaped(cand) && 0 <= idx < 9
    ensures Distinct(Holders(g, cand, kind, idx, n))
  {
    HoldersOrdered(g, cand, kind, idx, n, 0);
    OrderedDistinct(kind, Holders(g, cand, kind, idx, n));
  }

  /** A list in strictly increasing position repeats no cell. */
  lemma OrderedDistinct(kind: UnitKind, ps: seq<Pos>)
    requires Ordered(kind, ps)
    ensures Distinct(ps)
  {
    forall i, j | 0 <= i < j < |ps|
      ensures ps[i] != ps[j]
    {
      assert IndexIn(kind, ps[i]) < IndexIn(kind, ps[j]);
    }
  }

  /** The empty cells of unit (kind, idx) from position k on. */
  function EmptyFrom(g: Grid, kind: UnitKind, idx: int, k: int): (ps: seq<Pos>)
    requires WellFormed(g) && 0 <= idx < 9 && 0 <= k <= 9
    decreases 9 - k
    ensures forall i :: 0 <= i < |ps| ==> InBounds(ps[i].r, ps[i].c) && InUnit(kind, idx, ps[i]) && g[ps[i].r][ps[i].c] == 0
    ensures forall j :: k <= j < 9 ==> g[CellOf(kind, idx, j).r][CellOf(kind, idx, j).c] == 0 ==> CellOf(kind, idx, j) in ps
  {
    if k == 9 then []
    else
      var p := CellOf(kind, idx, k);
      var rest := EmptyFrom(g, kind, idx, k + 1);
      if g[p.r][p.c] == 0 then [p] + rest else rest
  }

  /** EmptyFrom lists cells in unitCells order, so none repeats. */
  lemma {:induction false} EmptyOrdered(g: Grid, kind: UnitKind, idx: int, k: int)
    requires WellFormed(g) && 0 <= idx < 9 && 0 <= k <= 9
    decreases 9 - k
    ensures forall p :: p in EmptyFrom(g, kind, idx, k) ==> k <= IndexIn(kind, p) < 9
    ensures Ordered(kind, EmptyFrom(g, kind, idx, k))
    ensures Distinct(EmptyFrom(g, kind, idx, k))
  {
    if k < 9 {
      EmptyOrdered(g, kind, idx, k + 1);
      var p := CellOf(kind, idx, k);
      IndexInRoundTrip(kind, idx, k);
      var rest := EmptyFrom(g, kind, idx, k + 1);
      if g[p.r][p.c] == 0 {
        var ps := [p] + rest;
        assert EmptyFrom(g, kind, idx, k) == ps;
        forall q | q in ps
          ensures k <= IndexIn(kind, q) < 9
        {
          if q != p {
            assert q in rest;
          }
        }
        forall i, j | 0 <= i < j < |ps|
          ensures IndexIn(kind, ps[i]) < IndexIn(kind, ps[j])
        {
          assert ps[j] in rest;
          if i > 0 {
            assert ps[i] == rest[i - 1];
          }
        }
      }
    }
    var ps := EmptyFrom(g, kind, idx, k);
    forall i, j | 0 <= i < j < |ps|
      ensures ps[i] != ps[j]
    {
      assert IndexIn(kind, ps[i]) < IndexIn(kind, ps[j]);
    }
  }

  /** The cells of a list that lie outside unit (kind, idx), in order:
      `cells.filter(...)` or the `continue`/`if` guards of the loops. */
  function Outside(cells: seq<Pos>, kind: UnitKind, idx: int): (out: seq<Pos>)
    ensures forall p :: p in out <==> p in cells && !InUnit(kind, idx, p)
    ensures AllInBounds(cells) ==> AllInBounds(out)
    ensures Distinct(cells) ==> Distinct(out)
  {
    if cells == [] then []
    else
      var rest := Outside(cells[1..], kind, idx);
      assert forall j :: 1 <= j < |cells| ==> cells[j] == cells[1..][j - 1];
      if InUnit(kind, idx, cells[0]) then rest
      else
        var out := [cells[0]] + rest;
        assert forall j :: 1 <= j < |out| ==> out[j] == rest[j - 1];
        out
  }

  /** The nine cells of a unit are distinct and on the board. */
  lemma UnitCellsDistinct(kind: UnitKind, idx: int)
    requires 0 <= idx < 9
    ensures AllInBounds(UnitCells(kind, idx)) && Distinct(UnitCells(kind, idx))
  {
    var cells := UnitCells(kind, idx);
    forall i, j | 0 <= i < j < 9
      ensures cells[i] != cells[j]
    {
      IndexInRoundTrip(kind, idx, i);
      IndexInRoundTrip(kind, idx, j);
    }
  }

  /** One entry of an insertion-ordered map from keys to the list of values
      pushed under that key. */
  datatype Group<K, V> = Group(key: K, members: seq<V>)

  function Keys<K(==), V>(gs: seq<Group<K, V>>): set<K>
  {
    set i | 0 <= i < |gs| :: gs[i].key
  }

  predicate DistinctKeys<K(==), V>(gs: seq<Group<K, V>>) {
    forall i, j :: 0 <= i < j < |gs| ==> gs[i].key != gs[j].key
  }

  /** `m.get(k) || []`: the members of the first group with key k. */
  function Lookup<K(==), V>(gs: seq<Group<K, V>>, k: K): seq<V>
  {
    if gs == [] then []
    else if gs[0].key == k then gs[0].members
    else Lookup(gs[1..], k)
  }

  /** `(m.get(key) || []).push(v)`: appends v to the group of key, or opens a
      new group at the end; every other group and the key order stay. */
  function AddToGroup<K(==,!new), V>(gs: seq<Group<K, V>>, key: K, v: V): (out: seq<Group<K, V>>)
    ensures Keys(out) == Keys(gs) + {key}
    ensures DistinctKeys(gs) ==> DistinctKeys(out)
    ensures forall k :: Lookup(out, k) == if k == key then Lookup(gs, k) + [v] else Lookup(gs, k)
  {
    if gs == [] then
      var out := [Group(key, [v])];
      assert out[0].key == key;
      out
    else if gs[0].key == key then
      var out := [Group(key, gs[0].members + [v])] + gs[1..];
      assert forall i :: 0 <= i < |gs| ==> out[i].key == gs[i].key;
      assert out[1..] == gs[1..];
      assert Keys(out) == Keys(gs) by {
        forall x | x in Keys(gs) ensures x in Keys(out) {
          var i :| 0 <= i < |gs| && gs[i].key == x;
          assert out[i].key == x;
        }
      }
      out
    else
      var rest := AddToGroup(gs[1..], key, v);
      var out := [gs[0]] + rest;
      KeysCons(gs[0], rest);
      KeysCons(gs[0], gs[1..]);
      assert [gs[0]] + gs[1..] == gs;
      assert out[1..] == rest;
      ConsDistinct(gs[0], gs[1..], rest, key);
      out
  }

  /** Replacing the tail of a key list by one whose keys gain only a key
      other than the head's keeps the keys distinct. */
  lemma ConsDistinct<K, V>(g: Group<K, V>, tail: seq<Group<K, V>>, rest: seq<Group<K, V>>, key: K)
    requires Keys(rest) == Keys(tail) + {key} && g.key != key
    requires DistinctKeys(tail) ==> DistinctKeys(rest)
    ensures DistinctKeys([g] + tail) ==> DistinctKeys([g] + rest)
  {
    var xs, out := [g] + tail, [g] + rest;
    if DistinctKeys(xs) {
      assert DistinctKeys(tail) by {
        forall i, j | 0 <= i < j < |tail| ensures tail[i].key != tail[j].key {
          assert xs[i + 1] == tail[i] && xs[j + 1] == tail[j];
        }
      }
      assert g.key !in Keys(tail) by {
        assert forall j :: 0 <= j < |tail| ==> tail[j] == xs[j + 1] && xs[j + 1].key != xs[0].key;
      }
      forall i, j | 0 <= i < j < |out|
        ensures out[i].key != out[j].key
      {
        assert out[j] == rest[j - 1] && out[j].key in Keys(rest);
        if i > 0 {
          assert out[i] == rest[i - 1];
        }
      }
    }
  }

  lemma KeysCons<K, V>(x: Group<K, V>, gs: seq<Group<K, V>>)
    ensures Keys([x] + gs) == {x.key} + Keys(gs)
  {
    var xs := [x] + gs;
    forall k | k in Keys(xs) ensures k in {x.key} + Keys(gs) {
      var i :| 0 <= i < |xs| && xs[i].key == k;
      if i > 0 {
        assert gs[i - 1].key == k;
      }
    }
    forall k | k in Keys(gs) ensures k in Keys(xs) {
      var i :| 0 <= i < |gs| && gs[i].key == k;
      assert xs[i + 1].key == k;
    }
    assert xs[0].key == x.key;
  }

  /** One value pushed under a key. */
  datatype Item<K, V> = Item(key: K, value: V)

  /** The values listed under key k, in order. */
  function MembersOf<K(==), V>(items: seq<Item<K, V>>, k: K): seq<V>
    decreases |items|
  {
    if items == [] then []
    else MembersOf(items[..|items| - 1], k) + (if items[|items| - 1].key == k then [items[|items| - 1].value] else [])
  }

  /** The keys of the items. */
  function ItemKeys<K(==), V>(items: seq<Item<K, V>>): set<K>
  {
    set i | 0 <= i < |items| :: items[i].key
  }

  /** Pushing every item in turn into an empty map: the groups come in
      first-occurrence order of their keys, and each holds exactly the
      values pushed under its key. */
  function Collect<K(==,!new), V>(items: seq<Item<K, V>>): (gs: seq<Group<K, V>>)
    decreases |items|
    ensures DistinctKeys(gs)
    ensures Keys(gs) == ItemKeys(items)
    ensures forall k :: Lookup(gs, k) == MembersOf(items, k)
  {
    if items == [] then []
    else
      var front := items[..|items| - 1];
      var last := items[|items| - 1];
      var gs := AddToGroup(Collect(front), last.key, last.value);
      assert ItemKeys(items) == ItemKeys(front) + {last.key} by {
        forall x | x in ItemKeys(items) ensures x in ItemKeys(front) + {last.key} {
          var i :| 0 <= i < |items| && items[i].key == x;
          if i < |items| - 1 {
            assert front[i].key == x;
          }
        }
        forall x | x in ItemKeys(front) ensures x in ItemKeys(items) {
          var i :| 0 <= i < |front| && front[i].key == x;
          assert items[i].key == x;
        }
      }
      gs
  }

  /** With distinct keys, each group is what Lookup finds for its key. */
  lemma {:induction false} LookupAt<K, V>(gs: seq<Group<K, V>>, i: int)
    requires DistinctKeys(gs) && 0 <= i < |gs|
    ensures Lookup(gs, gs[i].key) == gs[i].members
  {
    if i > 0 {
      assert gs[0].key != gs[i].key;
      assert gs[1..][i - 1] == gs[i];
      LookupAt(gs[1..], i - 1);
    }
  }

  /** A group that Lookup finds something for is one of the groups. */
  lemma {:induction false} LookupFound<K, V>(gs: seq<Group<K, V>>, k: K)
    requires Lookup(gs, k) != []
    ensures exists j :: 0 <= j < |gs| && gs[j].key == k
  {
    if gs[0].key != k {
      LookupFound(gs[1..], k);
      var j :| 0 <= j < |gs[1..]| && gs[1..][j].key == k;
      assert gs[j + 1].key == k;
    }
  }

  /** The digits of s from n up to 9, ascending: the order candidate lists
      keep. */
  function DigitsFrom(s: set<int>, n: int): (ds: seq<int>)
    requires 1 <= n <= 10
    decreases 10 - n
    ensures forall x :: x in ds <==> x in s && n <= x <= 9
    ensures forall i, j :: 0 <= i < j < |ds| ==> ds[i] < ds[j]
  {
    if n == 10 then []
    else
      var rest := DigitsFrom(s, n + 1);
      if n in s then
        var ds := [n] + rest;
        assert forall j :: 1 <= j < |ds| ==> ds[j] == rest[j - 1] && rest[j - 1] in rest;
        ds
      else rest
  }

  /** A set of digits listed in ascending order. */
  function Digits(s: set<int>): (ds: seq<int>)
    ensures forall x :: x in ds <==> x in s && 1 <= x <= 9
    ensures forall i, j :: 0 <= i < j < |ds| ==> ds[i] < ds[j]
  {
    DigitsFrom(s, 1)
  }

  /** The ascending list of a set of digits has one entry per digit. */
  lemma DigitsCard(s: set<int>)
    requires forall x :: x in s ==> 1 <= x <= 9
    ensures |Digits(s)| == |s|
  {
    var ds := Digits(s);
    DistinctCard(ds);
    assert (set x | x in ds) == s;
  }

  /** `nums.map(n => ({ r, c, n }))`. */
  function MovesAt(r: int, c: int, ns: seq<int>): (ms: seq<Move>)
    ensures |ms| == |ns|
    ensures forall i :: 0 <= i < |ns| ==> ms[i] == Move(r, c, ns[i])
  {
    seq(|ns|, i requires 0 <= i < |ns| => Move(r, c, ns[i]))
  }

  /** `[...new Set(xs)]`: the first occurrence of each element, in order. */
  function Dedup(xs: seq<Pos>, seen: seq<Pos>): (ys: seq<Pos>)
    ensures forall y :: y in ys ==> y in xs && y !in seen
    ensures forall x :: x in xs && x !in seen ==> x in ys
    ensures forall i, j :: 0 <= i < j < |ys| ==> ys[i] != ys[j]
  {
    if xs == [] then []
    else if xs[0] in seen then Dedup(xs[1..], seen)
    else
      var rest := Dedup(xs[1..], seen + [xs[0]]);
      assert forall j :: 1 <= j < |[xs[0]] + rest| ==> ([xs[0]] + rest)[j] == rest[j - 1] && rest[j - 1] in rest;
      [xs[0]] + rest
  }
}

=== FILE: search.dfy ===
/** The depth-first fallback (solveBacktracking) and the capped solution
    counter (countSolutions). Both take the first empty cell in row-major
    order and try its candidates in ascending digit order; the recursion
    decreases the number of empty cells. The source's single mutable work
    grid is passed by value here: a failed branch hands back the grid it was
    given, which is what the source's `work[r][c] = 0` restores. */
module Search {
  import opened Wrappers
  import opened Grid
  import opened Safety

  /** What one search call produces: whether it completed the grid, the grid
      it leaves, and the counted steps and backtracks. */
  datatype Outcome = Outcome(solved: bool, grid: Grid, steps: nat, backtracks: nat)

  /** Placing a candidate of an empty cell: it is a digit isSafe accepts,
      the grid gets one empty cell fewer, and a conflict-free grid stays
      conflict-free. */
  lemma CandidateStep(g: Grid, r: int, c: int, cands: seq<int>, i: int)
    requires WellFormed(g) && InBounds(r, c) && g[r][c] == 0
    requires cands == GetCandidates(g, r, c) && 0 <= i < |cands|
    ensures 1 <= cands[i] <= 9 && IsSafe(g, r, c, cands[i])
    ensures ZeroCount(SetCell(g, r, c, cands[i])) < ZeroCount(g)
    ensures ConflictFree(g) ==> ConflictFree(SetCell(g, r, c, cands[i]))
  {
    assert cands[i] in cands;
    FillDecreasesZeroCount(g, r, c, cands[i]);
    if ConflictFree(g) {
      SafePlacementConflictFree(g, r, c, cands[i]);
    }
  }

  /** dfs of solveBacktracking. A solved outcome is full, keeps every given
      and is conflict-free when the input is; a failed one hands back the
      input grid; each backtrack undoes a counted step. */
  function Dfs(g: Grid): (o: Outcome)
    requires WellFormed(g)
    decreases ZeroCount(g), 1, 0
    ensures WellFormed(o.grid) && o.backtracks <= o.steps
    ensures !o.solved ==> o.grid == g
    ensures o.solved ==> ZeroFree(o.grid) && Extends(g, o.grid) && (ConflictFree(g) ==> ConflictFree(o.grid))
  {
    match FindEmpty(g)
    case None => Outcome(true, g, 0, 0)
    case Some(p) => TryEach(g, p.r, p.c, GetCandidates(g, p.r, p.c), 0)
  }

  /** The `for (const n of candidates)` loop of dfs, from the i-th
      candidate on. */
  function TryEach(g: Grid, r: int, c: int, cands: seq<int>, i: int): (o: Outcome)
    requires WellFormed(g) && InBounds(r, c) && g[r][c] == 0
    requires cands == GetCandidates(g, r, c) && 0 <= i <= |cands|
    decreases ZeroCount(g), 0, |cands| - i
    ensures WellFormed(o.grid) && o.backtracks <= o.steps
    ensures !o.solved ==> o.grid == g
    ensures o.solved ==> ZeroFree(o.grid) && Extends(g, o.grid) && (ConflictFree(g) ==> ConflictFree(o.grid))
  {
    if i == |cands| then Outcome(false, g, 0, 0)
    else
      CandidateStep(g, r, c, cands, i);
      var h := SetCell(g, r, c, cands[i]);
      var sub := Dfs(h);
      if sub.solved then Outcome(true, sub.grid, sub.steps + 1, sub.backtracks)
      else
        var rest := TryEach(g, r, c, cands, i + 1);
        Outcome(rest.solved, rest.grid, sub.steps + 1 + rest.steps, sub.backtracks + 1 + rest.backtracks)
  }

  /** solveBacktracking's result: the solution when the search completes,
      nothing otherwise, and the search metrics. */
  datatype Backtracked = Backtracked(solved: bool, solution: Option<Grid>, steps: nat, backtracks: nat)

  /** solveBacktracking. */
  function SolveBacktracking(g: Grid): (b: Backtracked)
    requires WellFormed(g)
    ensures b.solution.Some? <==> b.solved
    ensures b.backtracks <= b.steps
    ensures b.solved ==> WellFormed(b.solution.value) && ZeroFree(b.solution.value) && Extends(g, b.solution.value)
    ensures b.solved && ConflictFree(g) ==> Solves(b.solution.value, g)
  {
    var o := Dfs(g);
    Backtracked(o.solved, if o.solved then Some(o.grid) else None, o.steps, o.backtracks)
  }

  /** The search misses no solution: a puzzle with a solution is solved. */
  lemma {:induction false} DfsComplete(g: Grid, s: Grid)
    requires WellFormed(g) && Solves(s, g)
    decreases ZeroCount(g)
    ensures Dfs(g).solved
  {
    match FindEmpty(g)
    case None =>
    case Some(p) =>
      var cands := GetCandidates(g, p.r, p.c);
      SolutionDigitSafe(s, g, p.r, p.c);
      assert s[p.r][p.c] in SafeDigits(g, p.r, p.c);
      var j :| 0 <= j < |cands| && cands[j] == s[p.r][p.c];
      CandidateStep(g, p.r, p.c, cands, j);
      DfsComplete(SetCell(g, p.r, p.c, cands[j]), s);
      TryReaches(g, p.r, p.c, cands, 0, j);
  }

  /** The candidate loop reports success when any candidate from the i-th
      on leads to a completed grid. */
  lemma {:induction false} TryReaches(g: Grid, r: int, c: int, cands: seq<int>, i: int, j: int)
    requires WellFormed(g) && InBounds(r, c) && g[r][c] == 0
    requires cands == GetCandidates(g, r, c) && 0 <= i <= j < |cands|
    requires Dfs(SetCell(g, r, c, cands[j])).solved
    decreases j - i
    ensures TryEach(g, r, c, cands, i).solved
  {
    CandidateStep(g, r, c, cands, i);
    if i < j && !Dfs(SetCell(g, r, c, cands[i])).solved {
      TryReaches(g, r, c, cands, i + 1, j);
    }
  }

  /** On a conflict-free puzzle, solveBacktracking succeeds exactly when the
      puzzle has a solution, and what it returns is one. */
  lemma SolvedIffSolvable(g: Grid)
    requires WellFormed(g) && ConflictFree(g)
    ensures SolveBacktracking(g).solved <==> exists s :: Solves(s, g)
  {
    var b := SolveBacktracking(g);
    if b.solved {
      assert Solves(b.solution.value, g);
    }
    if s :| Solves(s, g) {
      DfsComplete(g, s);
    }
  }

  /** dfs of countSolutions, with the count so far: it stops as soon as the
      count reaches max, and otherwise adds one for every completed grid. */
  function CountDfs(g: Grid, max: int, count: int): (k: int)
    requires WellFormed(g)
    decreases ZeroCount(g), 1, 0
    ensures count <= k && (count >= max ==> k == count) && (count < max ==> k <= max)
  {
    if count >= max then count
    else
      match FindEmpty(g)
      case None => count + 1
      case Some(p) => CountTry(g, p.r, p.c, GetCandidates(g, p.r, p.c), 0, max, count)
  }

  /** The candidate loop of countSolutions' dfs, from the i-th candidate
      on, with its early return once the count reaches max. */
  function CountTry(g: Grid, r: int, c: int, cands: seq<int>, i: int, max: int, count: int): (k: int)
    requires WellFormed(g) && InBounds(r, c) && g[r][c] == 0
    requires cands == GetCandidates(g, r, c) && 0 <= i <= |cands|
    decreases ZeroCount(g), 0, |cands| - i
    ensures count <= k && (count >= max ==> k == count) && (count < max ==> k <= max)
  {
    if i == |cands| then count
    else
      CandidateStep(g, r, c, cands, i);
      var k := CountDfs(SetCell(g, r, c, cands[i]), max, count);
      if k >= max then k else CountTry(g, r, c, cands, i + 1, max, k)
  }

  /** countSolutions(grid, max). */
  function CountSolutions(g: Grid, max: int): (k: int)
    requires WellFormed(g)
    ensures 0 <= k && (max >= 0 ==> k <= max)
  {
    CountDfs(g, max, 0)
  }

  /** A full grid counts as one solution. */
  lemma CountFull(g: Grid, max: int)
    requires WellFormed(g) && ZeroFree(g) && max >= 1
    ensures CountSolutions(g, max) == 1
  {
  }

  /** Below the cap, the counter finds a solution exactly when the
      backtracking search does: both walk the same tree in the same order. */
  lemma {:induction false} CountFindsIffDfs(g: Grid, max: int, count: int)
    requires WellFormed(g) && count < max
    decreases ZeroCount(g), 1, 0
    ensures CountDfs(g, max, count) > count <==> Dfs(g).solved
  {
    match FindEmpty(g)
    case None =>
    case Some(p) =>
      CountTryIffTry(g, p.r, p.c, GetCandidates(g, p.r, p.c), 0, max, count);
  }

  lemma {:induction false} CountTryIffTry(g: Grid, r: int, c: int, cands: seq<int>, i: int, max: int, count: int)
    requires WellFormed(g) && InBounds(r, c) && g[r][c] == 0
    requires cands == GetCandidates(g, r, c) && 0 <= i <= |cands| && count < max
    decreases ZeroCount(g), 0, |cands| - i
    ensures CountTry(g, r, c, cands, i, max, count) > count <==> TryEach(g, r, c, cands, i).solved
  {
    if i < |cands| {
      CandidateStep(g, r, c, cands, i);
      TryStep(g, r, c, cands, i);
      CountStep(g, r, c, cands, i, max, count);
      CountFindsIffDfs(SetCell(g, r, c, cands[i]), max, count);
      CountTryIffTry(g, r, c, cands, i + 1, max, count);
    }
  }

  /** One turn of the candidate loop: it succeeds when this candidate's
      subtree does or a later candidate's. */
  lemma TryStep(g: Grid, r: int, c: int, cands: seq<int>, i: int)
    requires WellFormed(g) && InBounds(r, c) && g[r][c] == 0
    requires cands == GetCandidates(g, r, c) && 0 <= i < |cands|
    ensures TryEach(g, r, c, cands, i).solved <==>
      Dfs(SetCell(g, r, c, cands[i])).solved || TryEach(g, r, c, cands, i + 1).solved
  {
  }

  /** One turn of the counting loop below the cap: the count grows when this
      candidate's subtree adds to it or a later candidate's does. */
  lemma CountStep(g: Grid, r: int, c: int, cands: seq<int>, i: int, max: int, count: int)
    requires WellFormed(g) && InBounds(r, c) && g[r][c] == 0
    requires cands == GetCandidates(g, r, c) && 0 <= i < |cands| && count < max
    ensures CountTry(g, r, c, cands, i, max, count) > count <==>
      CountDfs(SetCell(g, r, c, cands[i]), max, count) > count || CountTry(g, r, c, cands, i + 1, max, count) > count
  {
    CandidateStep(g, r, c, cands, i);
    var k := CountDfs(SetCell(g, r, c, cands[i]), max, count);
    if count < k < max {
      assert CountTry(g, r, c, cands, i + 1, max, k) >= k;
    }
  }

  /** countSolutions(g, max) with max >= 1 is at least one exactly when
      solveBacktracking(g) succeeds. */
  lemma CountIffSolved(g: Grid, max: int)
    requires WellFormed(g) && max >= 1
    ensures CountSolutions(g, max) >= 1 <==> SolveBacktracking(g).solved
  {
    CountFindsIffDfs(g, max, 0);
  }
}

=== FILE: shuffle.dfy ===
/** The generator's in-place Fisher-Yates shuffle, with the Math.random()
    values it draws passed in as a sequence of rolls in [0, 1). Every roll
    sequence yields a permutation, and every permutation comes from some
    roll sequence, so the rolls stand for an arbitrary choice of order. */
module Shuffling {

  /** A value Math.random() can return. */
  predicate IsRoll(u: real) {
    0.0 <= u < 1.0
  }

  /** The rolls one shuffle of n items draws: one for each i from n - 1 down
      to 1. */
  predicate Rolls(us: seq<real>, n: nat) {
    |us| == (if n == 0 then 0 else n - 1) && forall k :: 0 <= k < |us| ==> IsRoll(us[k])
  }

  /** Math.floor(u * (i + 1)): an index from 0 to i. */
  function Pick(u: real, i: nat): (j: int)
    requires IsRoll(u)
    ensures 0 <= j <= i
  {
    var w := (i + 1) as real;
    var x := u * w;
    assert 0.0 <= x < w by {
      assert (1.0 - u) * w > 0.0;
      assert (1.0 - u) * w == w - u * w;
    }
    x.Floor
  }

  /** Every index 0..i is the pick of some roll. */
  lemma PickReaches(i: nat, j: int) returns (u: real)
    requires 0 <= j <= i
    ensures IsRoll(u) && Pick(u, i) == j
  {
    u := j as real / (i + 1) as real;
    assert u * (i + 1) as real == j as real;
  }

  /** shuffle: at step i (from the last index down to 1) swap item i with
      the item at the picked index j <= i; items from i on are final after
      that step, so the result is the shuffled prefix followed by item i. */
  function Shuffle<T>(arr: seq<T>, us: seq<real>): (out: seq<T>)
    requires Rolls(us, |arr|)
    decreases |arr|
    ensures |out| == |arr|
  {
    if |arr| <= 1 then arr
    else
      var i := |arr| - 1;
      var j := Pick(us[0], i);
      var swapped := arr[i := arr[j]][j := arr[i]];
      Shuffle(swapped[..i], us[1..]) + [swapped[i]]
  }

  /** Sequences with the same multiset of items have the same items. */
  lemma SameItems<T>(a: seq<T>, b: seq<T>)
    requires multiset(a) == multiset(b)
    ensures forall x :: x in a <==> x in b
  {
    forall x
      ensures x in a <==> x in b
    {
      assert x in a <==> x in multiset(a);
      assert x in b <==> x in multiset(b);
    }
  }

  /** Swapping two items keeps the multiset of items. */
  lemma SwapPermutes<T>(arr: seq<T>, i: int, j: int)
    requires 0 <= i < |arr| && 0 <= j < |arr|
    ensures multiset(arr[i := arr[j]][j := arr[i]]) == multiset(arr)
  {
  }

  /** The shuffle returns a permutation of its input. */
  lemma {:induction false} ShufflePermutes<T>(arr: seq<T>, us: seq<real>)
    requires Rolls(us, |arr|)
    decreases |arr|
    ensures |Shuffle(arr, us)| == |arr| && multiset(Shuffle(arr, us)) == multiset(arr)
  {
    if |arr| > 1 {
      var i := |arr| - 1;
      var j := Pick(us[0], i);
      var swapped := arr[i := arr[j]][j := arr[i]];
      SwapPermutes(arr, i, j);
      ShufflePermutes(swapped[..i], us[1..]);
      assert swapped == swapped[..i] + [swapped[i]];
    }
  }

  lemma Cancel<T>(a: multiset<T>, b: multiset<T>, x: T)
    requires a + multiset{x} == b + multiset{x}
    ensures a == b
  {
    forall y
      ensures a[y] == b[y]
    {
      assert (a + multiset{x})[y] == (b + multiset{x})[y];
    }
  }

  /** Putting the item that should end up last at the end leaves a
      prefix holding exactly the items the target's prefix holds. */
  lemma SwapPrefix<T>(arr: seq<T>, p: seq<T>, j: int)
    requires multiset(p) == multiset(arr) && |p| == |arr| > 1
    requires 0 <= j < |arr| && arr[j] == p[|arr| - 1]
    ensures multiset(arr[|arr| - 1 := arr[j]][j := arr[|arr| - 1]][..|arr| - 1]) == multiset(p[..|arr| - 1])
  {
    var i := |arr| - 1;
    var swapped := arr[i := arr[j]][j := arr[i]];
    SwapPermutes(arr, i, j);
    assert swapped == swapped[..i] + [swapped[i]];
    assert p == p[..i] + [p[i]];
    assert multiset(swapped[..i]) + multiset{p[i]} == multiset(p[..i]) + multiset{p[i]} by {
      assert multiset(swapped) == multiset(swapped[..i]) + multiset{swapped[i]};
      assert multiset(p) == multiset(p[..i]) + multiset{p[i]};
    }
    Cancel(multiset(swapped[..i]), multiset(p[..i]), p[i]);
  }

  /** One step of the shuffle with the first roll fixed. */
  lemma ShuffleStep<T>(arr: seq<T>, u: real, rest: seq<real>)
    requires |arr| > 1 && IsRoll(u) && Rolls(rest, |arr| - 1)
    ensures Rolls([u] + rest, |arr|)
    ensures
      var i, j := |arr| - 1, Pick(u, |arr| - 1);
      Shuffle(arr, [u] + rest) == Shuffle(arr[i := arr[j]][j := arr[i]][..i], rest) + [arr[j]]
  {
    var us := [u] + rest;
    assert us[0] == u && us[1..] == rest;
    assert forall k :: 1 <= k < |us| ==> us[k] == rest[k - 1];
  }

  /** Every permutation of the input is the shuffle of some rolls. */
  lemma {:induction false} ShuffleReaches<T>(arr: seq<T>, p: seq<T>) returns (us: seq<real>)
    requires multiset(p) == multiset(arr)
    decreases |arr|
    ensures Rolls(us, |arr|) && Shuffle(arr, us) == p
  {
    assert |p| == |multiset(p)| == |arr|;
    if |arr| <= 1 {
      us := [];
      if |arr| == 1 {
        assert arr[0] in multiset(p);
        assert p == [arr[0]];
      }
    } else {
      var i := |arr| - 1;
      assert p[i] in multiset(arr);
      var j :| 0 <= j < |arr| && arr[j] == p[i];
      var u := PickReaches(i, j);
      SwapPrefix(arr, p, j);
      var rest := ShuffleReaches(arr[i := arr[j]][j := arr[i]][..i], p[..i]);
      ShuffleStep(arr, u, rest);
      us := [u] + rest;
      assert p == p[..i] + [p[i]];
    }
  }
}

=== FILE: singles.dfy ===
/** The two placing techniques: naked singles (a cell with one candidate) and
    hidden singles (a digit with one possible cell in a unit). Each pass
    scans in the source's order and places as it goes, so later cells see
    the candidates earlier placements left. */
module Singles {
  import opened Grid
  import opened Units
  import opened Telemetry
  import opened Candidates
  import opened Engine
  import opened Scans
  import opened Deductions

  /** An empty cell of s whose candidate set has exactly one digit. */
  ghost predicate NakedSingleAt(s: State, r: int, c: int)
    requires Good(s)
  {
    InBounds(r, c) && s.grid[r][c] == 0 && |s.cand[r][c]| == 1
  }

  /** No empty cell has exactly one candidate. */
  ghost predicate NoNakedSingle(s: State)
    requires Good(s)
  {
    forall r, c :: InBounds(r, c) ==> !NakedSingleAt(s, r, c)
  }

  /** techniqueNakedSingles (and realizeSinglesFromCandidates, which has the
      same body): row-major, every empty cell with a single candidate gets
      it. A change is reported exactly when the state it started from had a
      naked single. */
  method NakedSingles(s: State) returns (t: State, changed: bool)
    requires Good(s)
    ensures Advanced(s, t, changed)
    ensures changed <==> !NoNakedSingle(s)
  {
    t, changed := s, false;
    AdvancedRefl(s);
    ghost var wr, wc := 0, 0;
    var r := 0;
    while r < 9
      invariant 0 <= r <= 9
      invariant Advanced(s, t, changed)
      invariant !changed ==> forall r2, c2 :: 0 <= r2 < r && 0 <= c2 < 9 ==> !NakedSingleAt(s, r2, c2)
      invariant changed ==> NakedSingleAt(s, wr, wc)
    {
      t, changed, wr, wc := NakedSinglesRow(s, t, changed, r, wr, wc);
      r := r + 1;
    }
  }

  /** The inner loop of NakedSingles over row r. */
  method NakedSinglesRow(s: State, t0: State, changed0: bool, r: int, ghost wr0: int, ghost wc0: int)
      returns (t: State, changed: bool, ghost wr: int, ghost wc: int)
    requires Good(s) && 0 <= r < 9 && Advanced(s, t0, changed0)
    requires !changed0 ==> forall r2, c2 :: 0 <= r2 < r && 0 <= c2 < 9 ==> !NakedSingleAt(s, r2, c2)
    requires changed0 ==> NakedSingleAt(s, wr0, wc0)
    ensures Advanced(s, t, changed)
    ensures !changed ==> forall r2, c2 :: 0 <= r2 < r + 1 && 0 <= c2 < 9 ==> !NakedSingleAt(s, r2, c2)
    ensures changed ==> NakedSingleAt(s, wr, wc)
  {
    t, changed, wr, wc := t0, changed0, wr0, wc0;
    var c := 0;
    while c < 9
      invariant 0 <= c <= 9
      invariant Advanced(s, t, changed)
      invariant !changed ==> forall r2, c2 :: InBounds(r2, c2) && (r2 < r || (r2 == r && c2 < c)) ==> !NakedSingleAt(s, r2, c2)
      invariant changed ==> NakedSingleAt(s, wr, wc)
    {
      t, changed, wr, wc := NakedSingleCell(s, t, changed, r, c, wr, wc);
      c := c + 1;
    }
  }

  /** One cell of NakedSinglesRow: place the sole candidate if there is one. */
  method NakedSingleCell(s: State, t0: State, changed0: bool, r: int, c: int, ghost wr0: int, ghost wc0: int)
      returns (t: State, changed: bool, ghost wr: int, ghost wc: int)
    requires Good(s) && InBounds(r, c) && Advanced(s, t0, changed0)
    requires !changed0 ==> forall r2, c2 :: InBounds(r2, c2) && (r2 < r || (r2 == r && c2 < c)) ==> !NakedSingleAt(s, r2, c2)
    requires changed0 ==> NakedSingleAt(s, wr0, wc0)
    ensures Advanced(s, t, changed)
    ensures !changed ==> forall r2, c2 :: InBounds(r2, c2) && (r2 < r || (r2 == r && c2 <= c)) ==> !NakedSingleAt(s, r2, c2)
    ensures changed ==> NakedSingleAt(s, wr, wc)
  {
    t, changed, wr, wc := t0, changed0, wr0, wc0;
    if t.grid[r][c] == 0 && |t.cand[r][c]| == 1 {
      if !changed {
        wr, wc := r, c;
      }
      var t' := PlaceSole(t, r, c);
      ChainedTrans(s, t, t', changed, true);
      t, changed := t', true;
    } else if !changed {
      assert !NakedSingleAt(s, r, c);
    }
  }

  /** Places the only candidate of the empty cell (r, c). */
  method PlaceSole(s: State, r: int, c: int) returns (t: State)
    requires Good(s) && InBounds(r, c) && s.grid[r][c] == 0 && |s.cand[r][c]| == 1
    ensures Advanced(s, t, true)
    ensures t.grid == SetCell(s.grid, r, c, t.grid[r][c]) && s.cand[r][c] == {t.grid[r][c]}
  {
    HasElement(s.cand[r][c]);
    var n :| n in s.cand[r][c];
    assert s.cand[r][c] == {n} by {
      if exists x :: x in s.cand[r][c] && x != n {
        var x :| x in s.cand[r][c] && x != n;
        assert {x, n} <= s.cand[r][c];
        SubsetCard(s.cand[r][c], {x, n});
      }
    }
    NakedSingleForced(s, r, c, n);
    t := Place(s, r, c, n, NakedSingle);
  }

  /** Unit (kind, idx) of s has exactly one empty cell that lists n. */
  ghost predicate HiddenSingleIn(s: State, kind: UnitKind, idx: int, n: int)
    requires Good(s)
  {
    0 <= idx < 9 && 1 <= n <= 9 && |Holders(s.grid, s.cand, kind, idx, n)| == 1
  }

  /** (kind, idx, n) comes before (ki, i, m) in the source's scan order. */
  predicate ScannedBefore(kind: UnitKind, idx: int, n: int, ki: int, i: int, m: int) {
    KindRank(kind) < ki || (KindRank(kind) == ki && (idx < i || (idx == i && n < m)))
  }

  /** Scanning one more digit of the unit keeps "no hidden single so far". */
  lemma ScanNext(s: State, kind: UnitKind, ki: int, idx: int, n: int)
    requires Good(s) && 0 <= ki < 3 && kind == Kinds[ki]
    requires forall kd, i, m :: ScannedBefore(kd, i, m, ki, idx, n) ==> !HiddenSingleIn(s, kd, i, m)
    requires !HiddenSingleIn(s, kind, idx, n)
    ensures forall kd, i, m :: ScannedBefore(kd, i, m, ki, idx, n + 1) ==> !HiddenSingleIn(s, kd, i, m)
  {
    forall kd, i, m | ScannedBefore(kd, i, m, ki, idx, n + 1)
      ensures !HiddenSingleIn(s, kd, i, m)
    {
      if !ScannedBefore(kd, i, m, ki, idx, n) {
        assert kd == Kinds[KindRank(kd)] == kind;
      }
    }
  }

  /** techniqueHiddenSingles: for every unit (rows, columns, boxes) and digit
      1..9, a digit with exactly one possible cell there is placed in it. A
      change is reported exactly when the starting state had such a unit and
      digit. */
  method HiddenSingles(s: State) returns (t: State, changed: bool)
    requires Good(s)
    ensures Advanced(s, t, changed)
    ensures changed <==> exists kind, idx, n :: HiddenSingleIn(s, kind, idx, n)
  {
    t, changed := s, false;
    AdvancedRefl(s);
    ghost var wk, wi, wn := Row, 0, 1;
    var ki := 0;
    while ki < 3
      invariant 0 <= ki <= 3
      invariant Advanced(s, t, changed)
      invariant !changed ==> forall kind, idx, n :: KindRank(kind) < ki ==> !HiddenSingleIn(s, kind, idx, n)
      invariant changed ==> HiddenSingleIn(s, wk, wi, wn)
    {
      var idx := 0;
      while idx < 9
        invariant 0 <= idx <= 9
        invariant Advanced(s, t, changed)
        invariant !changed ==> forall kind, i, n :: ScannedBefore(kind, i, n, ki, idx, 1) ==> !HiddenSingleIn(s, kind, i, n)
        invariant changed ==> HiddenSingleIn(s, wk, wi, wn)
      {
        t, changed, wk, wi, wn := HiddenSinglesUnit(s, t, changed, Kinds[ki], ki, idx, wk, wi, wn);
        idx := idx + 1;
      }
      ki := ki + 1;
    }
  }

  /** The digit loop of HiddenSingles for one unit. */
  method HiddenSinglesUnit(s: State, t0: State, changed0: bool, kind: UnitKind, ki: int, idx: int,
                           ghost wk0: UnitKind, ghost wi0: int, ghost wn0: int)
      returns (t: State, changed: bool, ghost wk: UnitKind, ghost wi: int, ghost wn: int)
    requires Good(s) && 0 <= ki < 3 && kind == Kinds[ki] && 0 <= idx < 9 && Advanced(s, t0, changed0)
    requires !changed0 ==> forall kd, i, n :: ScannedBefore(kd, i, n, ki, idx, 1) ==> !HiddenSingleIn(s, kd, i, n)
    requires changed0 ==> HiddenSingleIn(s, wk0, wi0, wn0)
    ensures Advanced(s, t, changed)
    ensures !changed ==> forall kd, i, n :: ScannedBefore(kd, i, n, ki, idx + 1, 1) ==> !HiddenSingleIn(s, kd, i, n)
    ensures changed ==> HiddenSingleIn(s, wk, wi, wn)
  {
    t, changed, wk, wi, wn := t0, changed0, wk0, wi0, wn0;
    var n := 1;
    while n <= 9
      invariant 1 <= n <= 10
      invariant Advanced(s, t, changed)
      invariant !changed ==> forall kd, i, m :: ScannedBefore(kd, i, m, ki, idx, n) ==> !HiddenSingleIn(s, kd, i, m)
      invariant changed ==> HiddenSingleIn(s, wk, wi, wn)
    {
      var ps := Holders(t.grid, t.cand, kind, idx, n);
      if |ps| == 1 {
        if !changed {
          wk, wi, wn := kind, idx, n;
        }
        HiddenSingleForced(t, kind, idx, n);
        var t' := Place(t, ps[0].r, ps[0].c, n, HiddenSingle(kind));
        ChainedTrans(s, t, t', changed, true);
        t, changed := t', true;
      } else if !changed {
        assert !HiddenSingleIn(s, kind, idx, n);
        ScanNext(s, kind, ki, idx, n);
      }
      n := n + 1;
    }
  }
}

=== FILE: solver.dfy ===
/** solveSudoku: the human-style phase first, then the backtracking fallback
    when that phase leaves an empty cell. */
module Solver {
  import opened Wrappers
  import opened Grid
  import opened Telemetry
  import opened Candidates
  import opened Engine
  import opened Search
  import opened HumanPhase

  /** solveSudoku's result: the solution (null when the fallback fails), the
      metrics, and the recorded steps, present only when explain was asked
      for. */
  datatype Solved = Solved(solution: Option<Grid>, metrics: Metrics, trace: Option<seq<Step>>)

  /** Appending the Backtracking label adds no "Single" label. */
  lemma BacktrackingNotSingle(used: seq<Technique>)
    ensures CountSingles(used + [Backtracking]) == CountSingles(used)
  {
    assert (used + [Backtracking])[..|used|] == used;
  }

  /** What the human-style phase leaves when solveSudoku starts it from
      empty metrics and a fresh recorder: a state no technique applies to,
      reached from the start by technique steps only. Summed up by what
      solveSudoku goes on to use: the grid keeps the givens and stays
      conflict-free, the trace is empty unless explain is on and then
      rebuilds the grid, one step and one "Single" label per placement, no
      backtracks and no Backtracking label are counted, and a full grid is
      left exactly as it is. */
  ghost predicate PhaseLeaves(g: Grid, explain: bool, t: State)
    requires WellFormed(g)
  {
    var ok :=
      && Good(t) && Stuck(t) && Follows(Start(g, NoMetrics, CreateRecorder(explain)), t)
      && KeepsSolutions(Start(g, NoMetrics, CreateRecorder(explain)), t)
      && WellFormed(t.grid) && Extends(g, t.grid) && (ConflictFree(g) ==> ConflictFree(t.grid))
      && t.rec.enabled == explain && (!explain ==> t.rec.steps == [])
      && (explain ==> Replay(g, t.rec.steps) == t.grid)
      && t.metrics.backtracks == 0 && t.metrics.steps == ZeroCount(g) - ZeroCount(t.grid)
      && CountSingles(t.metrics.used) == t.metrics.steps && Backtracking !in t.metrics.used
      && (ZeroFree(g) ==> t == State(g, BuildCandidates(g), NoMetrics, CreateRecorder(explain)));
    ok
  }

  /** humanSolvePhase from empty metrics and a fresh recorder: the state it
      leaves is stuck and follows from the start, and on a full grid is the
      start. */
  method RunPhase(g: Grid, explain: bool) returns (t: State)
    requires WellFormed(g)
    ensures Good(t) && Stuck(t) && Follows(Start(g, NoMetrics, CreateRecorder(explain)), t)
    ensures KeepsSolutions(Start(g, NoMetrics, CreateRecorder(explain)), t)
    ensures ZeroFree(g) ==> t == Start(g, NoMetrics, CreateRecorder(explain))
  {
    if ZeroFree(g) {
      FullGridNoCandidates(g);
    }
    t := HumanSolvePhase(g, NoMetrics, CreateRecorder(explain));
  }

  /** The human-style phase as solveSudoku starts it. */
  method HumanPart(g: Grid, explain: bool) returns (t: State)
    requires WellFormed(g)
    ensures PhaseLeaves(g, explain, t)
  {
    t := RunPhase(g, explain);
    assert t.rec.steps[0..] == t.rec.steps;
  }

  /** What solveSudoku does once the human-style phase has left state t:
      report the grid when it is full, and otherwise run solveBacktracking,
      add its steps and backtracks and push the Backtracking label. The
      trace is attached when the recorder is enabled. */
  function Conclude(t: State): (res: Solved)
    requires WellFormed(t.grid)
    ensures res.trace.Some? <==> t.rec.enabled
    ensures t.rec.enabled ==> res.trace.value == t.rec.steps
    ensures ZeroFree(t.grid) ==> res.solution == Some(t.grid) && res.metrics == t.metrics
    ensures !ZeroFree(t.grid) ==>
      var b := SolveBacktracking(t.grid);
      && res.solution == b.solution
      && res.metrics == Metrics(t.metrics.steps + b.steps, t.metrics.backtracks + b.backtracks,
        t.metrics.used + [Backtracking])
  {
    var trace := if t.rec.enabled then Some(t.rec.steps) else None;
    if FindEmpty(t.grid).None? then
      assert Extends(t.grid, t.grid);
      Solved(Some(t.grid), t.metrics, trace)
    else
      var b := SolveBacktracking(t.grid);
      Solved(b.solution, Metrics(t.metrics.steps + b.steps, t.metrics.backtracks + b.backtracks, t.metrics.used + [Backtracking]), trace)
  }

  /** What solveSudoku(grid, { explain }) promises of its result alone: a
      trace exactly when explain is on; a returned solution is a full grid
      keeping the givens, and solves a conflict-free puzzle; no more
      backtracks than steps and no more "Single" labels than steps; and an
      already full grid comes back unchanged with empty metrics. */
  ghost predicate Answers(g: Grid, explain: bool, res: Solved)
    requires WellFormed(g)
  {
    && (res.trace.Some? <==> explain)
    && (res.solution.Some? ==>
      var v := res.solution.value;
      WellFormed(v) && ZeroFree(v) && Extends(g, v) && (ConflictFree(g) ==> Solves(v, g)))
    && 0 <= res.metrics.backtracks <= res.metrics.steps
    && CountSingles(res.metrics.used) <= res.metrics.steps
    && (ZeroFree(g) ==> res == Solved(Some(g), NoMetrics, if explain then Some([]) else None))
    && ((exists S :: Solves(S, g)) ==> res.solution.Some?)
  }

  /** A puzzle with a solution has no clashing givens. */
  lemma SolvableConflictFree(g: Grid, S: Grid)
    requires WellFormed(g) && Solves(S, g)
    ensures ConflictFree(g)
  {
  }

  /** Every solution of the puzzle survives the human-style phase: it
      still solves the grid the phase leaves. */
  lemma PhaseKeeps(g: Grid, explain: bool, t: State, S: Grid)
    requires WellFormed(g) && PhaseLeaves(g, explain, t) && Solves(S, g)
    ensures Solves(S, t.grid)
  {
    StartAdmits(g, NoMetrics, CreateRecorder(explain), S);
  }

  /** What solveSudoku(grid, { explain }) promises, with `phase` the state
      the human-style phase leaves (PhaseLeaves: stuck, and reached from the
      start by technique steps): Answers, and besides, the trace is the
      phase's recorded steps, whose placements rebuild its grid; the labels
      are the phase's, with Backtracking pushed after them exactly when its
      grid still has an empty cell, and then the solution is the fallback's
      and its steps and backtracks are added to the phase's one step per
      placement; otherwise that grid is the solution; and on a
      conflict-free puzzle the fallback fails only when no solution extends
      the grid it starts from. */
  ghost predicate SolveSpec(g: Grid, explain: bool, res: Solved, phase: State)
    requires WellFormed(g)
  {
    var human := phase.grid;
    && Answers(g, explain, res)
    && PhaseLeaves(g, explain, phase) && WellFormed(human)
    && res.trace == (if explain then Some(phase.rec.steps) else None)
    && (explain ==> Replay(g, res.trace.value) == human)
    && res.metrics.used == (if ZeroFree(human) then phase.metrics.used else phase.metrics.used + [Backtracking])
    && ((Backtracking in res.metrics.used) <==> !ZeroFree(human))
    && (ZeroFree(human) ==>
      && res.solution == Some(human)
      && res.metrics.backtracks == 0 && res.metrics.steps == ZeroCount(g))
    && (!ZeroFree(human) ==>
      var b := SolveBacktracking(human);
      && |res.metrics.used| > 0 && res.metrics.used[|res.metrics.used| - 1] == Backtracking
      && res.solution == b.solution
      && res.metrics.steps == ZeroCount(g) - ZeroCount(human) + b.steps
      && res.metrics.backtracks == b.backtracks)
    && (ConflictFree(g) && !ZeroFree(human) ==> (res.solution.Some? <==> exists s :: Solves(s, human)))
  }

  /** solveSudoku(grid, { explain }). The ghost `phase` is the state the
      human-style phase leaves. */
  method SolveSudoku(g: Grid, explain: bool) returns (res: Solved, ghost phase: State)
    requires WellFormed(g)
    ensures Answers(g, explain, res)
    ensures SolveSpec(g, explain, res, phase)
  {
    var t := HumanPart(g, explain);
    phase := t;
    ZeroCountFacts(t.grid);
    res := Conclude(t);
    BacktrackingNotSingle(t.metrics.used);
    if res.solution.Some? {
      ExtendsTransitive(g, t.grid, res.solution.value);
    }
    if ConflictFree(g) && !ZeroFree(t.grid) {
      SolvedIffSolvable(t.grid);
    }
    if S :| Solves(S, g) {
      SolvableConflictFree(g, S);
      PhaseKeeps(g, explain, t, S);
      if !ZeroFree(t.grid) {
        SolvedIffSolvable(t.grid);
      }
    }
  }
}

=== FILE: telemetry.dfy ===
/** What a solve reports besides the grid: the technique labels pushed onto
    `metrics.techniquesUsed`, the metrics record, and the step recorder of
    createRecorder together with the grid its recorded placements rebuild. */
module Telemetry {
  import opened Grid
  import opened Units

  /** The labels the solver pushes; the unit-specific ones carry the unit
      kind that the source writes in parentheses. */
  datatype Technique =
    | NakedSingle
    | HiddenSingle(kind: UnitKind)
    | LockedPointing
    | LockedClaiming
    | NakedPair(kind: UnitKind)
    | NakedTriple(kind: UnitKind)
    | HiddenPair(kind: UnitKind)
    | HiddenTriple(kind: UnitKind)
    | XWingRow
    | XWingCol
    | PlacementPropagation
    | Backtracking
  {
    /** The label contains the word "Single" (LabelWords). */
    predicate IsSingle() {
      NakedSingle? || HiddenSingle?
    }

    /** The label contains the word "Pair" (LabelWords). */
    predicate IsPair() {
      NakedPair? || HiddenPair?
    }

    /** A label an elimination pushes: neither a single's nor the
        fallback's. */
    predicate IsElimination() {
      !IsSingle() && !Backtracking?
    }

    /** The label text as the source spells it. */
    function Name(): string {
      match this
      case NakedSingle => "Naked Single"
      case HiddenSingle(k) => "Hidden Single (" + KindName(k) + ")"
      case LockedPointing => "Locked Candidates (Pointing)"
      case LockedClaiming => "Locked Candidates (Claiming)"
      case NakedPair(k) => "Naked Pair (" + KindName(k) + ")"
      case NakedTriple(k) => "Naked Triple (" + KindName(k) + ")"
      case HiddenPair(k) => "Hidden Pair (" + KindName(k) + ")"
      case HiddenTriple(k) => "Hidden Triple (" + KindName(k) + ")"
      case XWingRow => "X-Wing (row)"
      case XWingCol => "X-Wing (col)"
      case PlacementPropagation => "Placement Propagation"
      case Backtracking => "Backtracking"
    }
  }

  function KindName(k: UnitKind): string {
    match k
    case Row => "row"
    case Col => "col"
    case Box => "box"
  }

  /** w occurs in s at index i. */
  predicate OccursAt(s: string, w: string, i: nat) {
    i + |w| <= |s| && s[i..i + |w|] == w
  }

  /** String.prototype.includes: w occurs somewhere in s. */
  predicate Includes(s: string, w: string) {
    exists i: nat :: i <= |s| && OccursAt(s, w, i)
  }

  /** An occurrence of w holds w's first character. */
  lemma FirstCharIn(s: string, w: string)
    requires |w| > 0 && Includes(s, w)
    ensures w[0] in s
  {
    var i: nat :| i <= |s| && OccursAt(s, w, i);
    assert s[i] == s[i..i + |w|][0];
  }

  /** A word whose first character s lacks does not occur in s. */
  lemma Lacks(s: string, w: string)
    requires |w| > 0 && w[0] !in s
    ensures !Includes(s, w)
  {
    if Includes(s, w) {
      FirstCharIn(s, w);
    }
  }

  /** An occurrence of w starts with w's first two characters. */
  lemma FirstTwo(s: string, w: string, i: nat)
    requires |w| >= 2 && OccursAt(s, w, i)
    ensures s[i] == w[0] && s[i + 1] == w[1]
  {
    assert s[i..i + |w|][0] == s[i] && s[i..i + |w|][1] == s[i + 1];
  }

  /** No "P" of s is followed by "a". */
  lemma NoPa(s: string)
    requires forall i :: 0 <= i < |s| - 1 && s[i] == 'P' ==> s[i + 1] != 'a'
    ensures !Includes(s, "Pair")
  {
    if Includes(s, "Pair") {
      var i: nat :| i <= |s| && OccursAt(s, "Pair", i);
      FirstTwo(s, "Pair", i);
    }
  }

  lemma SingleNamed(t: Technique)
    requires t.IsSingle()
    ensures Includes(t.Name(), "Single")
  {
    var s := t.Name();
    if t.NakedSingle? {
      assert OccursAt(s, "Single", 6);
    } else {
      assert OccursAt(s, "Single", 7);
    }
  }

  /** Unit kind names are lower-case. */
  lemma KindLetters(k: UnitKind)
    ensures 'S' !in KindName(k) && 'P' !in KindName(k)
  {
  }

  /** The pair and triple labels spell no "S". */
  lemma TupleNoS(t: Technique)
    requires t.NakedPair? || t.NakedTriple? || t.HiddenPair? || t.HiddenTriple?
    ensures 'S' !in t.Name()
  {
    KindLetters(t.kind);
  }

  /** Only a single's label spells an "S". */
  lemma NoS(t: Technique)
    requires !t.IsSingle()
    ensures 'S' !in t.Name()
  {
    if t.NakedPair? || t.NakedTriple? || t.HiddenPair? || t.HiddenTriple? {
      TupleNoS(t);
    }
  }

  lemma NotSingleNamed(t: Technique)
    requires !t.IsSingle()
    ensures !Includes(t.Name(), "Single")
  {
    NoS(t);
    Lacks(t.Name(), "Single");
  }

  lemma PairNamed(t: Technique)
    requires t.IsPair()
    ensures Includes(t.Name(), "Pair")
  {
    var s := t.Name();
    if t.NakedPair? {
      assert OccursAt(s, "Pair", 6);
    } else {
      assert OccursAt(s, "Pair", 7);
    }
  }

  lemma PointingNotPair()
    ensures !Includes(LockedPointing.Name(), "Pair")
  {
    NoPa(LockedPointing.Name());
  }

  lemma PropagationNotPair()
    ensures !Includes(PlacementPropagation.Name(), "Pair")
  {
    NoPa(PlacementPropagation.Name());
  }

  /** Besides the pairs, only the pointing and the propagation labels spell
      a "P". */
  lemma NoP(t: Technique)
    requires !t.IsPair() && !t.LockedPointing? && !t.PlacementPropagation?
    ensures 'P' !in t.Name()
  {
    match t
    case HiddenSingle(k) => KindLetters(k);
    case NakedTriple(k) => KindLetters(k);
    case HiddenTriple(k) => KindLetters(k);
    case _ =>
  }

  lemma NotPairNamed(t: Technique)
    requires !t.IsPair()
    ensures !Includes(t.Name(), "Pair")
  {
    if t.LockedPointing? {
      PointingNotPair();
    } else if t.PlacementPropagation? {
      PropagationNotPair();
    } else {
      NoP(t);
      Lacks(t.Name(), "Pair");
    }
  }

  /** The score's singles and pairs counts test the label text for the
      words "Single" and "Pair"; the label kinds say the same. */
  lemma LabelWords(t: Technique)
    ensures t.IsSingle() <==> Includes(t.Name(), "Single")
    ensures t.IsPair() <==> Includes(t.Name(), "Pair")
  {
    if t.IsSingle() { SingleNamed(t); } else { NotSingleNamed(t); }
    if t.IsPair() { PairNamed(t); } else { NotPairNamed(t); }
  }

  /** One `{ r, c, n }` entry of a recorded step. */
  datatype Move = Move(r: int, c: int, n: int)

  datatype Step = Step(technique: Technique, placements: seq<Move>, eliminations: seq<Move>)

  /** The recorder object: whether it records, and the steps so far. */
  datatype Recorder = Recorder(enabled: bool, steps: seq<Step>)

  /** The solve metrics: placements counted, backtracks, and the labels in
      the order they were pushed. */
  datatype Metrics = Metrics(steps: int, backtracks: int, used: seq<Technique>)

  const NoMetrics := Metrics(0, 0, [])

  /** createRecorder: a recorder with no steps. */
  function CreateRecorder(enabled: bool): (rec: Recorder)
    ensures rec.enabled == enabled && rec.steps == []
  {
    Recorder(enabled, [])
  }

  /** record: a disabled recorder ignores the call, an enabled one appends
      the step after every earlier one. */
  function Record(rec: Recorder, step: Step): (out: Recorder)
    ensures out.enabled == rec.enabled
    ensures rec.enabled ==> out.steps == rec.steps + [step]
    ensures !rec.enabled ==> out == rec
  {
    if rec.enabled then rec.(steps := rec.steps + [step]) else rec
  }

  /** A disabled recorder stays empty whatever is recorded into it. */
  lemma {:induction false} DisabledStaysEmpty(steps: seq<Step>)
    ensures RecordAll(CreateRecorder(false), steps).steps == []
  {
    if steps != [] {
      DisabledStaysEmpty(steps[..|steps| - 1]);
    }
  }

  /** Recording a list of steps one after another. */
  function RecordAll(rec: Recorder, steps: seq<Step>): Recorder
  {
    if steps == [] then rec else Record(RecordAll(rec, steps[..|steps| - 1]), steps[|steps| - 1])
  }

  /** The number of labels containing "Single", counted from the end so that
      pushing a label adds at most one. */
  function CountSingles(used: seq<Technique>): (n: nat)
    ensures n <= |used|
  {
    if used == [] then 0
    else CountSingles(used[..|used| - 1]) + (if used[|used| - 1].IsSingle() then 1 else 0)
  }

  /** The number of labels containing "Pair". */
  function CountPairs(used: seq<Technique>): (n: nat)
    ensures n <= |used|
  {
    if used == [] then 0
    else CountPairs(used[..|used| - 1]) + (if used[|used| - 1].IsPair() then 1 else 0)
  }

  /** Writing one recorded placement into a grid; entries that are not a
      cell and a value leave the grid alone. */
  function ApplyMove(g: Grid, m: Move): (h: Grid)
    requires WellFormed(g)
    ensures WellFormed(h)
  {
    if InBounds(m.r, m.c) && 0 <= m.n <= 9 then SetCell(g, m.r, m.c, m.n) else g
  }

  function ApplyMoves(g: Grid, ms: seq<Move>): (h: Grid)
    requires WellFormed(g)
    decreases |ms|
    ensures WellFormed(h)
  {
    if ms == [] then g else ApplyMoves(ApplyMove(g, ms[0]), ms[1..])
  }

  /** The grid obtained by carrying out the recorded placements of steps, in
      order, starting from g; eliminations do not touch the grid. */
  function Replay(g: Grid, steps: seq<Step>): (h: Grid)
    requires WellFormed(g)
    decreases |steps|
    ensures WellFormed(h)
  {
    if steps == [] then g else ApplyMoves(Replay(g, steps[..|steps| - 1]), steps[|steps| - 1].placements)
  }

  /** Replaying two runs of steps is replaying the first and then the
      second. */
  lemma {:induction false} ReplayConcat(g: Grid, a: seq<Step>, b: seq<Step>)
    requires WellFormed(g)
    ensures Replay(g, a + b) == Replay(Replay(g, a), b)
  {
    if b == [] {
      assert a + b == a;
    } else {
      var b' := b[..|b| - 1];
      assert (a + b)[..|a + b| - 1] == a + b';
      assert (a + b)[|a + b| - 1] == b[|b| - 1];
      ReplayConcat(g, a, b');
    }
  }

  /** Steps without placements replay to the grid they start from. */
  lemma {:induction false} ReplayNoPlacements(g: Grid, steps: seq<Step>)
    requires WellFormed(g)
    requires forall i :: 0 <= i < |steps| ==> steps[i].placements == []
    ensures Replay(g, steps) == g
  {
    if steps != [] {
      ReplayNoPlacements(g, steps[..|steps| - 1]);
    }
  }
}

=== FILE: tuples.dfy ===
/** techniqueNakedTuples: in a unit, when exactly `size` empty cells share
    the same candidate list of `size` digits, those digits are struck from
    every other empty cell of the unit. The phase runs it with size 2
    (naked pairs) and size 3 (naked triples). Groups are keyed by the
    candidate list, which is always ascending, so the set of its digits
    identifies the key string exactly. */
module Tuples {
  import opened Grid
  import opened Units
  import opened Telemetry
  import opened Candidates
  import opened Engine
  import opened Scans
  import opened Deductions

  /** The listed cells whose candidate set is exactly K, in order. */
  function Matching(cells: seq<Pos>, cand: CandGrid, K: set<int>): (m: seq<Pos>)
    requires Shaped(cand) && AllInBounds(cells)
    decreases |cells|
    ensures forall p :: p in m <==> p in cells && cand[p.r][p.c] == K
  {
    if cells == [] then []
    else
      var front, last := cells[..|cells| - 1], cells[|cells| - 1];
      assert cells == front + [last];
      Matching(front, cand, K) + (if cand[last.r][last.c] == K then [last] else [])
  }

  /** The (candidate set, cell) entries the grouping loop pushes: the listed
      cells whose candidate list has between 2 and size digits. */
  function TupleItems(cells: seq<Pos>, cand: CandGrid, size: int): (items: seq<Item<set<int>, Pos>>)
    requires Shaped(cand) && AllInBounds(cells)
    decreases |cells|
    ensures forall i :: 0 <= i < |items| ==>
      items[i].value in cells && InBounds(items[i].value.r, items[i].value.c) && items[i].key == cand[items[i].value.r][items[i].value.c] && 2 <= |items[i].key| <= size
  {
    if cells == [] then []
    else
      var front, last := cells[..|cells| - 1], cells[|cells| - 1];
      var k := cand[last.r][last.c];
      TupleItems(front, cand, size) + (if 2 <= |k| <= size then [Item(k, last)] else [])
  }

  /** For a key of an admissible size, the group collects exactly the cells
      whose candidate set is that key. */
  lemma {:induction false} MembersMatch(cells: seq<Pos>, cand: CandGrid, size: int, K: set<int>)
    requires Shaped(cand) && AllInBounds(cells) && 2 <= |K| <= size
    decreases |cells|
    ensures MembersOf(TupleItems(cells, cand, size), K) == Matching(cells, cand, K)
  {
    if cells != [] {
      var front, last := cells[..|cells| - 1], cells[|cells| - 1];
      MembersMatch(front, cand, size, K);
      var a := TupleItems(front, cand, size);
      var k := cand[last.r][last.c];
      if 2 <= |k| <= size {
        var items := a + [Item(k, last)];
        assert TupleItems(cells, cand, size) == items;
        assert items[..|items| - 1] == a;
      } else {
        assert TupleItems(cells, cand, size) == a;
        assert k != K;
      }
    }
  }

  /** In u, K has `size` digits, exactly `size` of the listed cells have K
      as their candidate set, and some other listed cell still shares a
      digit with K. */
  ghost predicate TupleIn(u: State, cells: seq<Pos>, K: set<int>, size: int)
    requires Good(u) && AllInBounds(cells)
  {
    && 2 <= size && |K| == size && |Matching(cells, u.cand, K)| == size
    && exists i :: 0 <= i < |cells| && u.cand[cells[i].r][cells[i].c] != K && u.cand[cells[i].r][cells[i].c] * K != {}
  }

  /** A naked tuple of the given size with an elimination in unit
      (kind, idx) of s. */
  ghost predicate NakedTupleAt(s: State, kind: UnitKind, idx: int, K: set<int>, size: int)
    requires Good(s)
  {
    0 <= idx < 9 && TupleIn(s, EmptyFrom(s.grid, kind, idx, 0), K, size)
  }

  /** `Naked Pair (type)` for size 2, `Naked Triple (type)` otherwise. */
  function TupleLabel(kind: UnitKind, size: int): (tech: Technique)
    ensures tech.IsElimination()
  {
    if size == 2 then NakedPair(kind) else NakedTriple(kind)
  }

  /** Striking a set only changes a cell's list when they share a digit. */
  lemma StrikeChanges(before: set<int>, K: set<int>)
    ensures |before - K| != |before| <==> before * K != {}
  {
    SubsetCard(before, before - K);
    assert before - K == before <==> before * K == {};
  }

  /** Matching keeps the listed order, so it repeats no cell when the list
      repeats none. */
  lemma {:induction false} MatchingDistinct(cells: seq<Pos>, cand: CandGrid, K: set<int>)
    requires Shaped(cand) && AllInBounds(cells) && Distinct(cells)
    decreases |cells|
    ensures Distinct(Matching(cells, cand, K))
  {
    if cells != [] {
      var front, last := cells[..|cells| - 1], cells[|cells| - 1];
      assert Distinct(front) && AllInBounds(front) by {
        assert forall i :: 0 <= i < |front| ==> front[i] == cells[i];
      }
      MatchingDistinct(front, cand, K);
      assert last !in front;
    }
  }

  /** In S, no listed cell among the first i that is not a member takes a
      digit of K. */
  ghost predicate Misses(S: Grid, cells: seq<Pos>, members: seq<Pos>, K: set<int>, i: int)
    requires WellFormed(S) && AllInBounds(cells) && 0 <= i <= |cells|
  {
    forall j :: 0 <= j < i && cells[j] !in members ==> S[cells[j].r][cells[j].c] !in K
  }

  /** One of the first i listed non-members lists a digit of K. */
  ghost predicate Meets(a: CandGrid, cells: seq<Pos>, members: seq<Pos>, K: set<int>, i: int)
    requires Shaped(a) && AllInBounds(cells) && 0 <= i <= |cells|
  {
    exists j :: 0 <= j < i && cells[j] !in members && a[cells[j].r][cells[j].c] * K != {}
  }

  /** Every solution of v in which the first i listed non-members avoid K
      survives in t. */
  ghost predicate Spared(v: State, t: State, cells: seq<Pos>, members: seq<Pos>, K: set<int>, i: int)
    requires AllInBounds(cells) && 0 <= i <= |cells|
  {
    forall S :: Admits(v, S) && Misses(S, cells, members, K, i) ==> Admits(t, S)
  }

  /** b is a with K struck from each of the first i listed cells that is
      not a member. */
  ghost predicate StruckFrom(a: CandGrid, b: CandGrid, cells: seq<Pos>, members: seq<Pos>, K: set<int>, i: int)
    requires Shaped(a) && Shaped(b) && 0 <= i <= |cells|
  {
    forall r, c :: InBounds(r, c) ==> b[r][c] == if Pos(r, c) in cells[..i] && Pos(r, c) !in members then a[r][c] - K else a[r][c]
  }

  /** Moving past a listed cell that the loop leaves alone: a member, or a
      cell already free of K. */
  lemma StruckSkip(a: CandGrid, b: CandGrid, cells: seq<Pos>, members: seq<Pos>, K: set<int>, i: int)
    requires Shaped(a) && Shaped(b) && AllInBounds(cells) && 0 <= i < |cells| && StruckFrom(a, b, cells, members, K, i)
    requires cells[i] in members || b[cells[i].r][cells[i].c] * K == {}
    ensures StruckFrom(a, b, cells, members, K, i + 1)
  {
    assert cells[..i + 1] == cells[..i] + [cells[i]];
    var x := cells[i];
    if x !in members && x !in cells[..i] {
      assert Pos(x.r, x.c) == x;
      assert b[x.r][x.c] == a[x.r][x.c];
      assert b[x.r][x.c] * K == {};
      assert a[x.r][x.c] - K == a[x.r][x.c] by {
        forall y | y in a[x.r][x.c]
          ensures y !in K
        {
          assert y !in b[x.r][x.c] * K;
        }
      }
    }
  }

  /** A listed cell still sharing a digit with K shared it in a. */
  lemma StruckMeets(a: CandGrid, b: CandGrid, cells: seq<Pos>, members: seq<Pos>, K: set<int>, i: int)
    requires Shaped(a) && Shaped(b) && AllInBounds(cells) && 0 <= i < |cells| && StruckFrom(a, b, cells, members, K, i)
    ensures b[cells[i].r][cells[i].c] * K <= a[cells[i].r][cells[i].c] * K
  {
  }

  /** Moving past a listed non-member cell whose list loses K. */
  lemma StruckStep(a: CandGrid, b: CandGrid, b1: CandGrid, cells: seq<Pos>, members: seq<Pos>, K: set<int>, i: int)
    requires Shaped(a) && Shaped(b) && AllInBounds(cells) && 0 <= i < |cells| && StruckFrom(a, b, cells, members, K, i)
    requires cells[i] !in members
    requires b1 == b[cells[i].r := b[cells[i].r][cells[i].c := b[cells[i].r][cells[i].c] - K]]
    ensures Shaped(b1) && StruckFrom(a, b1, cells, members, K, i + 1)
  {
    var x := cells[i];
    assert cells[..i + 1] == cells[..i] + [cells[i]];
    UpdateFrame(b, x.r, x.c, b[x.r][x.c] - K);
    assert b1[x.r][x.c] == b[x.r][x.c] - K;
  }

  /** The elimination loop of one group: every listed cell not among the
      members loses the key's digits; each cell whose list shrank pushes
      the label and records every digit of the key. Every solution of v in
      which the non-members avoid K survives. */
  method Strike(v: State, cells: seq<Pos>, members: seq<Pos>, K: set<int>, nums: seq<int>, tech: Technique)
      returns (t: State, d: bool)
    requires Good(v) && AllInBounds(cells) && tech.IsElimination()
    requires forall i :: 0 <= i < |cells| ==> v.grid[cells[i].r][cells[i].c] == 0
    ensures Progress(v, t, d) && t.grid == v.grid
    ensures d <==> exists i :: 0 <= i < |cells| && cells[i] !in members && v.cand[cells[i].r][cells[i].c] * K != {}
    ensures forall r, c :: InBounds(r, c) ==>
      t.cand[r][c] == if Pos(r, c) in cells && Pos(r, c) !in members then v.cand[r][c] - K else v.cand[r][c]
    ensures forall S :: Admits(v, S) && Misses(S, cells, members, K, |cells|) ==> Admits(t, S)
  {
    t, d := v, false;
    AdvancedRefl(v);
    var i := 0;
    while i < |cells|
      invariant 0 <= i <= |cells|
      invariant Progress(v, t, d) && t.grid == v.grid
      invariant d <==> Meets(v.cand, cells, members, K, i)
      invariant StruckFrom(v.cand, t.cand, cells, members, K, i)
      invariant Spared(v, t, cells, members, K, i)
    {
      t, d := StrikeCell(v, t, d, cells, members, K, nums, tech, i);
      i := i + 1;
    }
    assert cells[..i] == cells;
  }

  /** One entry of Strike's loop. */
  method StrikeCell(v: State, t0: State, d0: bool, cells: seq<Pos>, members: seq<Pos>, K: set<int>, nums: seq<int>, tech: Technique, i: int)
      returns (t: State, d: bool)
    requires Good(v) && AllInBounds(cells) && tech.IsElimination() && 0 <= i < |cells|
    requires forall i :: 0 <= i < |cells| ==> v.grid[cells[i].r][cells[i].c] == 0
    requires Progress(v, t0, d0) && t0.grid == v.grid
    requires d0 <==> Meets(v.cand, cells, members, K, i)
    requires StruckFrom(v.cand, t0.cand, cells, members, K, i)
    requires Spared(v, t0, cells, members, K, i)
    ensures Progress(v, t, d) && t.grid == v.grid
    ensures d <==> Meets(v.cand, cells, members, K, i + 1)
    ensures StruckFrom(v.cand, t.cand, cells, members, K, i + 1)
    ensures Spared(v, t, cells, members, K, i + 1)
  {
    t, d := t0, d0;
    var x := cells[i];
    if x !in members {
      var before := t.cand[x.r][x.c];
      var after := before - K;
      StrikeChanges(before, K);
      if |after| != |before| {
        StruckMeets(v.cand, t.cand, cells, members, K, i);
        assert cells[i] !in members && v.cand[cells[i].r][cells[i].c] * K != {};
        var t1 := Narrow(t, x.r, x.c, after, tech, MovesAt(x.r, x.c, nums));
        StruckStep(v.cand, t.cand, t1.cand, cells, members, K, i);
        StrikeSurvivors(v, t, t1, cells, members, K, i);
        ProgressTrans(v, t, t1, d, true);
        t, d := t1, true;
      } else {
        StruckSkip(v.cand, t.cand, cells, members, K, i);
        assert !d ==> v.cand[x.r][x.c] * K == {};
      }
    } else {
      StruckSkip(v.cand, t.cand, cells, members, K, i);
    }
    if !d {
      assert forall S :: Admits(v, S) && Misses(S, cells, members, K, i + 1) ==> Misses(S, cells, members, K, i);
    }
  }

  /** One strike of the loop keeps every solution whose non-members avoid
      K over one more entry. */
  lemma StrikeSurvivors(v: State, t: State, t1: State, cells: seq<Pos>, members: seq<Pos>, K: set<int>, i: int)
    requires Good(v) && Good(t) && AllInBounds(cells) && 0 <= i < |cells| && cells[i] !in members
    requires t.grid == v.grid && v.grid[cells[i].r][cells[i].c] == 0
    requires Spared(v, t, cells, members, K, i)
    requires KeepsAt(t, t1, cells[i].r, cells[i].c, t.cand[cells[i].r][cells[i].c] - K)
    ensures Spared(v, t1, cells, members, K, i + 1)
  {
    var x := cells[i];
    forall S | Admits(v, S) && Misses(S, cells, members, K, i + 1)
      ensures Admits(t1, S)
    {
      assert Misses(S, cells, members, K, i);
      assert Admits(t, S);
      assert S[x.r][x.c] in t.cand[x.r][x.c] by {
        assert Allows(t.grid, t.cand, S);
      }
    }
  }

  /** Why a naked tuple is sound: in every solution the candidates
      allow, the |K| member cells take digits of K, all different, so they
      use up K and no other empty cell of the unit takes a digit of K. */
  lemma TupleSound(g: Grid, cand: CandGrid, S: Grid, kind: UnitKind, idx: int, K: set<int>)
    requires WellFormed(g) && Shaped(cand) && WellFormed(S) && ZeroFree(S) && ConflictFree(S) && Allows(g, cand, S)
    requires 0 <= idx < 9 && |Matching(EmptyFrom(g, kind, idx, 0), cand, K)| == |K|
    ensures var cells := EmptyFrom(g, kind, idx, 0);
      Misses(S, cells, Matching(cells, cand, K), K, |cells|)
  {
    var cells := EmptyFrom(g, kind, idx, 0);
    var members := Matching(cells, cand, K);
    EmptyOrdered(g, kind, idx, 0);
    MatchingDistinct(cells, cand, K);
    MembersTakeK(g, cand, S, kind, idx, K, cells, members);
    forall j | 0 <= j < |cells| && cells[j] !in members
      ensures S[cells[j].r][cells[j].c] !in K
    {
      InUnitIsUnitOf(kind, idx, cells[j]);
      UsesUp(S, kind, members, K, cells[j]);
    }
  }

  /** Each member of the tuple takes a digit of K in every allowed
      solution. */
  lemma MembersTakeK(g: Grid, cand: CandGrid, S: Grid, kind: UnitKind, idx: int, K: set<int>, cells: seq<Pos>, members: seq<Pos>)
    requires WellFormed(g) && Shaped(cand) && WellFormed(S) && Allows(g, cand, S) && 0 <= idx < 9
    requires forall i :: 0 <= i < |cells| ==> InBounds(cells[i].r, cells[i].c) && InUnit(kind, idx, cells[i]) && g[cells[i].r][cells[i].c] == 0
    requires members == Matching(cells, cand, K)
    ensures forall i :: 0 <= i < |members| ==>
      InBounds(members[i].r, members[i].c) && UnitOf(kind, members[i]) == idx && S[members[i].r][members[i].c] in K
  {
    forall i | 0 <= i < |members|
      ensures InBounds(members[i].r, members[i].c) && UnitOf(kind, members[i]) == idx
      ensures S[members[i].r][members[i].c] in K
    {
      var m := members[i];
      assert m in members;
      var j :| 0 <= j < |cells| && cells[j] == m;
      InUnitIsUnitOf(kind, idx, m);
      AllowsAt(g, cand, S, m);
    }
  }

  /** A strike justified by a naked tuple of u keeps every solution u
      admits. */
  lemma TupleKeeps(u: State, t: State, t1: State, kind: UnitKind, idx: int, K: set<int>)
    requires Good(u) && 0 <= idx < 9 && KeepsSolutions(u, t)
    requires var cells := EmptyFrom(u.grid, kind, idx, 0); |Matching(cells, u.cand, K)| == |K|
    requires var cells := EmptyFrom(u.grid, kind, idx, 0);
      forall S :: Admits(t, S) && Misses(S, cells, Matching(cells, u.cand, K), K, |cells|) ==> Admits(t1, S)
    ensures KeepsSolutions(u, t1)
  {
    forall S | Admits(u, S)
      ensures Admits(t1, S)
    {
      TupleSound(u.grid, u.cand, S, kind, idx, K);
    }
  }

  /** A group key is the candidate set of one of the listed cells, with
      between 2 and size digits. */
  lemma ItemKey(u: State, cells: seq<Pos>, size: int, items: seq<Item<set<int>, Pos>>, K: set<int>)
    requires Good(u) && AllInBounds(cells)
    requires items == TupleItems(cells, u.cand, size) && K in ItemKeys(items)
    ensures 2 <= |K| <= size && |Digits(K)| == |K|
  {
    var i :| 0 <= i < |items| && items[i].key == K;
    var x := items[i].value;
    assert InBounds(x.r, x.c) && K == u.cand[x.r][x.c];
    DigitsCard(K);
  }

  /** What the unit loop knows about the group at index gi. */
  lemma GroupFacts(u: State, cells: seq<Pos>, size: int, items: seq<Item<set<int>, Pos>>, gs: seq<Group<set<int>, Pos>>, gi: int)
    requires Good(u) && AllInBounds(cells)
    requires items == TupleItems(cells, u.cand, size) && gs == Collect(items) && 0 <= gi < |gs|
    ensures 2 <= |gs[gi].key| <= size && |Digits(gs[gi].key)| == |gs[gi].key|
    ensures gs[gi].members == Matching(cells, u.cand, gs[gi].key)
  {
    var K := gs[gi].key;
    assert K in Keys(gs);
    ItemKey(u, cells, size, items, K);
    LookupAt(gs, gi);
    MembersMatch(cells, u.cand, size, K);
  }

  /** When no group of the unit is a naked tuple with an elimination, the
      unit has none. */
  lemma NoTupleLeft(u: State, cells: seq<Pos>, size: int, items: seq<Item<set<int>, Pos>>, gs: seq<Group<set<int>, Pos>>)
    requires Good(u) && AllInBounds(cells)
    requires items == TupleItems(cells, u.cand, size) && gs == Collect(items)
    requires forall j :: 0 <= j < |gs| ==> !TupleIn(u, cells, gs[j].key, size)
    ensures forall K :: !TupleIn(u, cells, K, size)
  {
    forall K | TupleIn(u, cells, K, size)
      ensures false
    {
      MembersMatch(cells, u.cand, size, K);
      LookupFound(gs, K);
    }
  }

  /** One group of the unit loop: when its size test passes, strike its
      digits from the other cells. */
  method GroupStep(u: State, t0: State, did0: bool, cells: seq<Pos>, items: seq<Item<set<int>, Pos>>, gs: seq<Group<set<int>, Pos>>,
                   gi: int, kind: UnitKind, idx: int, size: int, ghost wK0: set<int>)
      returns (t: State, did: bool, ghost wK: set<int>)
    requires Good(u) && 0 <= idx < 9 && cells == EmptyFrom(u.grid, kind, idx, 0)
    requires items == TupleItems(cells, u.cand, size) && gs == Collect(items) && 0 <= gi < |gs|
    requires Advanced(u, t0, did0) && t0.grid == u.grid
    requires !did0 ==> forall j :: 0 <= j < gi ==> !TupleIn(u, cells, gs[j].key, size)
    requires did0 ==> TupleIn(u, cells, wK0, size)
    ensures Advanced(u, t, did) && t.grid == u.grid
    ensures !did ==> forall j :: 0 <= j < gi + 1 ==> !TupleIn(u, cells, gs[j].key, size)
    ensures did ==> TupleIn(u, cells, wK, size)
  {
    t, did, wK := t0, did0, wK0;
    var K, members := gs[gi].key, gs[gi].members;
    var nums := Digits(K);
    GroupFacts(u, cells, size, items, gs, gi);
    if |members| == |nums| && |nums| == size {
      var t1, d := TupleStrike(u, t, did, cells, members, K, nums, kind, idx, size);
      if !did && d {
        wK := K;
      }
      t, did := t1, did || d;
    }
  }

  /** The strike of one tuple group, from the current state t of unit
      (kind, idx) whose candidates were grouped in u. */
  method TupleStrike(u: State, t: State, did: bool, cells: seq<Pos>, members: seq<Pos>, K: set<int>, nums: seq<int>,
                     kind: UnitKind, idx: int, size: int) returns (t1: State, d: bool)
    requires Good(u) && 0 <= idx < 9 && cells == EmptyFrom(u.grid, kind, idx, 0)
    requires members == Matching(cells, u.cand, K) && |members| == |K| && 2 <= size
    requires Advanced(u, t, did) && t.grid == u.grid
    ensures Advanced(u, t1, did || d) && t1.grid == u.grid
    ensures d <==> exists i :: 0 <= i < |cells| && cells[i] !in members && t.cand[cells[i].r][cells[i].c] * K != {}
  {
    t1, d := Strike(t, cells, members, K, nums, TupleLabel(kind, size));
    ProgressTrans(u, t, t1, did, d);
    TupleKeeps(u, t, t1, kind, idx, K);
  }

  /** One unit: the groups are built from the candidates at the start of
      the unit, then processed in insertion order against the current
      candidates. A change happens exactly when the unit had a naked tuple
      with an elimination. */
  method TupleUnit(u: State, kind: UnitKind, idx: int, size: int) returns (t: State, did: bool)
    requires Good(u) && 0 <= idx < 9
    ensures Advanced(u, t, did) && t.grid == u.grid
    ensures did <==> exists K :: NakedTupleAt(u, kind, idx, K, size)
  {
    var cells := EmptyFrom(u.grid, kind, idx, 0);
    var items := TupleItems(cells, u.cand, size);
    var gs := Collect(items);
    t, did := u, false;
    AdvancedRefl(u);
    ghost var wK: set<int> := {};
    var gi := 0;
    while gi < |gs|
      invariant 0 <= gi <= |gs|
      invariant Advanced(u, t, did) && t.grid == u.grid
      invariant !did ==> forall j :: 0 <= j < gi ==> !TupleIn(u, cells, gs[j].key, size)
      invariant did ==> TupleIn(u, cells, wK, size)
    {
      t, did, wK := GroupStep(u, t, did, cells, items, gs, gi, kind, idx, size, wK);
      gi := gi + 1;
    }
    if did {
      assert NakedTupleAt(u, kind, idx, wK, size);
    } else {
      NoTupleLeft(u, cells, size, items, gs);
      assert forall K :: !NakedTupleAt(u, kind, idx, K, size);
    }
  }

  /** Scanning one more unit keeps "no naked tuple so far". */
  lemma TupleScanNext(s: State, size: int, ki: int, idx: int)
    requires Good(s) && 0 <= ki < 3 && 0 <= idx < 9
    requires forall kind, i, K :: (KindRank(kind) < ki || (KindRank(kind) == ki && i < idx)) ==> !NakedTupleAt(s, kind, i, K, size)
    requires forall K :: !NakedTupleAt(s, Kinds[ki], idx, K, size)
    ensures forall kind, i, K :: (KindRank(kind) < ki || (KindRank(kind) == ki && i < idx + 1)) ==> !NakedTupleAt(s, kind, i, K, size)
  {
    forall kind, i, K | KindRank(kind) == ki && i == idx
      ensures !NakedTupleAt(s, kind, i, K, size)
    {
      assert kind == Kinds[ki];
    }
  }

  /** techniqueNakedTuples: rows, then columns, then boxes. A change is
      reported exactly when the starting state had a naked tuple of the
      given size with an elimination somewhere. */
  method NakedTuples(s: State, size: int) returns (t: State, changed: bool)
    requires Good(s)
    ensures Advanced(s, t, changed) && t.grid == s.grid
    ensures changed <==> exists kind, idx, K :: NakedTupleAt(s, kind, idx, K, size)
  {
    t, changed := s, false;
    AdvancedRefl(s);
    ghost var wk, wi, wK := Row, 0, {};
    var ki := 0;
    while ki < 3
      invariant 0 <= ki <= 3
      invariant Advanced(s, t, changed) && t.grid == s.grid
      invariant !changed ==> forall kind, i, K :: KindRank(kind) < ki ==> !NakedTupleAt(s, kind, i, K, size)
      invariant changed ==> NakedTupleAt(s, wk, wi, wK, size)
    {
      var idx := 0;
      while idx < 9
        invariant 0 <= idx <= 9
        invariant Advanced(s, t, changed) && t.grid == s.grid
        invariant !changed ==> forall kind, i, K :: (KindRank(kind) < ki || (KindRank(kind) == ki && i < idx)) ==> !NakedTupleAt(s, kind, i, K, size)
        invariant changed ==> NakedTupleAt(s, wk, wi, wK, size)
      {
        var t1, d := TupleUnit(t, Kinds[ki], idx, size);
        if !changed && d {
          wk, wi := Kinds[ki], idx;
          wK :| NakedTupleAt(s, wk, wi, wK, size);
        } else if !changed {
          TupleScanNext(s, size, ki, idx);
        }
        ChainedTrans(s, t, t1, changed, d);
        t, changed := t1, changed || d;
        idx := idx + 1;
      }
      ki := ki + 1;
    }
  }
}

=== FILE: units.dfy ===
/** The 27 units of the grid (nine rows, nine columns, nine 3x3 boxes) as the
    ordered cell lists unitCells builds. */
module Units {
  import opened Grid

  datatype UnitKind = Row | Col | Box

  /** The three kinds in the order the techniques walk them. */
  const Kinds: seq<UnitKind> := [Row, Col, Box]

  /** The rank of a unit kind in the source's unit list: rows, then columns,
      then boxes. */
  function KindRank(kind: UnitKind): (k: int)
    ensures 0 <= k < 3 && Kinds[k] == kind
  {
    match kind
    case Row => 0
    case Col => 1
    case Box => 2
  }

  /** x modulo 3 on 0..8, written without division. */
  function Offset(x: int): int
  {
    x - 3 * Band(x)
  }

  lemma BandOffset(x: int)
    requires 0 <= x < 9
    ensures 0 <= Offset(x) <= 2 && x == 3 * Band(x) + Offset(x)
  {
  }

  lemma BandOfSum(q: int, t: int)
    requires 0 <= q <= 2 && 0 <= t <= 2
    ensures Band(3 * q + t) == q && Offset(3 * q + t) == t
  {
  }

  /** Membership of a cell in unit idx of the given kind; boxes are numbered
      row-major, box b starting at row 3 * floor(b / 3), column 3 * (b % 3). */
  predicate InUnit(kind: UnitKind, idx: int, p: Pos) {
    match kind
    case Row => p.r == idx
    case Col => p.c == idx
    case Box => 3 * Band(p.r) + Band(p.c) == idx
  }

  /** The unit of the given kind that holds cell p. */
  function UnitOf(kind: UnitKind, p: Pos): int
  {
    match kind
    case Row => p.r
    case Col => p.c
    case Box => 3 * Band(p.r) + Band(p.c)
  }

  /** Where cell p sits in the cell list of its unit. */
  function IndexIn(kind: UnitKind, p: Pos): int
  {
    match kind
    case Row => p.c
    case Col => p.r
    case Box => 3 * Offset(p.r) + Offset(p.c)
  }

  /** The k-th cell of unit idx, in the order of unitCells' loops. */
  function CellOf(kind: UnitKind, idx: int, k: int): (p: Pos)
    requires 0 <= idx < 9 && 0 <= k < 9
    ensures InBounds(p.r, p.c) && InUnit(kind, idx, p)
  {
    match kind
    case Row => Pos(idx, k)
    case Col => Pos(k, idx)
    case Box =>
      BandOffset(idx);
      BandOffset(k);
      BandOfSum(Band(idx), Band(k));
      BandOfSum(Offset(idx), Offset(k));
      Pos(3 * Band(idx) + Band(k), 3 * Offset(idx) + Offset(k))
  }

  /** unitCells: the nine cells of a unit, each once, and no cell outside
      it. */
  function UnitCells(kind: UnitKind, idx: int): (cells: seq<Pos>)
    requires 0 <= idx < 9
    ensures |cells| == 9 && Distinct(cells)
    ensures forall k :: 0 <= k < 9 ==> cells[k] == CellOf(kind, idx, k)
    ensures forall p: Pos :: InBounds(p.r, p.c) ==> (p in cells <==> InUnit(kind, idx, p))
  {
    var cells := seq(9, k requires 0 <= k < 9 => CellOf(kind, idx, k));
    UnitCellsFacts(kind, idx, cells);
    cells
  }

  /** The listing of a unit repeats no cell and misses none. */
  lemma UnitCellsFacts(kind: UnitKind, idx: int, cells: seq<Pos>)
    requires 0 <= idx < 9 && cells == seq(9, k requires 0 <= k < 9 => CellOf(kind, idx, k))
    ensures Distinct(cells)
    ensures forall p: Pos :: InBounds(p.r, p.c) ==> (p in cells <==> InUnit(kind, idx, p))
  {
    forall i, j | 0 <= i < j < 9
      ensures cells[i] != cells[j]
    {
      IndexInRoundTrip(kind, idx, i);
      IndexInRoundTrip(kind, idx, j);
    }
    forall p: Pos | InBounds(p.r, p.c)
      ensures p in cells <==> InUnit(kind, idx, p)
    {
      if InUnit(kind, idx, p) {
        CellOfRoundTrip(kind, p);
        InUnitIsUnitOf(kind, idx, p);
        assert cells[IndexIn(kind, p)] == p;
      }
    }
  }

  /** Every cell is listed by its own unit of each kind, at IndexIn, and
      nowhere else in that list. */
  lemma CellOfRoundTrip(kind: UnitKind, p: Pos)
    requires InBounds(p.r, p.c)
    ensures 0 <= UnitOf(kind, p) < 9 && 0 <= IndexIn(kind, p) < 9
    ensures InUnit(kind, UnitOf(kind, p), p)
    ensures CellOf(kind, UnitOf(kind, p), IndexIn(kind, p)) == p
  {
  }

  lemma IndexInRoundTrip(kind: UnitKind, idx: int, k: int)
    requires 0 <= idx < 9 && 0 <= k < 9
    ensures UnitOf(kind, CellOf(kind, idx, k)) == idx && IndexIn(kind, CellOf(kind, idx, k)) == k
  {
  }

  /** A cell belongs to unit idx exactly when idx is the unit of that kind
      holding it. */
  lemma InUnitIsUnitOf(kind: UnitKind, idx: int, p: Pos)
    requires InBounds(p.r, p.c)
    ensures InUnit(kind, idx, p) <==> idx == UnitOf(kind, p)
  {
  }

  /** Two cells see each other exactly when they share a unit. */
  lemma PeerIffSharedUnit(p: Pos, q: Pos)
    requires InBounds(p.r, p.c) && InBounds(q.r, q.c)
    ensures Peer(p.r, p.c, q.r, q.c) <==> exists kind: UnitKind :: UnitOf(kind, p) == UnitOf(kind, q)
  {
    if Peer(p.r, p.c, q.r, q.c) {
      if p.r == q.r {
        assert UnitOf(Row, p) == UnitOf(Row, q);
      } else if p.c == q.c {
        assert UnitOf(Col, p) == UnitOf(Col, q);
      } else {
        assert UnitOf(Box, p) == UnitOf(Box, q);
      }
    }
  }
}

=== FILE: wrappers.dfy ===
/** The failure-compatible wrappers the model needs: an optional value for the
    source's `null` returns and a result for its one thrown error. */
module Wrappers {

  datatype Option<+T> = None | Some(value: T)

  datatype Result<+R, +E> = Success(value: R) | Failure(error: E)
}

=== FILE: xwing.dfy ===
/** techniqueXWing: for a digit n, when exactly two rows have the cells that
    can take n at the same two columns, n is struck from those two columns
    in every other row; then the same with rows and columns exchanged. */
module XWing {
  import opened Wrappers
  import opened Grid
  import opened Units
  import opened Telemetry
  import opened Candidates
  import opened Engine
  import opened Scans
  import opened Deductions

  /** The two passes: along rows (a row is a line, a column a cross
      position) and along columns (the other way round). */
  datatype Axis = ByRow | ByCol

  /** `X-Wing (row)` or `X-Wing (col)`. */
  function WingLabel(axis: Axis): (tech: Technique)
    ensures tech.IsElimination()
  {
    if axis == ByRow then XWingRow else XWingCol
  }

  /** The cell of a line at a cross position. */
  function At(axis: Axis, line: int, x: int): (p: Pos)
    requires 0 <= line < 9 && 0 <= x < 9
    ensures InBounds(p.r, p.c)
  {
    if axis == ByRow then Pos(line, x) else Pos(x, line)
  }

  /** The line a cell lies on. */
  function LineOf(axis: Axis, p: Pos): int {
    if axis == ByRow then p.r else p.c
  }

  /** The cross position of a cell in its line. */
  function CrossOf(axis: Axis, p: Pos): int {
    if axis == ByRow then p.c else p.r
  }

  lemma AtRoundTrip(axis: Axis, p: Pos)
    requires InBounds(p.r, p.c)
    ensures 0 <= LineOf(axis, p) < 9 && 0 <= CrossOf(axis, p) < 9 && At(axis, LineOf(axis, p), CrossOf(axis, p)) == p
  {
  }

  /** Two cross positions on the board, ascending. */
  predicate ValidKey(key: (int, int)) {
    0 <= key.0 < key.1 < 9
  }

  /** The cross positions k.. of a line whose cells are empty and list n,
      ascending: the `cols` list of the row pass, `rows` of the column
      pass. CrossesMember says which positions are listed. */
  function Crosses(g: Grid, cand: CandGrid, axis: Axis, line: int, n: int, k: int): (xs: seq<int>)
    requires WellFormed(g) && Shaped(cand) && 0 <= line < 9 && 0 <= k <= 9
    decreases 9 - k
  {
    if k == 9 then []
    else (if Holds(g, cand, At(axis, line, k), n) then [k] else []) + Crosses(g, cand, axis, line, n, k + 1)
  }

  /** The cross positions are listed ascending, from k on. */
  lemma {:induction false} CrossesSorted(g: Grid, cand: CandGrid, axis: Axis, line: int, n: int, k: int)
    requires WellFormed(g) && Shaped(cand) && 0 <= line < 9 && 0 <= k <= 9
    decreases 9 - k
    ensures forall i :: 0 <= i < |Crosses(g, cand, axis, line, n, k)| ==> k <= Crosses(g, cand, axis, line, n, k)[i] < 9
    ensures forall i, j :: 0 <= i < j < |Crosses(g, cand, axis, line, n, k)| ==>
      Crosses(g, cand, axis, line, n, k)[i] < Crosses(g, cand, axis, line, n, k)[j]
  {
    if k < 9 {
      CrossesSorted(g, cand, axis, line, n, k + 1);
      var rest := Crosses(g, cand, axis, line, n, k + 1);
      if Holds(g, cand, At(axis, line, k), n) {
        var xs := [k] + rest;
        assert Crosses(g, cand, axis, line, n, k) == xs;
        forall i | 1 <= i < |xs|
          ensures xs[i] == rest[i - 1] && k < xs[i] < 9
        {
        }
        forall i, j | 0 <= i < j < |xs|
          ensures xs[i] < xs[j]
        {
          if i > 0 {
            assert xs[i] == rest[i - 1] && xs[j] == rest[j - 1];
          }
        }
      } else {
        assert Crosses(g, cand, axis, line, n, k) == rest;
      }
    }
  }

  /** A cross position x from k on is listed exactly when its cell is
      empty and lists n. */
  lemma {:induction false} CrossesMember(g: Grid, cand: CandGrid, axis: Axis, line: int, n: int, k: int, x: int)
    requires WellFormed(g) && Shaped(cand) && 0 <= line < 9 && 0 <= k <= 9 && 0 <= x < 9
    decreases 9 - k
    ensures x in Crosses(g, cand, axis, line, n, k) <==> k <= x && Holds(g, cand, At(axis, line, x), n)
  {
    if k < 9 {
      CrossesMember(g, cand, axis, line, n, k + 1, x);
      var head: seq<int> := if Holds(g, cand, At(axis, line, k), n) then [k] else [];
      assert Crosses(g, cand, axis, line, n, k) == head + Crosses(g, cand, axis, line, n, k + 1);
      if x == k {
        assert x in head <==> Holds(g, cand, At(axis, line, x), n);
      } else {
        assert x !in head;
      }
    }
  }

  /** The two cross positions holding n in a line when there are exactly
      two (the joined key of rowCols / colRows), and nothing otherwise. The
      ValidKey guard always holds there (CrossesSorted). */
  function Wing(g: Grid, cand: CandGrid, axis: Axis, n: int, line: int): (w: Option<(int, int)>)
    requires WellFormed(g) && Shaped(cand) && 0 <= line < 9
    ensures w.Some? ==> ValidKey(w.value)
  {
    var xs := Crosses(g, cand, axis, line, n, 0);
    if |xs| == 2 && ValidKey((xs[0], xs[1])) then Some((xs[0], xs[1])) else None
  }

  /** The cells of a line that hold n are exactly those at the two cross
      positions of key. */
  ghost predicate HeldAt(g: Grid, cand: CandGrid, axis: Axis, n: int, line: int, key: (int, int))
    requires WellFormed(g) && Shaped(cand) && 0 <= line < 9
  {
    forall x :: 0 <= x < 9 ==> (Holds(g, cand, At(axis, line, x), n) <==> x == key.0 || x == key.1)
  }

  /** Wing read cell by cell: the line has key as its wing exactly when the
      cells of the line that hold n are those at the two cross positions of
      key. */
  lemma WingIff(g: Grid, cand: CandGrid, axis: Axis, n: int, line: int, key: (int, int))
    requires WellFormed(g) && Shaped(cand) && 0 <= line < 9
    ensures Wing(g, cand, axis, n, line) == Some(key) <==> ValidKey(key) && HeldAt(g, cand, axis, n, line, key)
  {
    if Wing(g, cand, axis, n, line) == Some(key) {
      WingHeld(g, cand, axis, n, line, key);
    }
    if ValidKey(key) && HeldAt(g, cand, axis, n, line, key) {
      HeldWing(g, cand, axis, n, line, key);
    }
  }

  lemma WingHeld(g: Grid, cand: CandGrid, axis: Axis, n: int, line: int, key: (int, int))
    requires WellFormed(g) && Shaped(cand) && 0 <= line < 9
    requires Wing(g, cand, axis, n, line) == Some(key)
    ensures HeldAt(g, cand, axis, n, line, key)
  {
    var xs := Crosses(g, cand, axis, line, n, 0);
    assert xs == [key.0, key.1];
    CrossesHeld(g, cand, axis, n, line, key);
  }

  /** A line whose cross positions holding n are key.0 and key.1 holds n
      there and nowhere else. */
  lemma CrossesHeld(g: Grid, cand: CandGrid, axis: Axis, n: int, line: int, key: (int, int))
    requires WellFormed(g) && Shaped(cand) && 0 <= line < 9
    requires Crosses(g, cand, axis, line, n, 0) == [key.0, key.1]
    ensures HeldAt(g, cand, axis, n, line, key)
  {
    forall x | 0 <= x < 9
      ensures Holds(g, cand, At(axis, line, x), n) <==> x == key.0 || x == key.1
    {
      CrossesMember(g, cand, axis, line, n, 0, x);
    }
  }

  lemma HeldWing(g: Grid, cand: CandGrid, axis: Axis, n: int, line: int, key: (int, int))
    requires WellFormed(g) && Shaped(cand) && 0 <= line < 9
    requires ValidKey(key) && HeldAt(g, cand, axis, n, line, key)
    ensures Wing(g, cand, axis, n, line) == Some(key)
  {
    var xs := Crosses(g, cand, axis, line, n, 0);
    CrossesSorted(g, cand, axis, line, n, 0);
    CrossesMember(g, cand, axis, line, n, 0, key.0);
    CrossesMember(g, cand, axis, line, n, 0, key.1);
    forall i | 0 <= i < |xs|
      ensures xs[i] == key.0 || xs[i] == key.1
    {
      CrossesMember(g, cand, axis, line, n, 0, xs[i]);
    }
    TwoSorted(xs, key.0, key.1);
  }

  /** An ascending list holding a and b and nothing else is [a, b]. */
  lemma TwoSorted(xs: seq<int>, a: int, b: int)
    requires a < b && a in xs && b in xs
    requires forall i :: 0 <= i < |xs| ==> xs[i] == a || xs[i] == b
    requires forall i, j :: 0 <= i < j < |xs| ==> xs[i] < xs[j]
    ensures xs == [a, b]
  {
    var i0 :| 0 <= i0 < |xs| && xs[i0] == a;
    var i1 :| 0 <= i1 < |xs| && xs[i1] == b;
    assert forall i :: 0 <= i < |xs| ==> (xs[i] == a ==> i == i0) && (xs[i] == b ==> i == i1);
    assert i0 < i1;
    assert xs[0] == a && xs[1] == b && xs[|xs| - 1] == b;
  }

  /** The wing of every line, line by line. */
  function Wings(g: Grid, cand: CandGrid, axis: Axis, n: int): (ws: seq<Option<(int, int)>>)
    requires WellFormed(g) && Shaped(cand)
    ensures |ws| == 9 && forall L :: 0 <= L < 9 ==> ws[L] == Wing(g, cand, axis, n, L)
  {
    seq(9, L requires 0 <= L < 9 => Wing(g, cand, axis, n, L))
  }

  /** The (key, line) entries for the lines before m, in line order, of
      the lines' wings ws. */
  function ItemsOf(ws: seq<Option<(int, int)>>, m: int): (items: seq<Item<(int, int), int>>)
    requires 0 <= m <= |ws|
    decreases m
    ensures forall i :: 0 <= i < |items| ==> 0 <= items[i].value < m && ws[items[i].value] == Some(items[i].key)
  {
    if m == 0 then []
    else ItemsOf(ws, m - 1) + (if ws[m - 1].Some? then [Item(ws[m - 1].value, m - 1)] else [])
  }

  /** The lines before m whose wing in ws is key, ascending. */
  function LinesOf(ws: seq<Option<(int, int)>>, key: (int, int), m: int): (ls: seq<int>)
    requires 0 <= m <= |ws|
    decreases m
  {
    if m == 0 then []
    else LinesOf(ws, key, m - 1) + (if ws[m - 1] == Some(key) then [m - 1] else [])
  }

  /** LinesOf lists exactly the lines before m whose wing is key. */
  lemma {:induction false} LinesOfIff(ws: seq<Option<(int, int)>>, key: (int, int), m: int)
    requires 0 <= m <= |ws|
    decreases m
    ensures forall L :: L in LinesOf(ws, key, m) <==> 0 <= L < m && ws[L] == Some(key)
  {
    if m > 0 {
      LinesOfIff(ws, key, m - 1);
      var front := LinesOf(ws, key, m - 1);
      var last: seq<int> := if ws[m - 1] == Some(key) then [m - 1] else [];
      assert LinesOf(ws, key, m) == front + last;
      forall L
        ensures L in front + last <==> 0 <= L < m && ws[L] == Some(key)
      {
        assert L in front + last <==> L in front || L in last;
        if L == m - 1 {
          assert L !in front;
        } else {
          assert L !in last;
        }
      }
    }
  }

  /** The group of a key collects exactly the lines whose wing it is. */
  lemma {:induction false} MembersOfItems(ws: seq<Option<(int, int)>>, key: (int, int), m: int)
    requires 0 <= m <= |ws|
    decreases m
    ensures MembersOf(ItemsOf(ws, m), key) == LinesOf(ws, key, m)
  {
    if m > 0 {
      MembersOfItems(ws, key, m - 1);
      var a := ItemsOf(ws, m - 1);
      var w := ws[m - 1];
      if w.Some? {
        var items := a + [Item(w.value, m - 1)];
        assert ItemsOf(ws, m) == items;
        assert items[..|items| - 1] == a;
      } else {
        assert ItemsOf(ws, m) == a;
      }
    }
  }

  /** The (key, line) entries of rowCols / colRows for the lines before m,
      in line order. */
  function WingItems(g: Grid, cand: CandGrid, axis: Axis, n: int, m: int): (items: seq<Item<(int, int), int>>)
    requires WellFormed(g) && Shaped(cand) && 0 <= m <= 9
    ensures forall i :: 0 <= i < |items| ==> 0 <= items[i].value < m && Wing(g, cand, axis, n, items[i].value) == Some(items[i].key)
  {
    ItemsOf(Wings(g, cand, axis, n), m)
  }

  /** The lines before m whose wing is key, ascending. */
  function LinesWith(g: Grid, cand: CandGrid, axis: Axis, n: int, key: (int, int), m: int): (ls: seq<int>)
    requires WellFormed(g) && Shaped(cand) && 0 <= m <= 9
  {
    LinesOf(Wings(g, cand, axis, n), key, m)
  }

  /** LinesWith lists exactly the lines before m whose wing is key. */
  lemma LinesWithIff(g: Grid, cand: CandGrid, axis: Axis, n: int, key: (int, int), m: int)
    requires WellFormed(g) && Shaped(cand) && 0 <= m <= 9
    ensures forall L :: L in LinesWith(g, cand, axis, n, key, m) <==> 0 <= L < m && Wing(g, cand, axis, n, L) == Some(key)
  {
    LinesOfIff(Wings(g, cand, axis, n), key, m);
  }

  /** The group of a key collects exactly the lines whose wing it is. */
  lemma MembersLines(g: Grid, cand: CandGrid, axis: Axis, n: int, key: (int, int), m: int)
    requires WellFormed(g) && Shaped(cand) && 0 <= m <= 9
    ensures MembersOf(WingItems(g, cand, axis, n, m), key) == LinesWith(g, cand, axis, n, key, m)
  {
    MembersOfItems(Wings(g, cand, axis, n), key, m);
  }

  /** The cells a wing strikes, for the lines from L on: both cross
      positions of key in every line not among `lines`, line by line. */
  function TargetsFrom(axis: Axis, lines: seq<int>, key: (int, int), L: int): (ts: seq<Pos>)
    requires ValidKey(key) && 0 <= L <= 9
    decreases 9 - L
    ensures AllInBounds(ts)
  {
    if L == 9 then []
    else
      var rest := TargetsFrom(axis, lines, key, L + 1);
      if L in lines then rest else [At(axis, L, key.0), At(axis, L, key.1)] + rest
  }

  /** The targets are exactly the cells at the two cross positions of key
      in the lines from L on that are not among `lines`. */
  lemma {:induction false} TargetsExactly(axis: Axis, lines: seq<int>, key: (int, int), L: int, p: Pos)
    requires ValidKey(key) && 0 <= L <= 9 && InBounds(p.r, p.c)
    decreases 9 - L
    ensures p in TargetsFrom(axis, lines, key, L) <==>
      L <= LineOf(axis, p) && LineOf(axis, p) !in lines && (CrossOf(axis, p) == key.0 || CrossOf(axis, p) == key.1)
  {
    AtRoundTrip(axis, p);
    if L < 9 {
      TargetsExactly(axis, lines, key, L + 1, p);
      var rest := TargetsFrom(axis, lines, key, L + 1);
      if L !in lines {
        var a, b := At(axis, L, key.0), At(axis, L, key.1);
        assert TargetsFrom(axis, lines, key, L) == [a, b] + rest;
        assert p == a <==> LineOf(axis, p) == L && CrossOf(axis, p) == key.0;
        assert p == b <==> LineOf(axis, p) == L && CrossOf(axis, p) == key.1;
      }
    }
  }

  /** The targets lie on the board, in the lines from L on, each once. */
  lemma {:induction false} TargetsDistinct(axis: Axis, lines: seq<int>, key: (int, int), L: int)
    requires ValidKey(key) && 0 <= L <= 9
    decreases 9 - L
    ensures var ts := TargetsFrom(axis, lines, key, L);
      Distinct(ts) && forall i :: 0 <= i < |ts| ==> L <= LineOf(axis, ts[i])
  {
    if L < 9 {
      TargetsDistinct(axis, lines, key, L + 1);
      var rest := TargetsFrom(axis, lines, key, L + 1);
      if L !in lines {
        var ts := [At(axis, L, key.0), At(axis, L, key.1)] + rest;
        assert forall i :: 2 <= i < |ts| ==> ts[i] == rest[i - 2];
      }
    }
  }

  /** The lines before m whose wing is key come in ascending order. */
  lemma {:induction false} LinesOfAscending(ws: seq<Option<(int, int)>>, key: (int, int), m: int)
    requires 0 <= m <= |ws|
    decreases m
    ensures forall i, j :: 0 <= i < j < |LinesOf(ws, key, m)| ==> LinesOf(ws, key, m)[i] < LinesOf(ws, key, m)[j]
  {
    if m > 0 {
      LinesOfAscending(ws, key, m - 1);
      LinesOfIff(ws, key, m - 1);
      var front := LinesOf(ws, key, m - 1);
      if ws[m - 1] == Some(key) {
        var ls := front + [m - 1];
        assert LinesOf(ws, key, m) == ls;
        forall i, j | 0 <= i < j < |ls|
          ensures ls[i] < ls[j]
        {
          assert ls[i] == front[i] && ls[i] in front;
          if j < |front| {
            assert ls[j] == front[j] && front[i] < front[j];
          } else {
            assert ls[j] == m - 1;
          }
        }
      } else {
        assert LinesOf(ws, key, m) == front;
      }
    }
  }

  /** The kind of unit a line is: a row in the row pass, a column in the
      column pass. */
  function LineKind(axis: Axis): UnitKind {
    if axis == ByRow then Row else Col
  }

  /** The kind of unit a cross position names. */
  function CrossKind(axis: Axis): UnitKind {
    if axis == ByRow then Col else Row
  }

  /** In every solution the candidates allow, a line whose holders of n
      sit at the two cross positions of key has n at one of them. */
  lemma LineLands(g: Grid, cand: CandGrid, S: Grid, axis: Axis, n: int, L: int, key: (int, int)) returns (p: Pos)
    requires WellFormed(g) && Shaped(cand) && Sound(g, cand) && Solves(S, g) && Allows(g, cand, S) && 0 <= L < 9
    requires ValidKey(key) && HeldAt(g, cand, axis, n, L, key)
    ensures InBounds(p.r, p.c) && LineOf(axis, p) == L && (CrossOf(axis, p) == key.0 || CrossOf(axis, p) == key.1)
    ensures S[p.r][p.c] == n
  {
    var h := At(axis, L, key.0);
    assert Holds(g, cand, h, n);
    assert InUnit(LineKind(axis), L, h);
    p := Lands(g, cand, S, LineKind(axis), L, n, h);
    var ps := Holders(g, cand, LineKind(axis), L, n);
    var i :| 0 <= i < |ps| && ps[i] == p;
    HolderAt(g, cand, LineKind(axis), L, n, i);
    AtRoundTrip(axis, p);
    assert Holds(g, cand, At(axis, L, CrossOf(axis, p)), n);
  }

  /** Two cells holding n in different lines at different cross positions
      of key block n from every other line at those cross positions. */
  lemma CrossBlocked(S: Grid, axis: Axis, p: Pos, q: Pos, key: (int, int), lines: seq<int>, n: int, x: Pos)
    requires WellFormed(S) && ZeroFree(S) && ConflictFree(S) && ValidKey(key) && |lines| == 2
    requires InBounds(p.r, p.c) && LineOf(axis, p) == lines[0] && (CrossOf(axis, p) == key.0 || CrossOf(axis, p) == key.1)
    requires InBounds(q.r, q.c) && LineOf(axis, q) == lines[1] && (CrossOf(axis, q) == key.0 || CrossOf(axis, q) == key.1)
    requires lines[0] != lines[1] && S[p.r][p.c] == n && S[q.r][q.c] == n
    requires InBounds(x.r, x.c) && LineOf(axis, x) !in lines && (CrossOf(axis, x) == key.0 || CrossOf(axis, x) == key.1)
    ensures S[x.r][x.c] != n
  {
    if CrossOf(axis, p) == CrossOf(axis, q) {
      UnitCellsDiffer(S, CrossKind(axis), p, q);
    }
    var y := if CrossOf(axis, p) == CrossOf(axis, x) then p else q;
    assert LineOf(axis, y) in lines;
    UnitCellsDiffer(S, CrossKind(axis), y, x);
  }

  /** Why an X-Wing is sound: in every solution the candidates allow, each
      of the two lines has n at one of the two cross positions, and not at
      the same one, so those cross positions get their n from the two
      lines and no target holds n. */
  lemma WingSound(g: Grid, cand: CandGrid, S: Grid, axis: Axis, n: int, key: (int, int), lines: seq<int>)
    requires WellFormed(g) && Shaped(cand) && Sound(g, cand) && Solves(S, g) && Allows(g, cand, S)
    requires ValidKey(key) && |lines| == 2 && lines[0] != lines[1] && 0 <= lines[0] < 9 && 0 <= lines[1] < 9
    requires HeldAt(g, cand, axis, n, lines[0], key) && HeldAt(g, cand, axis, n, lines[1], key)
    ensures var cells := TargetsFrom(axis, lines, key, 0); Avoids(g, S, cells, n, |cells|)
  {
    var cells := TargetsFrom(axis, lines, key, 0);
    var p := LineLands(g, cand, S, axis, n, lines[0], key);
    var q := LineLands(g, cand, S, axis, n, lines[1], key);
    forall i | 0 <= i < |cells|
      ensures S[cells[i].r][cells[i].c] != n
    {
      TargetsExactly(axis, lines, key, 0, cells[i]);
      CrossBlocked(S, axis, p, q, key, lines, n, cells[i]);
    }
  }

  /** Every solution s admits keeps n off the cells. */
  ghost predicate Cleared(s: State, cells: seq<Pos>, n: int)
    requires AllInBounds(cells)
  {
    forall S :: Admits(s, S) ==> Avoids(s.grid, S, cells, n, |cells|)
  }

  /** The group of two lines of a digit is an X-Wing deduction at s: its
      targets hold n in no solution s admits. */
  lemma WingForced(s: State, axis: Axis, n: int, key: (int, int), lines: seq<int>)
    requires Good(s) && ValidKey(key) && lines == LinesWith(s.grid, s.cand, axis, n, key, 9) && |lines| == 2
    ensures Cleared(s, TargetsFrom(axis, lines, key, 0), n)
  {
    LinesWithIff(s.grid, s.cand, axis, n, key, 9);
    LinesOfAscending(Wings(s.grid, s.cand, axis, n), key, 9);
    assert lines[0] in lines && lines[1] in lines;
    WingIff(s.grid, s.cand, axis, n, lines[0], key);
    WingIff(s.grid, s.cand, axis, n, lines[1], key);
    WingClears(s, axis, n, key, lines);
  }

  lemma WingClears(s: State, axis: Axis, n: int, key: (int, int), lines: seq<int>)
    requires Good(s) && ValidKey(key) && |lines| == 2 && lines[0] != lines[1] && 0 <= lines[0] < 9 && 0 <= lines[1] < 9
    requires HeldAt(s.grid, s.cand, axis, n, lines[0], key) && HeldAt(s.grid, s.cand, axis, n, lines[1], key)
    ensures Cleared(s, TargetsFrom(axis, lines, key, 0), n)
  {
    var cells := TargetsFrom(axis, lines, key, 0);
    forall S | Admits(s, S)
      ensures Avoids(s.grid, S, cells, n, |cells|)
    {
      WingSound(s.grid, s.cand, S, axis, n, key, lines);
    }
  }

  /** Striking n from cells that no solution of the start s holds it in
      keeps every solution s admits. */
  lemma WingKeeps(s: State, t0: State, t1: State, cells: seq<Pos>, n: int)
    requires Good(s) && AllInBounds(cells) && KeepsSolutions(s, t0) && t0.grid == s.grid && Cleared(s, cells, n)
    requires forall S :: Admits(t0, S) && Avoids(t0.grid, S, cells, n, |cells|) ==> Admits(t1, S)
    ensures KeepsSolutions(s, t1)
  {
  }

  /** The lines hold an X-Wing: exactly two of them, and some target still
      lists n. */
  ghost predicate Strikes(s: State, axis: Axis, n: int, key: (int, int), lines: seq<int>)
    requires Good(s) && ValidKey(key)
  {
    |lines| == 2 && SomeHolds(s, TargetsFrom(axis, lines, key, 0), n)
  }

  /** In s, exactly two lines of the pass have the holders of n at the two
      cross positions of key, and a cell at one of those cross positions in
      another line still lists n. */
  ghost predicate XWingAt(s: State, axis: Axis, n: int, key: (int, int)) {
    Good(s) && ValidKey(key) && Strikes(s, axis, n, key, LinesWith(s.grid, s.cand, axis, n, key, 9))
  }

  /** What the group loop of one digit knows before group gi. */
  ghost predicate WScan(s: State, axis: Axis, n: int, gs: seq<Group<(int, int), int>>, t: State, did: bool, gi: int, wk: (int, int)) {
    var ok := Advanced(s, t, did) && t.grid == s.grid
      && (!did ==> forall j :: 0 <= j < gi && j < |gs| ==> !XWingAt(s, axis, n, gs[j].key))
      && (did ==> XWingAt(s, axis, n, wk));
    ok
  }

  /** A group's key is a valid key and its members are the lines with that
      wing. */
  lemma GroupKey(s: State, axis: Axis, n: int, items: seq<Item<(int, int), int>>, gs: seq<Group<(int, int), int>>, gi: int)
    requires Good(s) && items == WingItems(s.grid, s.cand, axis, n, 9) && gs == Collect(items) && 0 <= gi < |gs|
    ensures ValidKey(gs[gi].key) && gs[gi].members == LinesWith(s.grid, s.cand, axis, n, gs[gi].key, 9)
  {
    var key := gs[gi].key;
    assert key in Keys(gs);
    var i :| 0 <= i < |items| && items[i].key == key;
    LookupAt(gs, gi);
    MembersLines(s.grid, s.cand, axis, n, key, 9);
  }

  /** One group of the digit: when it has exactly two lines, n is struck
      from the targets. */
  method WingGroup(s: State, axis: Axis, n: int, items: seq<Item<(int, int), int>>, gs: seq<Group<(int, int), int>>, gi: int,
                   t0: State, did0: bool, ghost wk0: (int, int))
      returns (t: State, did: bool, ghost wk: (int, int))
    requires Good(s) && items == WingItems(s.grid, s.cand, axis, n, 9) && gs == Collect(items) && 0 <= gi < |gs|
    requires WScan(s, axis, n, gs, t0, did0, gi, wk0)
    ensures WScan(s, axis, n, gs, t, did, gi + 1, wk)
  {
    t, did, wk := t0, did0, wk0;
    var key, lines := gs[gi].key, gs[gi].members;
    GroupKey(s, axis, n, items, gs, gi);
    if |lines| == 2 {
      var cells := TargetsFrom(axis, lines, key, 0);
      TargetsDistinct(axis, lines, key, 0);
      WingForced(s, axis, n, key, lines);
      var t1, d := EliminateAll(t0, cells, n, WingLabel(axis));
      WingKeeps(s, t0, t1, cells, n);
      ProgressTrans(s, t0, t1, did0, d);
      t, did := t1, did0 || d;
      if !did0 {
        assert t0 == s;
        assert d <==> XWingAt(s, axis, n, key);
        if d {
          wk := key;
        }
      }
    } else {
      assert !XWingAt(s, axis, n, key);
    }
    if !did {
      assert !XWingAt(s, axis, n, key);
      forall j | 0 <= j < gi + 1 && j < |gs|
        ensures !XWingAt(s, axis, n, gs[j].key)
      {
        if j == gi {
          assert gs[j].key == key;
        }
      }
    }
  }

  /** When no group of the digit is an X-Wing, the digit has none. */
  lemma NoWingLeft(s: State, axis: Axis, n: int, items: seq<Item<(int, int), int>>, gs: seq<Group<(int, int), int>>)
    requires Good(s) && items == WingItems(s.grid, s.cand, axis, n, 9) && gs == Collect(items)
    requires forall j :: 0 <= j < |gs| ==> !XWingAt(s, axis, n, gs[j].key)
    ensures forall key :: !XWingAt(s, axis, n, key)
  {
    forall key | XWingAt(s, axis, n, key)
      ensures false
    {
      var ls := LinesWith(s.grid, s.cand, axis, n, key, 9);
      LinesWithIff(s.grid, s.cand, axis, n, key, 9);
      assert ls[0] in ls;
      KeyListed(s.grid, s.cand, axis, n, key, ls[0], items, gs);
    }
  }

  /** Every wing of a line is the key of one of the groups. */
  lemma KeyListed(g: Grid, cand: CandGrid, axis: Axis, n: int, key: (int, int), L: int,
                  items: seq<Item<(int, int), int>>, gs: seq<Group<(int, int), int>>)
    requires WellFormed(g) && Shaped(cand) && 0 <= L < 9 && Wing(g, cand, axis, n, L) == Some(key)
    requires items == WingItems(g, cand, axis, n, 9) && gs == Collect(items)
    ensures exists j :: 0 <= j < |gs| && gs[j].key == key
  {
    LinesWithIff(g, cand, axis, n, key, 9);
    MembersLines(g, cand, axis, n, key, 9);
    assert L in MembersOf(items, key);
    LookupFound(gs, key);
  }

  /** One digit of a pass: the groups are built from the candidates at the
      start of the digit, then processed in first-occurrence order against
      the current candidates. A change happens exactly when the digit had an
      X-Wing with something to strike. */
  method WingDigit(s: State, axis: Axis, n: int) returns (t: State, did: bool)
    requires Good(s)
    ensures Advanced(s, t, did) && t.grid == s.grid
    ensures did <==> exists key :: XWingAt(s, axis, n, key)
  {
    var items := WingItems(s.grid, s.cand, axis, n, 9);
    var gs := Collect(items);
    t, did := s, false;
    AdvancedRefl(s);
    ghost var wk := (0, 1);
    var gi := 0;
    while gi < |gs|
      invariant 0 <= gi <= |gs|
      invariant WScan(s, axis, n, gs, t, did, gi, wk)
    {
      t, did, wk := WingGroup(s, axis, n, items, gs, gi, t, did, wk);
      gi := gi + 1;
    }
    if !did {
      NoWingLeft(s, axis, n, items, gs);
    }
  }

  /** One pass over the digits 1..9. A change is reported exactly when the
      starting state had an X-Wing along that axis. */
  method WingPass(s: State, axis: Axis) returns (t: State, changed: bool)
    requires Good(s)
    ensures Advanced(s, t, changed) && t.grid == s.grid
    ensures changed <==> exists n, key :: 1 <= n <= 9 && XWingAt(s, axis, n, key)
  {
    t, changed := s, false;
    AdvancedRefl(s);
    ghost var wn, wk := 1, (0, 1);
    var n := 1;
    while n <= 9
      invariant 1 <= n <= 10
      invariant Advanced(s, t, changed) && t.grid == s.grid
      invariant !changed ==> forall m, key :: 1 <= m < n ==> !XWingAt(s, axis, m, key)
      invariant changed ==> 1 <= wn <= 9 && XWingAt(s, axis, wn, wk)
    {
      var t1, d := WingDigit(t, axis, n);
      if !changed && d {
        wn := n;
        wk :| XWingAt(s, axis, wn, wk);
      } else if !changed {
        WingScanNext(s, axis, n);
      }
      ChainedTrans(s, t, t1, changed, d);
      t, changed := t1, changed || d;
      n := n + 1;
    }
  }

  /** Scanning one more digit keeps "no X-Wing so far". */
  lemma WingScanNext(s: State, axis: Axis, n: int)
    requires Good(s)
    requires forall m, key :: 1 <= m < n ==> !XWingAt(s, axis, m, key)
    requires forall key :: !XWingAt(s, axis, n, key)
    ensures forall m, key :: 1 <= m < n + 1 ==> !XWingAt(s, axis, m, key)
  {
    forall m, key | 1 <= m < n + 1
      ensures !XWingAt(s, axis, m, key)
    {
      if m == n {
        assert !XWingAt(s, axis, n, key);
      }
    }
  }

  /** techniqueXWing: the row pass, then the column pass on what the row
      pass left. A change is reported exactly when the starting state had
      an X-Wing along rows or along columns. */
  method XWings(s: State) returns (t: State, changed: bool)
    requires Good(s)
    ensures Advanced(s, t, changed) && t.grid == s.grid
    ensures changed <==> exists axis, n, key :: 1 <= n <= 9 && XWingAt(s, axis, n, key)
  {
    var t1, c1 := WingPass(s, ByRow);
    var t2, c2 := WingPass(t1, ByCol);
    ChainedTrans(s, t1, t2, c1, c2);
    t, changed := t2, c1 || c2;
    if c1 {
      ghost var n, key :| 1 <= n <= 9 && XWingAt(s, ByRow, n, key);
    }
    if !changed {
      forall axis, n, key | 1 <= n <= 9
        ensures !XWingAt(s, axis, n, key)
      {
        match axis
        case ByRow =>
        case ByCol =>
      }
    }
  }
}
